=== FILE: README.md ===
# FED_RT core in Dafny

FED_RT connects FED3 pellet dispensers to a host computer. The dispenser's
firmware (`RTFED_RTT525.cpp`) does four things:
- It feeds pellets and clears jams, raising an alarm after fifty empty motor turns.
- It prints one CSV row per event, to its SD card and to the USB serial line.
- It names its log file.
- It answers three host commands on the serial line: `SET_TIME`, `SET_MODE` and `TRIGGER_POKE`.

Three Raspberry Pi scripts read these rows:
- **PiCAM** validates each row and caches it. Every five seconds it sends the rows to a Google worksheet. Selected events start video recordings.
- **PiOS** does the same without validation and without video.
- **TTL** turns events into 100 ms pulses on GPIO pins and writes a per-port summary.

All three scripts identify which board sits on which port. They resynchronise the board clocks and watch ports come and go.

This project models that core as pure functions over immutable data. It proves what each part promises:
- the row layout and the fact that a row splits back into its fields;
- the command round trips;
- the jam schedule and the feeding loop's two possible endings;
- the bound on consecutive active sides;
- that the host loops never lose or duplicate a row;
- the TTL pulses agreeing with the summary;
- the port bookkeeping.

Modules, one per file:

| module | models |
|---|---|
| `Wrappers` | `Option` |
| `Text` | Python `split`/`join`/`strip`/`lower`, Arduino `trim`, decimal rendering |
| `FedCommands` | `checkSerialCommands`, `run()`, `sscanf`/`toInt` |
| `FedFeeder` | `Feed`, the jam schedule, `RotateDisk`, `Alarm` |
| `FedFilename` | `getFilename`, `FigureToPellet` |
| `FedLog` | `writeHeader`, `logdata` |
| `FedMenus` | the mode, device-number, timed-feeding and pellet-type menus, `ClassicMenu` ratios |
| `FedPokes` | `randomizeActivePoke` |
| `HostRow` | `column_headers`, `validate_data`, the arity tests, the identification readers |
| `TimeSync` | the per-port `time_sync_commands` marker |
| `SheetRows` | worksheet appends and the synthetic JAM row |
| `PiCamRegistry`, `PiCamSession` | PiCAM's port maps, connection check, logging guard and `read_from_port` |
| `PiOsRegistry`, `PiOsSession` | the same for PiOS |
| `TtlEvents`, `TtlPorts` | the TTL event handlers, reader loop, summary, port naming and logging guard |
| `Discovery` | FED3 port detection, connection retries, name cleaning |

Inputs the programs take from the world are parameters:
- serial lines
- the clock, in milliseconds
- pellet-sensor outcomes
- random draws
- whether a port opens
- what a worksheet call did

Pin writes and worksheet appends are returned as lists.

## Model

| member | source | states |
|---|---|---|
| Text.Split | scripts/RTFED_TTL/RTFEDPiTTL.py:163 | `line.split(",")` gives at least one field and no field contains the separator |
| Text.JoinSplit | scripts/RTFED_TTL/RTFEDPiTTL.py:163 | re-joining the fields of a split line gives back the line |
| Text.SplitJoin | source/FED3_Library/RTT/RTFED_RTT525.cpp:1202-1330 | comma-free fields printed with commas between them split back into exactly those fields |
| Text.StripIdempotent | scripts/RTFED_TTL/RTFEDPiTTL.py:143 | stripping an already stripped line changes nothing |
| Text.Lower | scripts/RTFED_TTL/RTFEDPiTTL.py:78 | `lower()` keeps the length, leaves no capital, and maps each capital to its small letter |
| Text.NatToStringValue | source/FED3_Library/RTT/RTFED_RTT525.cpp:1208 | reading back the decimal text of a number gives the number |
| Text.ContainsChar | scripts/RTFED_PiCAM/RTFEDPiCAM.py:500 | `"," in line` holds exactly when the character occurs in the line |
| FedCommands.Saturate | source/FED3_Library/RTT/RTFED_RTT525.cpp:91-93 | a `%d` value out of 32-bit range is clamped; in range it is unchanged |
| FedCommands.CString | source/FED3_Library/RTT/RTFED_RTT525.cpp:89-91 | C sees the buffer up to its first NUL; a NUL-free text is seen whole |
| FedCommands.ToCharArray50 | source/FED3_Library/RTT/RTFED_RTT525.cpp:89-90 | at most 49 characters reach `cstr[50]`; a short payload arrives whole |
| FedCommands.ScanInt | source/FED3_Library/RTT/RTFED_RTT525.cpp:91-93 | one `%d` conversion yields a 32-bit value and consumes at least one character |
| FedCommands.ScanFields | source/FED3_Library/RTT/RTFED_RTT525.cpp:91-94 | `sscanf` assigns at most as many values as it has conversions |
| FedCommands.Atol | source/FED3_Library/RTT/RTFED_RTT525.cpp:104 | `toInt()` is a 32-bit value, and 0 when the text does not start with a number |
| FedCommands.SetTimeResponse | source/FED3_Library/RTT/RTFED_RTT525.cpp:86-99 | the reply is TIME_SET_OK or TIME_SET_FAIL; OK comes exactly with a six-value clock adjustment, FAIL with no effect (which values, and when FAIL follows, is stated by SetTimeAccepted and SetTimeGarbageFails) |
| FedCommands.SetModeResponse | source/FED3_Library/RTT/RTFED_RTT525.cpp:102-113 | MODE_SET_OK exactly when the parsed mode is in 0..15 and becomes the mode; otherwise MODE_SET_FAIL and the mode is kept |
| FedCommands.Dispatch | source/FED3_Library/RTT/RTFED_RTT525.cpp:80-120 | a trimmed line is routed by prefix to SET_TIME, SET_MODE or TRIGGER_POKE; a poke is simulated exactly when the trimmed line is TRIGGER_POKE, answered SIMULATED_POKE; any other line gets no reply and has no effect |
| FedCommands.Run | source/FED3_Library/RTT/RTFED_RTT525.cpp:123-128 | after a jam alarm no command is answered; the mode changes only on MODE_SET_OK and only into 0..15 |
| FedCommands.ScanJoined | source/FED3_Library/RTT/RTFED_RTT525.cpp:91-94 | numbers the host prints with commas between them are scanned back as the same numbers |
| FedCommands.ScanRendered | source/FED3_Library/RTT/RTFED_RTT525.cpp:91-93 | a printed number followed by a non-digit scans back as that number |
| FedCommands.SetTimeRoundTrip | source/FED3_Library/RTT/RTFED_RTT525.cpp:86-96 | the host's `SET_TIME:y,m,d,h,mi,s` line for any calendar time is answered TIME_SET_OK with exactly those six numbers |
| FedCommands.SetTimeAccepted | source/FED3_Library/RTT/RTFED_RTT525.cpp:88-96 | a short SET_TIME payload that scans as six numbers sets the clock to them |
| FedCommands.SetTimeLine | source/FED3_Library/RTT/RTFED_RTT525.cpp:82-87 | a SET_TIME line reaches the SET_TIME handler with its payload |
| FedCommands.SetTimeGarbageFails | source/FED3_Library/RTT/RTFED_RTT525.cpp:91-98 | a payload that cannot start a number is answered TIME_SET_FAIL and changes nothing |
| FedCommands.SetModeCommandPayload | scripts/RTFED_PiCAM/RTFEDPiCAM.py:611 | the host's `SET_MODE:<n>` line survives trimming and is routed to SET_MODE, not SET_TIME |
| FedCommands.SetModeRoundTrip | source/FED3_Library/RTT/RTFED_RTT525.cpp:102-108 | a mode 0..15 sent by the host is acknowledged and taken over |
| FedCommands.SetModeOutOfRangeKeepsMode | source/FED3_Library/RTT/RTFED_RTT525.cpp:105-113 | a mode above 15 is refused and the device is unchanged |
| FedCommands.SetModeWithoutNumberSelectsZero | source/FED3_Library/RTT/RTFED_RTT525.cpp:104-108 | a SET_MODE payload that is not a number is read as 0, acknowledged, and selects mode 0 |
| FedCommands.SetModeLine | source/FED3_Library/RTT/RTFED_RTT525.cpp:102-104 | a trimmed SET_MODE line reaches the SET_MODE handler with its payload |
| FedFeeder.Schedule | source/FED3_Library/RTT/RTFED_RTT525.cpp:363-388 | on turn n: MinorJam iff 5 divides n; VibrateJam iff 10 divides n but 20 does not; ClearJam iff 20 divides n; Alarm iff 50 divides n |
| FedFeeder.ScheduleShape | source/FED3_Library/RTT/RTFED_RTT525.cpp:369-387 | VibrateJam and ClearJam never share a turn; an alarm turn has already tried MinorJam and one of them |
| FedFeeder.LogEvent | source/FED3_Library/RTT/RTFED_RTT525.cpp:1162-1165 | a row is appended unless logging has stopped; nothing else changes |
| FedFeeder.RotateDisk | source/FED3_Library/RTT/RTFED_RTT525.cpp:450-453 | after a jam the motor does not move and no pellet is seen |
| FedFeeder.RaiseAlarm | source/FED3_Library/RTT/RTFED_RTT525.cpp:695-702 | the alarm logs one JAM row, then stops logging and marks the jam |
| FedFeeder.RunMoves | source/FED3_Library/RTT/RTFED_RTT525.cpp:368-387 | a turn's moves leave the device unchanged unless the alarm fires; it fires exactly when the alarm is scheduled and no earlier move saw a pellet |
| FedFeeder.Dispensed | source/FED3_Library/RTT/RTFED_RTT525.cpp:270-360 | a detected pellet logs PelletInWell then Pellet, counts one pellet and resets the motor-turn count |
| FedFeeder.Turn | source/FED3_Library/RTT/RTFED_RTT525.cpp:363-388 | an empty turn counts itself; it jams only on a multiple of 50, leaving exactly the JAM row; otherwise the alarm gets closer |
| FedFeeder.Feed | source/FED3_Library/RTT/RTFED_RTT525.cpp:247-254 | after a jam or with logging stopped, feeding changes nothing |
| FedFeeder.FeedOutcome | source/FED3_Library/RTT/RTFED_RTT525.cpp:259-389 | every feed started with the well empty ends one of two ways: one more pellet with the Pellet row last, or a JAM alarm on a multiple of 50 turns with no pellet; rows are only appended |
| FedFeeder.EmptyHopperJamsAtFifty | source/FED3_Library/RTT/RTFED_RTT525.cpp:363-389 | with a sensor that never sees a pellet, a feed from turn 0..49 jams at turn 50 and logs only the JAM row |
| FedFeeder.NoPelletRunsToAlarm | source/FED3_Library/RTT/RTFED_RTT525.cpp:363-389 | the loop with an empty sensor runs to turn 50 and raises the alarm |
| FedFeeder.EmptyTurnCounts | source/FED3_Library/RTT/RTFED_RTT525.cpp:364-388 | below turn 49 an empty turn only advances the count |
| FedFeeder.EmptyTurnAlarms | source/FED3_Library/RTT/RTFED_RTT525.cpp:383-387 | the fiftieth empty turn sets both jam flags and logs JAM with count 50 |
| FedFeeder.NoPelletMoves | source/FED3_Library/RTT/RTFED_RTT525.cpp:368-387 | with an empty sensor the moves see no pellet and jam exactly when the alarm is among them |
| FedFeeder.RunMovesAlarm | source/FED3_Library/RTT/RTFED_RTT525.cpp:695-702 | when the alarm fires during a turn, the device is the one before plus the jam flags and one JAM row |
| FedFeeder.AfterJamNothingMoves | source/FED3_Library/RTT/RTFED_RTT525.cpp:248-254 | after a jam, Feed and RotateDisk do nothing and later log calls write nothing |
| FedFilename.CDiv | source/FED3_Library/RTT/RTFED_RTT525.cpp:1375 | C's `/` agrees with floor division on non-negative operands |
| FedFilename.CMod | source/FED3_Library/RTT/RTFED_RTT525.cpp:1377 | C's `%` satisfies a == b*(a/b) + r with \|r\| < b |
| FedFilename.DigitAt | source/FED3_Library/RTT/RTFED_RTT525.cpp:1375-1383 | `n + '0'` is the digit n for 0..9, and a digit at all only when n mod 256 is in 0..9 |
| FedFilename.PelletCode | source/FED3_Library/RTT/RTFED_RTT525.cpp:1578-1600 | every pellet code has two characters; it is "__" exactly for types outside 1..6 |
| FedFilename.PelletCodesDistinct | source/FED3_Library/RTT/RTFED_RTT525.cpp:1578-1596 | the six named pellet types have six different codes |
| FedFilename.DateDigits | source/FED3_Library/RTT/RTFED_RTT525.cpp:1378-1383 | the date part of the name has six characters |
| FedFilename.DateDigitsSpellDate | source/FED3_Library/RTT/RTFED_RTT525.cpp:1378-1383 | for years 2000..2099 the date part spells month, day and year-2000 as two digits each |
| FedFilename.CounterDigits | source/FED3_Library/RTT/RTFED_RTT525.cpp:1391-1392 | the counter part is two digits whose value is the counter |
| FedFilename.NameLayout | source/FED3_Library/RTT/RTFED_RTT525.cpp:1375-1389 | every name the firmware writes is `FED` + the device digits as written (`FED / 10 + '0'` in the middle) + `_` + date + `_` + counter + `_` + pellet code + `.CSV`, 23 characters |
| FedFilename.NamesDiffer | source/FED3_Library/RTT/RTFED_RTT525.cpp:1390-1392 | different counters give different names, so the search tries a hundred distinct files |
| FedFilename.GetFilename | source/FED3_Library/RTT/RTFED_RTT525.cpp:1390-1397 | over the names the firmware writes, the counter found is the first one whose file does not exist, and every lower counter's file exists; 99 when all exist |
| FedFilename.IntendedNameSpellsDevice | source/FED3_Library/RTT/RTFED_RTT525.cpp:1375-1377 | the corrected name spells device numbers 0..700 as three digits, and equals the firmware's name exactly below 100 |
| FedFilename.FedDigitsSpellNumber | source/FED3_Library/RTT/RTFED_RTT525.cpp:1375-1377 | with the intended `% 10`, device numbers 0..999 are spelled as their three digits |
| FedFilename.AsWrittenAgreesBelow100 | source/FED3_Library/RTT/RTFED_RTT525.cpp:1375-1377 | the firmware's spelling equals the intended one exactly for device numbers below 100 |
| FedFilename.AsWrittenDevice123 | source/FED3_Library/RTT/RTFED_RTT525.cpp:1376 | device 123 gets "1<3", which is not all digits |
| FedLog.HeaderFields | source/FED3_Library/RTT/RTFED_RTT525.cpp:1108-1134 | the header has 20 columns, or 22 with Temp and Humidity; the last four are the bandit names in bandit sessions and blank otherwise |
| FedLog.HeaderSplit | source/FED3_Library/RTT/RTFED_RTT525.cpp:1105-1137 | the header line splits into exactly its column names |
| FedLog.Pad2 | source/FED3_Library/RTT/RTFED_RTT525.cpp:1209-1211 | an hour, minute or second below 100 is two digits with its value |
| FedLog.TimestampHasNoComma | source/FED3_Library/RTT/RTFED_RTT525.cpp:1207-1211 | the timestamp is one CSV field |
| FedLog.LogFields | source/FED3_Library/RTT/RTFED_RTT525.cpp:1202-1327 | a row has as many fields as the header for the same sensor setting, the timestamp first |
| FedLog.LogData | source/FED3_Library/RTT/RTFED_RTT525.cpp:1162-1165 | nothing is printed exactly when logging has stopped; the first field is the timestamp |
| FedLog.RowLayout | source/FED3_Library/RTT/RTFED_RTT525.cpp:1202-1327 | a row is the timestamp, the climate pair when present, the fifteen record fields, then the four bandit fields |
| FedLog.RowMatchesHeader | source/FED3_Library/RTT/RTFED_RTT525.cpp:1225-1297 | header and row have equal length, and column k of both is record field k |
| FedLog.EventColumn | source/FED3_Library/RTT/RTFED_RTT525.cpp:1252 | the Event column holds the event |
| FedLog.DeviceColumn | source/FED3_Library/RTT/RTFED_RTT525.cpp:1227 | the Device_Number column holds the device number |
| FedLog.MotorTurnsColumn | source/FED3_Library/RTT/RTFED_RTT525.cpp:1238-1242 | the Motor_Turns column holds the motor-turn field |
| FedLog.ActivePokeColumn | source/FED3_Library/RTT/RTFED_RTT525.cpp:1257 | the Active_Poke column reads Right for side 0 and Left otherwise |
| FedLog.NanColumns | source/FED3_Library/RTT/RTFED_RTT525.cpp:1238-1297 | Motor_Turns is NaN exactly off Pellet rows; Retrieval_Time is the seconds, or Timed_out after a minute; the inter-pellet interval is NaN exactly off Pellet rows or before two pellets; Poke_Time is the side's duration on poke events, else NaN |
| FedLog.ComputedColumns | source/FED3_Library/RTT/RTFED_RTT525.cpp:1238-1297 | the four event-dependent columns sit at their header positions |
| FedLog.TailColumns | source/FED3_Library/RTT/RTFED_RTT525.cpp:1310-1327 | the last four fields are blank exactly outside bandit sessions; bandit rows carry the switch counter and the probabilities; ProbRev's side matches Active_Poke |
| FedLog.RowFieldsHaveNoComma | source/FED3_Library/RTT/RTFED_RTT525.cpp:1202-1327 | when the texts taken from variables have no comma, no field of the row has one |
| FedLog.RowSplit | source/FED3_Library/RTT/RTFED_RTT525.cpp:1329-1331 | a printed row splits back into its fields, as many as the header line's |
| FedLog.StoppedLogWritesNothing | source/FED3_Library/RTT/RTFED_RTT525.cpp:1163-1165 | after the jam alarm `logdata` prints nothing |
| FedMenus.SelectModeStep | source/FED3_Library/RTT/RTFED_RTT525.cpp:1855-1887 | the mode stays in 0..15 whatever is pressed, and an in-range mode is unchanged without a single-poke press |
| FedMenus.ModeDial | source/FED3_Library/RTT/RTFED_RTT525.cpp:1867-1884 | within 0..15 left steps down and right steps up modulo 16, each undoing the other |
| FedMenus.ModeOutOfRange | source/FED3_Library/RTT/RTFED_RTT525.cpp:1886-1887 | a mode of 16 or more is clamped to 15 after either press |
| FedMenus.DeviceStep | source/FED3_Library/RTT/RTFED_RTT525.cpp:1429-1445 | right adds one up to 700, left takes one away down to 0, no press keeps the number; with both held right then left runs, so 1..699 are kept, 700 becomes 699 and anything below 1 becomes 0 |
| FedMenus.DeviceInRange | source/FED3_Library/RTT/RTFED_RTT525.cpp:1429-1445 | device numbers stay in 0..700 |
| FedMenus.DeviceReachable | source/FED3_Library/RTT/RTFED_RTT525.cpp:1429-1436 | every number in 0..700 is reached from 0 by right presses alone |
| FedMenus.TimedStep | source/FED3_Library/RTT/RTFED_RTT525.cpp:1489-1509 | after any press the start hour is at most the end hour; the moved hour wraps past 24; with both held left then right runs, moving an ordered window inside 0..23 on by one hour at both ends |
| FedMenus.TimedKeepsLooseWindow | source/FED3_Library/RTT/RTFED_RTT525.cpp:1489-1509 | every press keeps start <= end within -1..25 |
| FedMenus.TimedLeavesDay | source/FED3_Library/RTT/RTFED_RTT525.cpp:1495-1507 | the hours leave 0..24: (23,23) with left gives end 25, and (24,24) with right gives start -1 |
| FedMenus.PelletTypeStep | source/FED3_Library/RTT/RTFED_RTT525.cpp:1540-1555 | right wraps 8 to 1, left wraps 0 to 7, no press keeps the type; with both held right then left runs, so 1..7 are kept and any other value, such as the 0 read from a new card, becomes 7 |
| FedMenus.PelletDial | source/FED3_Library/RTT/RTFED_RTT525.cpp:1540-1555 | within 1..7 the pellet type is a dial of seven positions whose two presses undo each other |
| FedMenus.ClassicRatio | source/FED3_Library/RTT/RTFED_RTT525.cpp:1970-1990 | modes 0..4 set FR to their programme's ratio: free feeding 0, FR1 1, FR3 3, FR5 5, progressive ratio 99; modes 5..15 set 1; other values keep FR |
| FedPokes.Randomize | source/FED3_Library/RTT/RTFED_RTT525.cpp:198-221 | the new side is 0 or 1; the draw is kept exactly when the run count stays below max; the count then stays below max |
| FedPokes.RandomizeTracks | source/FED3_Library/RTT/RTFED_RTT525.cpp:200-220 | one draw keeps the counter equal to the trailing run of equal sides, less one |
| FedPokes.DrawKeepsNoLongRun | source/FED3_Library/RTT/RTFED_RTT525.cpp:204-220 | one draw keeps the counter in step and makes no run longer than max |
| FedPokes.NoSideMoreThanMax | source/FED3_Library/RTT/RTFED_RTT525.cpp:198-221 | for max >= 1, over any sequence of draws no side is active more than max times in a row |
| FedPokes.StartTracks | source/FED3_Library/RTT/RTFED_RTT525.cpp:204-209 | a fresh state with count 0 satisfies the bound from the first draw |
| HostRow.HeaderPositions | scripts/RTFED_PiCAM/RTFEDPiCAM.py:26-32 | the headers have 22 names; `index` finds Event at 9 and Device_Number at 5 |
| HostRow.Validate | scripts/RTFED_PiCAM/RTFEDPiCAM.py:1023-1033 | a row passes exactly when every checked column within the header is blank or parses as a Python float |
| HostRow.CheckedPositions | scripts/RTFED_PiCAM/RTFEDPiCAM.py:1025-1028 | the checked data positions are 0, 1, 5, 6 and 10..16 |
| HostRow.AcceptedParts | scripts/RTFED_PiCAM/RTFEDPiCAM.py:761-767 | a line is accepted exactly when it has 22 fields and its 21 data fields validate; the data fields are returned |
| HostRow.IntIsFloat | scripts/RTFED_PiCAM/RTFEDPiCAM.py:1029-1030 | every printed integer parses as a float |
| HostRow.DecimalIsFloat | scripts/RTFED_PiCAM/RTFEDPiCAM.py:1029-1030 | `digits.digits`, the shape Arduino prints floats in, parses |
| HostRow.NaNIsFloat | scripts/RTFED_PiCAM/RTFEDPiCAM.py:1029-1030 | the firmware's "NaN" passes validation |
| HostRow.TimedOutIsNotFloat | scripts/RTFED_PiCAM/RTFEDPiCAM.py:1029-1033 | "Timed_out" fails validation |
| HostRow.NoSensorRowRejected | scripts/RTFED_PiCAM/RTFEDPiCAM.py:761-764 | a row from a board without the temperature sensor has 20 fields and is always refused |
| HostRow.SensorRowAccepted | scripts/RTFED_PiCAM/RTFEDPiCAM.py:761-767 | a sensor row whose float texts parse is accepted exactly unless it is a Pellet row timed out after a minute |
| HostRow.TimedOutRefused | scripts/RTFED_PiCAM/RTFEDPiCAM.py:765-767 | a pellet retrieved after a minute makes the row fail validation |
| HostRow.SensorColumnValid | scripts/RTFED_PiCAM/RTFEDPiCAM.py:1025-1030 | each checked column of a sensor row passes, one at a time |
| HostRow.PiCamIdentify | scripts/RTFED_PiCAM/RTFEDPiCAM.py:498-507 | a device number is found exactly in a 22-field line with a comma and a non-blank Device_Number; it is that field stripped |
| HostRow.ProbeField | scripts/RTFED_PiCAM/RTFEDPiCAM.py:552-558 | the probe reads field 5, stripped, of a line with a comma and at least six fields |
| HostRow.ProbeReads | scripts/RTFED_PiCAM/RTFEDPiCAM.py:554-557 | on a sensor board the probe reads the device number; without the sensor it reads Motor_Turns, i.e. "NaN" off Pellet rows |
| HostRow.PiOsIdentify | scripts/RTFED_Pi/RTFEDPiOS.py:448-463 | PiOS finds a device number exactly in a non-blank 22-field line with non-blank Device_Number, and blinks only on such lines |
| HostRow.SensorRowIdentifies | scripts/RTFED_PiCAM/RTFEDPiCAM.py:500-507 | a sensor row names its device to both identification workers; PiOS blinks exactly on its activity events |
| TimeSync.SyncStep | scripts/RTFED_PiCAM/RTFEDPiCAM.py:750-758 | a reply is consumed exactly while pending; a pending marker resolves on a reply or after more than two seconds, else stays |
| TimeSync.ResolvedStays | scripts/RTFED_PiCAM/RTFEDPiCAM.py:750-751 | a marker not pending is never changed by later lines |
| TimeSync.PendingResolvesInTime | scripts/RTFED_PiCAM/RTFEDPiCAM.py:756-758 | a line read more than two seconds after the command resolves the marker |
| TimeSync.OneReplyConsumed | scripts/RTFED_PiCAM/RTFEDPiCAM.py:751-755 | only one reply per command is swallowed; a second one is passed on as data |
| SheetRows.AppendBatch | scripts/RTFED_PiCAM/RTFEDPiCAM.py:794 | a batch append adds its rows to the worksheet's data in order |
| SheetRows.AppendJamMark | scripts/RTFED_PiCAM/RTFEDPiCAM.py:807 | the jam row adds no data row |
| SheetRows.JamRow | scripts/RTFED_PiCAM/RTFEDPiCAM.py:803-806 | the jam row has 22 columns, empty except the timestamp, "JAM" under Event and the device under Device_Number |
| PiCamRegistry.RegisterAsWritten | scripts/RTFED_PiCAM/RTFEDPiCAM.py:523-532 | registration raises KeyError exactly when the reverse entry names another port without a forward entry; otherwise both maps point at the new pair |
| PiCamRegistry.StaleReverseEntry | scripts/RTFED_PiCAM/RTFEDPiCAM.py:525-532 | four registrations break the maps' inverse and end in KeyError |
| PiCamRegistry.Register | scripts/RTFED_PiCAM/RTFEDPiCAM.py:523-532 | the corrected registration keeps the maps inverse and changes only the entries of the port and the device |
| PiCamRegistry.RegisterAgrees | scripts/RTFED_PiCAM/RTFEDPiCAM.py:523-532 | while the maps are inverse the script never raises, gives the corrected forward map, and differs only by the stale reverse entry |
| PiCamRegistry.StartLogging | scripts/RTFED_PiCAM/RTFEDPiCAM.py:704-731 | logging starts exactly for a port with no thread, a non-empty device number, and an attempt that opens it |
| PiCamRegistry.StartLoggingGuard | scripts/RTFED_PiCAM/RTFEDPiCAM.py:705-710 | a port with a thread or without a non-empty device number is left alone |
| PiCamRegistry.RegisterOnHost | scripts/RTFED_PiCAM/RTFEDPiCAM.py:523-534 | a registration as the script does it: on KeyError the host is unchanged and no logging starts; otherwise the maps are the script's and at most this port's thread starts, only while logging with a non-empty number |
| PiCamRegistry.RegisterOnHostWhileInverse | scripts/RTFED_PiCAM/RTFEDPiCAM.py:523-534 | while the maps are inverse, a host registration never raises, gives the corrected forward map, and the port logs afterwards exactly when it did or the guard lets it start |
| PiCamRegistry.Starting | scripts/RTFED_PiCAM/RTFEDPiCAM.py:972-985 | only new or relabelled ports start logging, and none while logging is off |
| PiCamRegistry.CheckConnections | scripts/RTFED_PiCAM/RTFEDPiCAM.py:957-985 | the known ports become the scan; removed ports lose workers and threads; new ports get a worker; threads start as the guard allows |
| PiCamRegistry.CheckEffects | scripts/RTFED_PiCAM/RTFEDPiCAM.py:957-985 | removed ports keep no thread or worker, new ports have a worker, and a new thread needs logging on, a device number and a present port |
| PiCamRegistry.UnchangedScanStartsNoIdentification | scripts/RTFED_PiCAM/RTFEDPiCAM.py:972-977 | a scan finding the known ports leaves the workers alone |
| PiCamRegistry.CheckKeepsTracked | scripts/RTFED_PiCAM/RTFEDPiCAM.py:960-977 | every known port keeps a widget and every worker a known port |
| PiCamRegistry.CheckSettles | scripts/RTFED_PiCAM/RTFEDPiCAM.py:957-985 | a second check of the same scan adds and removes nothing |
| PiCamSession.Start | scripts/RTFED_PiCAM/RTFEDPiCAM.py:737-740 | a loop starts with nothing cached, sent or pending |
| PiCamSession.VideoTrigger | scripts/RTFED_PiCAM/RTFEDPiCAM.py:777-781 | Pellet, Left and Right events fire under their own setting or under All; nothing else fires |
| PiCamSession.Flush | scripts/RTFED_PiCAM/RTFEDPiCAM.py:788-810 | the cache goes up as one batch and is cleared only on success; a pending jam adds the jam row last; a failed jam append or non-API error ends the loop |
| PiCamSession.Read | scripts/RTFED_PiCAM/RTFEDPiCAM.py:749-769 | a pass accepts a row exactly when the line is not a consumed sync reply and passes the arity and validation tests; the row is the host timestamp and the 21 data fields |
| PiCamSession.Admit | scripts/RTFED_PiCAM/RTFEDPiCAM.py:769-810 | an accepted row is saved; a recording starts only when none runs; the worksheet only grows |
| PiCamSession.Step | scripts/RTFED_PiCAM/RTFEDPiCAM.py:748-820 | a failed read ends the loop and touches nothing else; a pass saves at most one 22-column row at the end, only grows the worksheet, and does nothing once the loop has ended |
| PiCamSession.ReadErrorEnds | scripts/RTFED_PiCAM/RTFEDPiCAM.py:812-820 | after a read that raises the loop has ended, and no later pass sends the cached rows or saves another |
| PiCamSession.StepAccounts | scripts/RTFED_PiCAM/RTFEDPiCAM.py:769-801 | after a pass, the saved rows are exactly the worksheet data followed by the cache |
| PiCamSession.AdmitAccounts | scripts/RTFED_PiCAM/RTFEDPiCAM.py:769-773 | caching and saving a row keeps every row accounted for |
| PiCamSession.FlushAccounts | scripts/RTFED_PiCAM/RTFEDPiCAM.py:788-810 | a flush moves the cache to the worksheet without losing or repeating a row |
| PiCamSession.RunAccounts | scripts/RTFED_PiCAM/RTFEDPiCAM.py:748-811 | over any run the worksheet only grows and every accepted row is on it or cached, in order |
| PiCamSession.AcceptedLineSaved | scripts/RTFED_PiCAM/RTFEDPiCAM.py:761-773 | a valid line read with no sync pending is saved with the host timestamp in front |
| PiCamSession.ReplyNotSaved | scripts/RTFED_PiCAM/RTFEDPiCAM.py:750-755 | a reply to a pending clock command only resolves the marker |
| PiCamSession.RefusedLineNoFlush | scripts/RTFED_PiCAM/RTFEDPiCAM.py:759-767 | a refused line changes nothing but the marker: no flush, however long ago the last send |
| PiCamSession.JamRowFollowsBatch | scripts/RTFED_PiCAM/RTFEDPiCAM.py:774-809 | a JAM row reaches the worksheet twice: in the batch, then as the host's jam row |
| PiCamSession.FlushJam | scripts/RTFED_PiCAM/RTFEDPiCAM.py:800-809 | with both appends working, a flush adds the batch then the jam row and clears cache and flag |
| PiCamSession.FailedJamEnds | scripts/RTFED_PiCAM/RTFEDPiCAM.py:802-813 | a jam append that raises ends the loop |
| PiCamSession.EndedStays | scripts/RTFED_PiCAM/RTFEDPiCAM.py:812-820 | after the loop ends nothing more happens |
| PiCamSession.OneRecordingAtATime | scripts/RTFED_PiCAM/RTFEDPiCAM.py:782-786 | while a recording runs, no pass starts another |
| PiOsRegistry.RegisterOnHost | scripts/RTFED_Pi/RTFEDPiOS.py:485-489 | the port's entry is overwritten, nothing else in the map changes, and logging starts for it only while logging is on |
| PiOsRegistry.StartLogging | scripts/RTFED_Pi/RTFEDPiOS.py:551-584 | a thread starts exactly for a port with no thread, an entry (even empty) and an attempt that opens |
| PiOsRegistry.IdentifyOnHost | scripts/RTFED_Pi/RTFEDPiOS.py:438-441 | a port that already logs is never identified again; a find is non-empty |
| PiOsRegistry.IdentifiedRegisters | scripts/RTFED_Pi/RTFEDPiOS.py:481-486 | a worker's find is stored as the port's Device_Number field, stripped |
| PiOsRegistry.CheckConnections | scripts/RTFED_Pi/RTFEDPiOS.py:667-690 | removed ports lose threads and workers, new ports get a worker, and the number map is untouched |
| PiOsRegistry.SameDeviceTwoPorts | scripts/RTFED_Pi/RTFEDPiOS.py:485-486 | without a reverse map two ports can hold the same device number |
| PiOsRegistry.LastRegistrationWins | scripts/RTFED_Pi/RTFEDPiOS.py:485-486 | the last registration of a port wins and other ports are untouched |
| PiOsRegistry.EmptyDeviceNumberLogs | scripts/RTFED_Pi/RTFEDPiOS.py:555-558 | unlike PiCAM, an empty device number lets logging start |
| PiOsRegistry.CheckStartsNoLogging | scripts/RTFED_Pi/RTFEDPiOS.py:684-691 | a connection check never starts a logging thread |
| PiOsRegistry.CheckSettles | scripts/RTFED_Pi/RTFEDPiOS.py:667-690 | checking the same scan twice gives the same host |
| PiOsSession.Take | scripts/RTFED_Pi/RTFEDPiOS.py:721-740 | a line without 21 data fields changes nothing; a JAM line only raises the jam flag; any other line appends the timestamp and its 21 fields to both cache and saved data, and signals the queue exactly when its event is Right or Pellet |
| PiOsSession.TakeRow | scripts/RTFED_Pi/RTFEDPiOS.py:724-734 | a line is taken exactly when it has 22 fields and its event is not JAM, and the taken row is the host timestamp and its 21 data fields |
| PiOsSession.LineSaved | scripts/RTFED_Pi/RTFEDPiOS.py:721-738 | a read line with 21 data fields and a non-JAM event is saved as the pass's timestamp followed by those fields, flush or no flush, and signals RIGHT_POKE exactly for Right or Pellet |
| PiOsSession.JamLineFlags | scripts/RTFED_Pi/RTFEDPiOS.py:726-728 | a read JAM line saves nothing and signals nothing; without a flush in the same pass it only raises the jam flag, and the flag stays raised unless the jam row went up |
| PiOsSession.TakeKeeps | scripts/RTFED_Pi/RTFEDPiOS.py:727-734 | taking a line keeps every row accounted for and no JAM row saved |
| PiOsSession.Flush | scripts/RTFED_Pi/RTFEDPiOS.py:742-765 | the cache is cleared exactly when its append worked, the jam flag exactly when the jam row went up, and the send time moves on |
| PiOsSession.FlushAccounts | scripts/RTFED_Pi/RTFEDPiOS.py:744-751 | a flush loses and repeats no row |
| PiOsSession.Step | scripts/RTFED_Pi/RTFEDPiOS.py:712-767 | a read error ends the loop; the worksheet only grows |
| PiOsSession.StepKeeps | scripts/RTFED_Pi/RTFEDPiOS.py:712-767 | no pass loses or duplicates a row, and JAM rows never enter the saved data |
| PiOsSession.RunKeeps | scripts/RTFED_Pi/RTFEDPiOS.py:712-767 | over any run every taken row is on the worksheet or cached, none is a JAM row, and the worksheet only grows |
| PiOsSession.NoSheetNoSend | scripts/RTFED_Pi/RTFEDPiOS.py:705-711 | without a worksheet nothing is ever sent and the cache only grows |
| PiOsSession.BlankLineFlushes | scripts/RTFED_Pi/RTFEDPiOS.py:742-765 | unlike PiCAM, a blank line also flushes once five seconds have passed |
| PiOsSession.JamRetried | scripts/RTFED_Pi/RTFEDPiOS.py:753-765 | a failed jam append keeps the flag for the next flush and the loop goes on |
| TtlEvents.Pulse | scripts/RTFED_TTL/RTFEDPiTTL.py:68-71 | a pulse is the pin high, then low |
| TtlEvents.ClassifyNames | scripts/RTFED_TTL/RTFEDPiTTL.py:96-108 | each kind is exactly one stripped, lower-cased name, and the six names are the events that blink the indicator |
| TtlEvents.HandlePellet | scripts/RTFED_TTL/RTFEDPiTTL.py:73-91 | pelletinwell sets the well and the pin; pellet clears it and pulses only if a pellet was there; the pin's last write matches the well; other ports are untouched |
| TtlEvents.ProcessEvent | scripts/RTFED_TTL/RTFEDPiTTL.py:93-109 | left events pulse the left pin, right events the right pin, pellet events go to the pellet handler; only named events blink |
| TtlEvents.WellFollowsLastPelletEvent | scripts/RTFED_TTL/RTFEDPiTTL.py:73-91 | after any run of events a port holds a pellet exactly when its last pellet event was a dispense |
| TtlEvents.TakenAtMostDispensed | scripts/RTFED_TTL/RTFEDPiTTL.py:79-87 | pellets reported taken never outnumber pellets dispensed, plus one already there |
| TtlEvents.NoDoubleTake | scripts/RTFED_TTL/RTFEDPiTTL.py:79-87 | a second "pellet" without a dispense in between sends nothing |
| TtlEvents.PelletWritesOffPokePins | scripts/RTFED_TTL/RTFEDPiTTL.py:73-91 | the pellet handler never drives a poke pin |
| TtlEvents.Parse | scripts/RTFED_TTL/RTFEDPiTTL.py:162-170 | a non-blank line with at least ten fields is saved with the host timestamp in field 0; the event is field 9 stripped |
| TtlEvents.ReadStep | scripts/RTFED_TTL/RTFEDPiTTL.py:141-171 | a read error ends the thread; a pass saves at most one row, exactly for a non-consumed line with ten fields, and processes no event otherwise |
| TtlEvents.ReplyConsumed | scripts/RTFED_TTL/RTFEDPiTTL.py:149-158 | a sync reply while pending is neither saved nor processed |
| TtlEvents.KindTally | scripts/RTFED_TTL/RTFEDPiTTL.py:782-788 | left/leftwithpellet count as Left, right/rightwithpellet as Right, only pellet as Pellet |
| TtlEvents.RowTally | scripts/RTFED_TTL/RTFEDPiTTL.py:781-788 | a row moves at most one count |
| TtlEvents.CountRow | scripts/RTFED_TTL/RTFEDPiTTL.py:781-788 | the loop body adds the row's tally |
| TtlEvents.CountKind | scripts/RTFED_TTL/RTFEDPiTTL.py:782-788 | the if-chain adds the kind's tally |
| TtlEvents.SaveSummary | scripts/RTFED_TTL/RTFEDPiTTL.py:779-788 | the loop computes the reference count of all rows, and the counts total at most the number of rows |
| TtlEvents.SummaryAppend | scripts/RTFED_TTL/RTFEDPiTTL.py:779-788 | the counts of two batches of rows add up |
| TtlEvents.PortPinsDistinct | scripts/RTFED_TTL/RTFEDPiTTL.py:35-44 | each port's three pins are distinct |
| TtlEvents.PulsesMatchKind | scripts/RTFED_TTL/RTFEDPiTTL.py:96-105 | each event drives the left pin high once exactly when it counts as Left, and likewise for the right pin |
| TtlEvents.StepSummary | scripts/RTFED_TTL/RTFEDPiTTL.py:162-170 | one pass moves the Left and Right counts by its left and right pulses |
| TtlEvents.SummaryMatchesPulses | scripts/RTFED_TTL/RTFEDPiTTL.py:135-180 | over a whole logging run, the summary's Left and Right counts equal the left- and right-pin pulses |
| TtlEvents.TtlIdentify | scripts/RTFED_TTL/RTFEDPiTTL.py:186-202 | the worker finds field 5 of a six-field line that is not a poke reply; otherwise it blinks on left, right or pellet in field 9 |
| TtlEvents.Field9 | scripts/RTFED_TTL/RTFEDPiTTL.py:165-166 | field 9 is the event on a sensor board and Left_Poke_Count without the sensor |
| TtlEvents.LogRowParsed | scripts/RTFED_TTL/RTFEDPiTTL.py:162-168 | every firmware row is saved and its field 9 is read as the event |
| TtlEvents.SensorRowEvent | scripts/RTFED_TTL/RTFEDPiTTL.py:165-168 | on a sensor board the thread reacts to the row's own event |
| TtlEvents.CountIsNoEvent | scripts/RTFED_TTL/RTFEDPiTTL.py:96-108 | a poke count is none of the compared event names |
| TtlEvents.NoSensorRowSilent | scripts/RTFED_TTL/RTFEDPiTTL.py:165-168 | without the sensor a row is saved but drives no pin and blinks nothing |
| TtlPorts.PortNamesDistinct | scripts/RTFED_TTL/RTFEDPiTTL.py:66 | the eight port names are distinct |
| TtlPorts.PinsForEveryName | scripts/RTFED_TTL/RTFEDPiTTL.py:35-44 | every port name has pins |
| TtlPorts.PinsOnlyForNames | scripts/RTFED_TTL/RTFEDPiTTL.py:35-44 | exactly eight names have pins |
| TtlPorts.Insert | scripts/RTFED_TTL/RTFEDPiTTL.py:121 | inserting into a sorted list keeps it sorted and adds exactly the element |
| TtlPorts.Sort | scripts/RTFED_TTL/RTFEDPiTTL.py:121 | `sort()` gives a sorted permutation |
| TtlPorts.SerialPaths | scripts/RTFED_TTL/RTFEDPiTTL.py:116-120 | exactly the resolved paths naming ttyACM or ttyUSB are kept |
| TtlPorts.CurrentDevices | scripts/RTFED_TTL/RTFEDPiTTL.py:111-122 | the device list is sorted and holds exactly the serial paths |
| TtlPorts.Assign | scripts/RTFED_TTL/RTFEDPiTTL.py:290-296 | new devices get consecutive port names in listing order, while names last; known devices keep theirs; if names remain, every device is named |
| TtlPorts.InitialMappingDistinct | scripts/RTFED_TTL/RTFEDPiTTL.py:290-296 | at most eight devices are named, each with a name that has pins, no name twice, and all devices when fewer than eight were named |
| TtlPorts.MappingsByUsbPort | scripts/RTFED_TTL/RTFEDPiTTL.py:124-133 | exactly the present, known devices are listed, each with its name |
| TtlPorts.StartLogging | scripts/RTFED_TTL/RTFEDPiTTL.py:688-701 | logging starts exactly for a name that does not log yet and has pins |
| TtlPorts.StartLoggingBounded | scripts/RTFED_TTL/RTFEDPiTTL.py:688-701 | only names with pins log, at most eight at once, and a logging name keeps its first path |
| Discovery.DetectFed3 | scripts/RTFED_PiCAM/RTFEDPiCAM.py:162-168 | exactly the ports with the Adafruit vendor id and the Feather M0 product id are listed |
| Discovery.DetectKeepsOrder | scripts/RTFED_PiCAM/RTFEDPiCAM.py:165-167 | enumeration order is kept |
| Discovery.OtherPidSkipped | scripts/RTFED_PiCAM/RTFEDPiCAM.py:166 | a board with another product id is skipped |
| Discovery.AttemptConnection | scripts/RTFED_PiCAM/RTFEDPiCAM.py:713-729 | the loop connects exactly when one of the first five attempts opens, stops at the first that does, and tries all five otherwise |
| Discovery.ReplaceForbidden | scripts/RTFED_PiCAM/RTFEDPiCAM.py:627 | each forbidden character becomes `_` and every other character is kept |
| Discovery.Sanitize | scripts/RTFED_PiCAM/RTFEDPiCAM.py:627-628 | a cleaned name has no capital and no forbidden character, and the length of the stripped name |
| Discovery.SanitizeIdempotent | scripts/RTFED_PiCAM/RTFEDPiCAM.py:627 | cleaning a cleaned name changes nothing |
| Discovery.SanitizeBlank | scripts/RTFED_PiCAM/RTFEDPiCAM.py:627 | a name is empty after cleaning exactly when it was blank |
| Discovery.CleanNameKept | scripts/RTFED_PiCAM/RTFEDPiCAM.py:627 | a stripped lower-case name without forbidden characters is its own cleaned form |

## Left out

- Serial I/O, threads and locks, the Tkinter GUI, logging to files and the Google Sheets client are not modelled. Their effects are inputs or lists of writes.
- Floating-point values (battery, temperature, humidity, retrieval and poke seconds, bandit probabilities) are carried as the text the firmware prints. Only where each one is placed is modelled.
- `random()` in `randomizeActivePoke`, `ClearJam` and `simulatePoke` is a parameter, a sequence of draws.
- `FED3.h` is not part of this model. Types it declares, such as `prob_left`, are opaque text plus a boolean for their comparison.
- The clock is read once per loop pass, as an integer of milliseconds.
- FedCommands.SetTimeResponse: RTClib's `DateTime` keeps the year as a 16-bit and the other five values as 8-bit unsigned numbers; the model passes the six scanned integers on unnarrowed, since the clock library is not part of this model.
- Text.Lower, HostRow.Validate: Python's `lower()` and `float()` are modelled on ASCII letters and digits; Unicode case mapping and Unicode digits are left out.
- FedFeeder.Feed: pokes logged while a pellet waits in the well or while the disk turns are not modelled. Neither is the 60-second retrieval wait. Their rows do not change the outcome proved.
- `record_video` and the camera are left out. The model keeps only whether a recording runs.
- `stop_identification_threads`, `stop_logging` and the final saves to disk are left out. They join threads and write files.
- The connection attempts run in their own threads in the scripts. The model makes them synchronous, with the outcome as a parameter.
- PiOS catches any exception from the batch append, while PiCAM retries API errors and ends on the others. The PiOS model has one outcome flag for each append.
- TtlPorts.Sort: `list.sort()` is modelled as an insertion sort proved sorted and a permutation; Python's algorithm itself is not modelled.
- TTL `check_connected_devices` is left out: it is a GUI status refresh.
- TTL `identify_devices` and `sync_all_device_times_thread` are not modelled beyond the time-sync marker and the probe that reads field 5.
- `set_device_mode` in the scripts is modelled only as the SET_MODE line it sends.
- TtlEvents.Classify: the event kinds are looked up in a table of the six compared names rather than written as an if-chain.

## Findings

| source | as written | input that shows it | evidently intended | confidence | as-written member | corrected member |
|---|---|---|---|---|---|---|
| source/FED3_Library/RTT/RTFED_RTT525.cpp:1376 | `filename[4] = FED / 10 + '0'` has no `% 10` | device number 123 gives position 4 = '0' + 12 = '<', name "FED1<3_..." | the tens digit, `(FED / 10) % 10 + '0'` | high; not executed | FedFilename.AsWrittenDevice123 | FedFilename.IntendedNameSpellsDevice |
| scripts/RTFED_PiCAM/RTFEDPiCAM.py:523-532 | registering a new device on a port leaves the port's old device in `device_number_to_port` | register 1 on A, 2 on A, 1 on B, 2 on C: the third call deletes A's entry though A hosts 2, and the fourth raises KeyError | drop the port's previous device from the reverse map when it is re-registered | high; not executed | PiCamRegistry.StaleReverseEntry | PiCamRegistry.Register |

=== FILE: discovery.dfy ===
/**
 Pieces the Pi scripts share around their ports: picking the FED3 boards out
 of the USB serial ports (`detect_serial_ports`), the bounded retries when a
 logging port is opened, and the cleaning of the experimenter and experiment
 names before they become folder and file names.
 */
module Discovery {
  import opened Text

  /** A serial port as `list_ports.comports()` reports it. */
  datatype PortInfo = PortInfo(device: string, vid: int, pid: int)

  /** The Adafruit vendor id and the Feather M0 product id of a FED3. */
  const Fed3Vid: int := 0x239A
  const Fed3Pid: int := 0x800B

  predicate IsFed3(p: PortInfo) {
    p.vid == Fed3Vid && p.pid == Fed3Pid
  }

  /** `detect_serial_ports`: the device paths of the FED3 boards, in
      enumeration order. */
  function DetectFed3(ports: seq<PortInfo>): (r: seq<string>)
    ensures |r| <= |ports|
    ensures forall d :: d in r <==> exists i :: 0 <= i < |ports| && IsFed3(ports[i]) && ports[i].device == d
    decreases |ports|
  {
    if |ports| == 0 then []
    else
      var rest := DetectFed3(ports[1..]);
      assert forall i :: 1 <= i < |ports| ==> ports[i] == ports[1..][i - 1];
      (if IsFed3(ports[0]) then [ports[0].device] else []) + rest
  }

  /** Enumeration order is kept: the result for a list is the result for its
      first part followed by the result for the rest. */
  lemma {:induction false} DetectKeepsOrder(a: seq<PortInfo>, b: seq<PortInfo>)
    ensures DetectFed3(a + b) == DetectFed3(a) + DetectFed3(b)
    decreases |a|
  {
    if |a| > 0 {
      assert (a + b)[1..] == a[1..] + b;
      DetectKeepsOrder(a[1..], b);
    } else {
      assert a + b == b;
    }
  }

  /** A board with another product id, such as one in boot-loader mode, is
      not a FED3 port. */
  lemma OtherPidSkipped(p: PortInfo, rest: seq<PortInfo>)
    requires p.pid != Fed3Pid
    ensures DetectFed3([p] + rest) == DetectFed3(rest)
  {
    assert ([p] + rest)[1..] == rest;
  }

  // ------------------------------------------------------------ retries

  /** `retry_attempts` of the PiCAM and PiOS scripts. */
  const RetryAttempts: nat := 5

  /** The `attempt_connection` loop: attempt `i` opens the port when
      `opens[i]` holds (attempts past the end of `opens` fail). It stops at
      the first attempt that opens and gives up after `RetryAttempts` attempts. */
  method AttemptConnection(opens: seq<bool>) returns (connected: bool, tries: nat)
    ensures tries <= RetryAttempts
    ensures connected <==> exists i :: 0 <= i < RetryAttempts && i < |opens| && opens[i]
    ensures connected ==> 1 <= tries && tries - 1 < |opens| && opens[tries - 1]
    ensures forall i :: 0 <= i < tries - 1 && i < |opens| ==> !opens[i]
    ensures !connected ==> tries == RetryAttempts
  {
    connected := false;
    tries := 0;
    while tries < RetryAttempts
      invariant tries <= RetryAttempts
      invariant forall i :: 0 <= i < tries && i < |opens| ==> !opens[i]
    {
      tries := tries + 1;
      if tries - 1 < |opens| && opens[tries - 1] {
        connected := true;
        return;
      }
    }
  }

  // ------------------------------------------------------------ names

  /** The characters `re.sub(r'[<>:"/\\|?*]', '_', ...)` replaces. */
  predicate Forbidden(c: char) {
    c == '<' || c == '>' || c == ':' || c == '"' || c == '/' || c == '\\' || c == '|' || c == '?' || c == '*'
  }

  /** Every forbidden character becomes `_`. */
  function ReplaceForbidden(s: string): (r: string)
    ensures |r| == |s|
    ensures forall i :: 0 <= i < |s| ==> !Forbidden(r[i])
    ensures forall i :: 0 <= i < |s| ==> (Forbidden(s[i]) ==> r[i] == '_') && (!Forbidden(s[i]) ==> r[i] == s[i])
  {
    seq(|s|, i requires 0 <= i < |s| => if Forbidden(s[i]) then '_' else s[i])
  }

  /** The cleaned name: stripped, lower-cased, forbidden characters replaced. */
  function Sanitize(name: string): (r: string)
    ensures |r| == |Strip(name)|
    ensures forall i :: 0 <= i < |r| ==> !Forbidden(r[i]) && !IsUpper(r[i])
  {
    ReplaceForbidden(Lower(Strip(name)))
  }

  /** A cleaned name has no blank at either end, no capital and no
      forbidden character, so cleaning it again changes nothing. */
  lemma SanitizeIdempotent(name: string)
    ensures Sanitize(Sanitize(name)) == Sanitize(name)
  {
    var t := Strip(name);
    var r := Sanitize(name);
    if |r| > 0 {
      assert !IsPySpace(t[0]) && !IsPySpace(t[|t| - 1]);
      assert !IsPySpace(r[0]) && !IsPySpace(r[|r| - 1]);
    }
    StripNoMargin(r);
    assert Lower(r) == r;
    assert ReplaceForbidden(r) == r;
  }

  /** A name is empty after cleaning exactly when it was blank. */
  lemma SanitizeBlank(name: string)
    ensures Sanitize(name) == "" <==> Strip(name) == ""
  {
  }

  /** Only forbidden characters change besides letters and the margin: a
      stripped lower-case name without them is its own cleaned form. */
  lemma CleanNameKept(name: string)
    requires Strip(name) == name
    requires forall i :: 0 <= i < |name| ==> !Forbidden(name[i]) && !IsUpper(name[i])
    ensures Sanitize(name) == name
  {
    assert Lower(name) == name;
    assert ReplaceForbidden(name) == name;
  }
}

=== FILE: fed_commands.dfy ===
/**
 The FED3 firmware's serial command dispatcher (`checkSerialCommands`): one
 received line, already cut at '\n', is trimmed and dispatched on
 `SET_TIME:`, then `SET_MODE:`, then the exact text `TRIGGER_POKE`.
 The numeric parsing of the payloads follows newlib's `sscanf("%d,...")` and
 `atol` on a 32-bit `long`: leading whitespace, an optional sign, decimal
 digits, and saturation at the 32-bit bounds.
 */
module FedCommands {
  import opened Text
  import opened Wrappers

  const IntMin: int := -0x8000_0000
  const IntMax: int := 0x7FFF_FFFF

  /** `strtol`'s clamping of out-of-range magnitudes. */
  function Saturate(v: int): (r: int)
    ensures IntMin <= r <= IntMax
    ensures IntMin <= v <= IntMax ==> r == v
  {
    if v < IntMin then IntMin else if v > IntMax then IntMax else v
  }

  /** Length of the leading run of decimal digits. */
  function DigitRun(s: string): (n: nat)
    ensures n <= |s|
    ensures AllDigits(s[..n])
    ensures n < |s| ==> !IsDigit(s[n])
    decreases |s|
  {
    if |s| > 0 && IsDigit(s[0]) then
      var k := DigitRun(s[1..]);
      assert s[..k + 1] == [s[0]] + s[1..][..k];
      k + 1
    else 0
  }

  /** The text a C function sees of a buffer: everything before the first NUL. */
  function CString(s: string): (r: string)
    ensures |r| <= |s| && r == s[..|r|]
    ensures '\0' !in r
    ensures '\0' !in s ==> r == s
    decreases |s|
  {
    if |s| == 0 || s[0] == '\0' then "" else [s[0]] + CString(s[1..])
  }

  /** `String::toCharArray(cstr, 50)`: at most 49 characters reach the buffer. */
  function ToCharArray50(s: string): (r: string)
    ensures |r| <= 49
    ensures |s| <= 49 ==> r == s
  {
    if |s| <= 49 then s else s[..49]
  }

  datatype Scanned = Scanned(value: int, rest: string)

  /** One `%d` conversion: whitespace, optional sign, at least one digit. */
  function ScanInt(s: string): (r: Option<Scanned>)
    ensures r.Some? ==> IntMin <= r.value.value <= IntMax && |r.value.rest| < |s|
  {
    var t := TrimLeft(s, IsCSpace);
    var signed := |t| > 0 && (t[0] == '+' || t[0] == '-');
    var body := if signed then t[1..] else t;
    var n := DigitRun(body);
    if n == 0 then None
    else
      var magnitude: int := DigitsValue(body[..n]);
      Some(Scanned(Saturate(if signed && t[0] == '-' then -magnitude else magnitude), body[n..]))
  }

  /** The values `sscanf(s, "%d,%d,...")` with `k` conversions assigns, in
      order; it stops at the first conversion or literal ',' that fails to
      match, and its return value is the number of values assigned. */
  function ScanFields(s: string, k: nat): (r: seq<int>)
    ensures |r| <= k
    decreases k
  {
    if k == 0 then []
    else
      match ScanInt(s)
      case None => []
      case Some(sc) =>
        if k > 1 && |sc.rest| > 0 && sc.rest[0] == ',' then [sc.value] + ScanFields(sc.rest[1..], k - 1)
        else [sc.value]
  }

  /** `atol`: the leading integer, or 0 when there is none. */
  function Atol(s: string): (r: int)
    ensures IntMin <= r <= IntMax
    ensures ScanInt(s).None? ==> r == 0
  {
    match ScanInt(s)
    case None => 0
    case Some(sc) => sc.value
  }

  /** What the firmware does in answer to a command line. */
  datatype Effect =
    | NoEffect
    | ClockAdjusted(fields: seq<int>)   // `rtc.adjust(DateTime(y, mo, d, h, mi, s))`
    | ModeChanged(mode: int)            // `FEDmode = mode`, saved, then a reboot
    | PokeSimulated                     // `simulatePoke()` logs a left or right poke

  datatype Response = Response(reply: Option<string>, effect: Effect)

  const SetTimePrefix := "SET_TIME:"
  const SetModePrefix := "SET_MODE:"
  const TriggerPoke := "TRIGGER_POKE"

  /** Answer to `SET_TIME:<payload>`: six integers set the real-time clock. */
  function SetTimeResponse(payload: string): (r: Response)
    ensures r.reply in {Some("TIME_SET_OK"), Some("TIME_SET_FAIL")}
    ensures r.reply == Some("TIME_SET_OK") <==> r.effect.ClockAdjusted?
    ensures r.effect.ClockAdjusted? ==> |r.effect.fields| == 6
    ensures !r.effect.ClockAdjusted? ==> r.effect == NoEffect
  {
    var fields := ScanFields(CString(ToCharArray50(payload)), 6);
    if |fields| == 6 then Response(Some("TIME_SET_OK"), ClockAdjusted(fields))
    else Response(Some("TIME_SET_FAIL"), NoEffect)
  }

  /** Answer to `SET_MODE:<payload>`: a mode in 0..15 is taken over. */
  function SetModeResponse(payload: string): (r: Response)
    ensures r.reply in {Some("MODE_SET_OK"), Some("MODE_SET_FAIL")}
    ensures r.reply == Some("MODE_SET_OK") <==> r.effect.ModeChanged?
    ensures r.effect.ModeChanged? ==> 0 <= r.effect.mode <= 15 && r.effect.mode == Atol(CString(payload))
    ensures !r.effect.ModeChanged? ==> r.effect == NoEffect && !(0 <= Atol(CString(payload)) <= 15)
  {
    var mode := Atol(CString(payload));
    if 0 <= mode <= 15 then Response(Some("MODE_SET_OK"), ModeChanged(mode))
    else Response(Some("MODE_SET_FAIL"), NoEffect)
  }

  /** Dispatch of one received line (`checkSerialCommands`). */
  function Dispatch(received: string): (r: Response)
    // the three commands are tried in this order; anything else is ignored
    ensures var line := CTrim(received);
      r.reply.None? <==> !StartsWith(line, SetTimePrefix) && !StartsWith(line, SetModePrefix) && line != TriggerPoke
    ensures r.reply.None? ==> r.effect == NoEffect
    ensures StartsWith(CTrim(received), SetTimePrefix) ==>
      r == SetTimeResponse(CTrim(received)[|SetTimePrefix|..])
    ensures !StartsWith(CTrim(received), SetTimePrefix) && StartsWith(CTrim(received), SetModePrefix) ==>
      r == SetModeResponse(CTrim(received)[|SetModePrefix|..])
    ensures r.reply == Some("TIME_SET_OK") <==> r.effect.ClockAdjusted?
    ensures r.reply == Some("MODE_SET_OK") <==> r.effect.ModeChanged?
    ensures r.reply == Some("SIMULATED_POKE") <==> r.effect.PokeSimulated?
    // exactly TRIGGER_POKE simulates a poke, answered SIMULATED_POKE
    ensures r.effect.PokeSimulated? <==> CTrim(received) == TriggerPoke
    ensures CTrim(received) == TriggerPoke ==> r == Response(Some("SIMULATED_POKE"), PokeSimulated)
  {
    var line := CTrim(received);
    TriggerPokeUnprefixed();
    if StartsWith(line, SetTimePrefix) then SetTimeResponse(line[|SetTimePrefix|..])
    else if StartsWith(line, SetModePrefix) then SetModeResponse(line[|SetModePrefix|..])
    else if line == TriggerPoke then Response(Some("SIMULATED_POKE"), PokeSimulated)
    else Response(None, NoEffect)
  }

  /** TRIGGER_POKE starts with neither of the other two commands. */
  lemma TriggerPokeUnprefixed()
    ensures !StartsWith(TriggerPoke, SetTimePrefix) && !StartsWith(TriggerPoke, SetModePrefix)
  {
    assert TriggerPoke[..|SetTimePrefix|][0] != SetTimePrefix[0];
    assert TriggerPoke[..|SetModePrefix|][0] != SetModePrefix[0];
  }

  /** The firmware state the commands touch. */
  datatype Device = Device(fedMode: int, stopLogging: bool)

  /** One pass of `run()` with a line waiting on the serial port: nothing at
      all once logging has been stopped (after a jam alarm), otherwise the
      dispatcher, with SET_MODE's new mode taking effect. */
  function Run(d: Device, received: string): (r: (Device, Response))
    ensures d.stopLogging ==> r == (d, Response(None, NoEffect))
    ensures r.0.stopLogging == d.stopLogging
    ensures r.0.fedMode != d.fedMode ==> 0 <= r.0.fedMode <= 15 && r.1.reply == Some("MODE_SET_OK")
    ensures r.1.reply == Some("MODE_SET_FAIL") ==> r.0 == d
  {
    if d.stopLogging then (d, Response(None, NoEffect))
    else
      var resp := Dispatch(received);
      match resp.effect
      case ModeChanged(m) => (d.(fedMode := m), resp)
      case _ => (d, resp)
  }

  /** The line the host scripts send to set the clock (without the final
      newline, which the firmware's `readStringUntil('\n')` consumes). */
  function SetTimeCommand(year: nat, month: nat, day: nat, hour: nat, minute: nat, second: nat): string {
    SetTimePrefix + Join(Rendered([year, month, day, hour, minute, second]), ',')
  }

  /** Decimal renderings of a list of numbers. */
  function Rendered(ns: seq<nat>): (r: seq<string>)
    ensures |r| == |ns|
    ensures forall i :: 0 <= i < |ns| ==> r[i] == NatToString(ns[i])
  {
    seq(|ns|, i requires 0 <= i < |ns| => NatToString(ns[i]))
  }

  /** The line the host scripts send to change the mode. */
  function SetModeCommand(mode: nat): string {
    SetModePrefix + NatToString(mode)
  }

  // ---------------------------------------------------------------- lemmas

  lemma {:induction false} NatToStringLength(n: nat, k: nat)
    requires n < Pow10(k)
    requires k >= 1
    ensures |NatToString(n)| <= k
    decreases k
  {
    if n >= 10 {
      NatToStringLength(n / 10, k - 1);
    }
  }

  function Pow10(k: nat): nat {
    if k == 0 then 1 else 10 * Pow10(k - 1)
  }

  /** A rendered number followed by a non-digit scans back as that number. */
  lemma {:induction false} ScanRendered(n: nat, rest: string)
    requires |rest| > 0 ==> !IsDigit(rest[0])
    ensures ScanInt(NatToString(n) + rest) == Some(Scanned(Saturate(n), rest))
  {
    var d := NatToString(n);
    var s := d + rest;
    assert s[0] == d[0];
    assert IsDigit(s[0]);
    assert !IsCSpace(s[0]);
    assert TrimLeft(s, IsCSpace) == s;
    DigitRunOf(d, rest);
    assert s[..|d|] == d;
    NatToStringValue(n);
    assert s[|d|..] == rest;
  }

  lemma {:induction false} DigitRunOf(d: string, rest: string)
    requires AllDigits(d)
    requires |rest| > 0 ==> !IsDigit(rest[0])
    ensures DigitRun(d + rest) == |d|
    decreases |d|
  {
    if |d| > 0 {
      DigitRunOf(d[1..], rest);
      assert (d + rest)[1..] == d[1..] + rest;
    } else {
      assert d + rest == rest;
    }
  }

  /** Arduino's `trim()` leaves a line alone whose ends are not whitespace. */
  lemma {:induction false} CTrimNoMargin(s: string)
    requires |s| > 0 && !IsCSpace(s[0]) && !IsCSpace(s[|s| - 1])
    ensures CTrim(s) == s
  {
  }

  /** Comma-separated renderings of numbers scan back, one `%d` each. */
  lemma ScanJoined(ns: seq<nat>)
    requires |ns| >= 1
    requires forall i :: 0 <= i < |ns| ==> ns[i] <= IntMax
    ensures ScanFields(Join(Rendered(ns), ','), |ns|) == ns
  {
    ScanFieldsOfJoin(Rendered(ns), ns);
  }

  lemma {:induction false} ScanFieldsOfJoin(fs: seq<string>, ns: seq<nat>)
    requires |fs| == |ns| >= 1
    requires forall i :: 0 <= i < |ns| ==> ns[i] <= IntMax && fs[i] == NatToString(ns[i])
    ensures ScanFields(Join(fs, ','), |ns|) == ns
    decreases |ns|
  {
    if |ns| == 1 {
      ScanOne(fs[0], ns[0]);
      assert fs == [fs[0]];
      assert Join(fs, ',') == fs[0];
      assert ns == [ns[0]];
    } else {
      assert forall i :: 0 <= i < |ns| - 1 ==> ns[1..][i] == ns[i + 1] && fs[1..][i] == fs[i + 1];
      ScanFieldsOfJoin(fs[1..], ns[1..]);
      assert ns[0] <= IntMax && fs[0] == NatToString(ns[0]);
      ScanJoinStep(fs, ns);
    }
  }

  lemma ScanJoinStep(fs: seq<string>, ns: seq<nat>)
    requires |fs| == |ns| >= 2
    requires ns[0] <= IntMax && fs[0] == NatToString(ns[0])
    requires ScanFields(Join(fs[1..], ','), |ns| - 1) == ns[1..]
    ensures ScanFields(Join(fs, ','), |ns|) == ns
  {
    var tail := Join(fs[1..], ',');
    var x := Join(fs, ',');
    assert x == NatToString(ns[0]) + [','] + tail by {
      JoinCons(fs);
    }
    assert ScanFields(x, |ns|) == [ns[0]] + ns[1..] by {
      ScanTail(ns[0], x, tail, |ns|);
    }
    assert [ns[0]] + ns[1..] == ns;
  }

  lemma JoinCons(fs: seq<string>)
    requires |fs| >= 2
    ensures Join(fs, ',') == fs[0] + [','] + Join(fs[1..], ',')
  {
  }

  /** A single rendered number scans back as itself. */
  lemma ScanOne(d: string, n: nat)
    requires n <= IntMax && d == NatToString(n)
    ensures ScanFields(d, 1) == [n]
  {
    assert d + "" == d;
    ScanRendered(n, "");
  }

  /** One more rendered number and comma in front of a scanned tail. */
  lemma ScanTail(n: nat, x: string, tail: string, k: nat)
    requires n <= IntMax && k >= 2
    requires x == NatToString(n) + [','] + tail
    ensures ScanFields(x, k) == [n] + ScanFields(tail, k - 1)
  {
    var rest := [','] + tail;
    assert x == NatToString(n) + rest;
    ScanRendered(n, rest);
    ScanFieldsCons(x, k, n, tail);
  }

  /** A conversion followed by a comma lets `sscanf` go on with the text after it. */
  lemma ScanFieldsCons(s: string, k: nat, v: int, tail: string)
    requires k >= 2 && ScanInt(s) == Some(Scanned(v, [','] + tail))
    ensures ScanFields(s, k) == [v] + ScanFields(tail, k - 1)
  {
    assert ([','] + tail)[1..] == tail;
  }

  predicate DigitOrComma(c: char) { IsDigit(c) || c == ',' }

  /** The host's SET_TIME line for any calendar date and time is accepted:
      the firmware recovers the same six numbers and answers TIME_SET_OK. */
  lemma {:induction false} SetTimeRoundTrip(year: nat, month: nat, day: nat, hour: nat, minute: nat, second: nat)
    requires 1 <= year <= 9999 && 1 <= month <= 12 && 1 <= day <= 31
    requires hour <= 23 && minute <= 59 && second <= 59
    ensures Dispatch(SetTimeCommand(year, month, day, hour, minute, second))
         == Response(Some("TIME_SET_OK"), ClockAdjusted([year, month, day, hour, minute, second]))
  {
    var ns: seq<nat> := [year, month, day, hour, minute, second];
    var fs := Rendered(ns);
    var payload := Join(fs, ',');
    forall i | 0 <= i < 6 ensures |fs[i]| <= 4 {
      NatToStringLength(ns[i], 4);
    }
    JoinLength(fs, ',', 4);
    RenderedPayload(ns);
    ScanJoined(ns);
    SetTimeAccepted(payload, ns);
  }

  /** A short SET_TIME payload that scans as six numbers sets the clock to them. */
  lemma SetTimeAccepted(payload: string, ns: seq<int>)
    requires |payload| <= 49 && '\0' !in payload
    requires |payload| >= 1 && !IsCSpace(payload[|payload| - 1])
    requires |ns| == 6 && ScanFields(payload, 6) == ns
    ensures Dispatch(SetTimePrefix + payload) == Response(Some("TIME_SET_OK"), ClockAdjusted(ns))
  {
    SetTimeLine(payload);
    assert CString(ToCharArray50(payload)) == payload;
  }

  /** A payload of rendered numbers is not empty and holds only digits and
      commas, and so no NUL and no whitespace at its end. */
  lemma RenderedPayload(ns: seq<nat>)
    requires |ns| >= 1
    ensures var payload := Join(Rendered(ns), ',');
      && |payload| >= 1 && '\0' !in payload && !IsCSpace(payload[|payload| - 1])
  {
    var fs := Rendered(ns);
    var payload := Join(fs, ',');
    assert forall i, j :: 0 <= i < |fs| && 0 <= j < |fs[i]| ==> DigitOrComma(fs[i][j]) by {
      forall i, j | 0 <= i < |fs| && 0 <= j < |fs[i]| ensures DigitOrComma(fs[i][j]) {
        assert AllDigits(fs[i]);
      }
    }
    JoinChars(fs, ',', DigitOrComma);
    JoinNonEmpty(fs);
    assert DigitOrComma(payload[|payload| - 1]);
    forall i | 0 <= i < |payload| ensures payload[i] != '\0' {
      assert DigitOrComma(payload[i]);
    }
  }

  /** A SET_TIME line whose payload ends in a non-blank reaches SET_TIME's
      handler with its payload. */
  lemma SetTimeLine(payload: string)
    requires |payload| >= 1 && !IsCSpace(payload[|payload| - 1])
    ensures Dispatch(SetTimePrefix + payload) == SetTimeResponse(payload)
  {
    var cmd := SetTimePrefix + payload;
    assert cmd[|cmd| - 1] == payload[|payload| - 1];
    CTrimNoMargin(cmd);
    assert StartsWith(cmd, SetTimePrefix);
    assert cmd[|SetTimePrefix|..] == payload;
  }

  lemma {:induction false} JoinNonEmpty(fs: seq<string>)
    requires |fs| >= 1 && |fs[0]| >= 1
    ensures |Join(fs, ',')| >= 1
  {
  }

  /** The host's line for a mode code reaches SET_MODE's handler. */
  lemma {:induction false} SetModeCommandPayload(mode: nat)
    ensures var cmd := SetModeCommand(mode);
      CTrim(cmd) == cmd && !StartsWith(cmd, SetTimePrefix) && StartsWith(cmd, SetModePrefix)
      && Atol(CString(cmd[|SetModePrefix|..])) == Saturate(mode)
  {
    var cmd := SetModeCommand(mode);
    var digits := NatToString(mode);
    assert cmd[|cmd| - 1] == digits[|digits| - 1];
    CTrimNoMargin(cmd);
    assert cmd[4] == 'M';
    assert cmd[|SetModePrefix|..] == digits;
    assert '\0' !in digits by { assert AllDigits(digits); }
    assert digits + "" == digits;
    ScanRendered(mode, "");
  }

  /** A mode code in 0..15 sent by the host is taken over and acknowledged. */
  lemma {:induction false} SetModeRoundTrip(mode: nat)
    requires mode <= 15
    ensures Dispatch(SetModeCommand(mode)) == Response(Some("MODE_SET_OK"), ModeChanged(mode))
  {
    SetModeCommandPayload(mode);
  }

  /** A mode above 15 is refused and the device keeps its mode. */
  lemma {:induction false} SetModeOutOfRangeKeepsMode(d: Device, mode: nat)
    requires !d.stopLogging
    requires 16 <= mode
    ensures Run(d, SetModeCommand(mode)) == (d, Response(Some("MODE_SET_FAIL"), NoEffect))
  {
    SetModeCommandPayload(mode);
  }

  /** SET_MODE whose payload does not start with a number is read as mode 0
      by `toInt()`, so it is acknowledged and switches to mode 0. */
  lemma {:induction false} SetModeWithoutNumberSelectsZero(payload: string)
    requires ScanInt(CString(payload)).None?
    requires CTrim(SetModePrefix + payload) == SetModePrefix + payload
    ensures Dispatch(SetModePrefix + payload) == Response(Some("MODE_SET_OK"), ModeChanged(0))
  {
    SetModeLine(payload);
  }

  /** A trimmed SET_MODE line reaches SET_MODE's handler with its payload. */
  lemma SetModeLine(payload: string)
    requires CTrim(SetModePrefix + payload) == SetModePrefix + payload
    ensures Dispatch(SetModePrefix + payload) == SetModeResponse(payload)
  {
    var cmd := SetModePrefix + payload;
    assert !StartsWith(cmd, SetTimePrefix) by {
      assert cmd[4] == 'M';
    }
    assert StartsWith(cmd, SetModePrefix) && cmd[|SetModePrefix|..] == payload;
  }

  /** A SET_TIME payload whose first character cannot start a number is refused. */
  lemma {:induction false} SetTimeGarbageFails(payload: string)
    requires |payload| > 0 && !IsDigit(payload[0]) && !IsCSpace(payload[0])
      && payload[0] != '+' && payload[0] != '-'
    requires !IsCSpace(payload[|payload| - 1])
    ensures Dispatch(SetTimePrefix + payload) == Response(Some("TIME_SET_FAIL"), NoEffect)
  {
    var cmd := SetTimePrefix + payload;
    assert cmd[|cmd| - 1] == payload[|payload| - 1];
    CTrimNoMargin(cmd);
    assert cmd[|SetTimePrefix|..] == payload;
    var c := CString(ToCharArray50(payload));
    if |c| > 0 {
      assert c[0] == payload[0];
      assert TrimLeft(c, IsCSpace) == c;
      assert DigitRun(c) == 0;
    }
  }
}

=== FILE: fed_feeder.dfy ===
/**
 The FED3 firmware's pellet feeding loop (`Feed`) with its jam-clearing
 schedule keyed on `numMotorTurns`, the `RotateDisk` guard and the `Alarm`
 that stops the device after a jam. Every motor movement ends with the pellet
 sensor either seeing a pellet or not; that outcome is an input, read in
 order from `sensor` (an exhausted sensor sees nothing). Pokes made while a
 pellet waits in the well, display and timing are left out.
 */
module FedFeeder {

  /** The moves a turn that saw no pellet makes, in the firmware's order. */
  datatype Move = MinorJam | VibrateJam | ClearJam | Alarm

  /** The moves the schedule calls for on turn `n`. */
  function Schedule(n: int): (r: seq<Move>)
    ensures MinorJam in r <==> n % 5 == 0
    ensures VibrateJam in r <==> n % 10 == 0 && n % 20 != 0
    ensures ClearJam in r <==> n % 20 == 0
    ensures Alarm in r <==> n % 50 == 0
  {
    (if n % 5 == 0 then [MinorJam] else [])
    + (if n % 10 == 0 && n % 20 != 0 then [VibrateJam] else [])
    + (if n % 20 == 0 then [ClearJam] else [])
    + (if n % 50 == 0 then [Alarm] else [])
  }

  /** VibrateJam and ClearJam never share a turn; an alarm turn has already
      tried MinorJam and one of the two. Divisibility is the same under C's
      truncating `%`, so the schedule holds for any sign of the count. */
  lemma ScheduleShape(n: int)
    ensures !(VibrateJam in Schedule(n) && ClearJam in Schedule(n))
    ensures Alarm in Schedule(n) ==> MinorJam in Schedule(n) && (VibrateJam in Schedule(n) || ClearJam in Schedule(n))
  {
    if n % 50 == 0 {
      var k := n / 50;
      assert n == 50 * k;
      assert n == 5 * (10 * k);
      assert n == 10 * (5 * k);
    }
  }

  /** A row `logdata` wrote: its event and `numMotorTurns` at that moment. */
  datatype Logged = Logged(event: string, numMotorTurns: int)

  datatype Feeder = Feeder(
    numMotorTurns: int,
    pelletAvailable: bool,
    jamOccurred: bool,
    stopLogging: bool,
    pelletCount: int,
    log: seq<Logged>)

  /** `logdata`: nothing is written once logging has stopped. */
  function LogEvent(f: Feeder, event: string): (r: Feeder)
    ensures r.log == if f.stopLogging then f.log else f.log + [Logged(event, f.numMotorTurns)]
    ensures r.(log := f.log) == f
  {
    if f.stopLogging then f else f.(log := f.log + [Logged(event, f.numMotorTurns)])
  }

  /** The next sensor outcome and the outcomes left. */
  function Sense(sensor: seq<bool>): (bool, seq<bool>) {
    if |sensor| == 0 then (false, sensor) else (sensor[0], sensor[1..])
  }

  /** `RotateDisk`: no movement and no pellet once a jam has occurred. */
  function RotateDisk(f: Feeder, sensor: seq<bool>): (r: (bool, seq<bool>))
    ensures f.jamOccurred ==> r == (false, sensor)
  {
    if f.jamOccurred then (false, sensor) else Sense(sensor)
  }

  /** `Alarm`: logs a JAM row, then stops logging and marks the jam. */
  function RaiseAlarm(f: Feeder): (r: Feeder)
    ensures r.jamOccurred && r.stopLogging
    ensures !f.stopLogging ==> r.log == f.log + [Logged("JAM", f.numMotorTurns)]
  {
    LogEvent(f, "JAM").(stopLogging := true, jamOccurred := true)
  }

  /** The moves of one turn, stopping at the first one that sees a pellet. */
  function RunMoves(f: Feeder, moves: seq<Move>, sensor: seq<bool>): (r: (Feeder, bool, seq<bool>))
    ensures !r.0.jamOccurred ==> r.0 == f
    ensures r.0.jamOccurred && !f.jamOccurred ==> Alarm in moves && !r.1
    ensures !f.jamOccurred && Alarm in moves && !r.1 ==> r.0.jamOccurred
    ensures f.jamOccurred && f.stopLogging ==> r == (f, false, sensor)
    decreases |moves|
  {
    if |moves| == 0 then (f, false, sensor)
    else if moves[0] == Alarm then
      var g := RaiseAlarm(f);
      var rest := RunMoves(g, moves[1..], sensor);
      (rest.0, false, rest.2)
    else
      var (seen, sensor') := RotateDisk(f, sensor);
      if seen then (f, true, sensor') else RunMoves(f, moves[1..], sensor')
  }

  /** The pellet reached the well: PelletInWell is logged, the count goes up,
      the Pellet row is logged, and the motor-turn count starts again. */
  function Dispensed(f: Feeder): (r: Feeder)
    ensures r.pelletAvailable && r.numMotorTurns == 0
    ensures r.pelletCount == f.pelletCount + 1
    ensures r.jamOccurred == f.jamOccurred && r.stopLogging == f.stopLogging
    ensures !f.stopLogging ==>
      r.log == f.log + [Logged("PelletInWell", f.numMotorTurns), Logged("Pellet", f.numMotorTurns)]
  {
    var g := LogEvent(f, "PelletInWell").(pelletCount := f.pelletCount + 1);
    LogEvent(g, "Pellet").(numMotorTurns := 0, pelletAvailable := true)
  }

  /** Turns left before the next multiple of 50. */
  function ToAlarm(n: int): nat {
    50 - n % 50
  }

  /** Counting up to a turn that is not a multiple of 50 brings the alarm closer. */
  lemma ToAlarmStep(n: int)
    requires (n + 1) % 50 != 0
    ensures ToAlarm(n + 1) < ToAlarm(n)
  {
  }

  /** A turn that did not see a pellet: the dispense timer is checked, the
      turn is counted and the schedule's moves run. */
  function Turn(f: Feeder, sensor: seq<bool>): (r: (Feeder, bool, seq<bool>))
    requires !f.jamOccurred
    ensures var g := f.(numMotorTurns := f.numMotorTurns + 1);
      && (!r.0.jamOccurred ==> r.0 == g)
      && (r.0.jamOccurred ==> !r.1 && g.numMotorTurns % 50 == 0)
      && (!r.0.jamOccurred && !r.1 ==> ToAlarm(g.numMotorTurns) < ToAlarm(f.numMotorTurns))
      && (r.0.jamOccurred && !f.stopLogging ==>
            r.0 == g.(jamOccurred := true, stopLogging := true, log := g.log + [Logged("JAM", g.numMotorTurns)]))
  {
    var (timer, sensor2) := Sense(sensor);
    var g := f.(numMotorTurns := f.numMotorTurns + 1);
    if timer then (g, true, sensor2)
    else
      var moves := Schedule(g.numMotorTurns);
      var r := RunMoves(g, moves, sensor2);
      assert !r.0.jamOccurred && !r.1 ==> ToAlarm(g.numMotorTurns) < ToAlarm(f.numMotorTurns) by {
        if !r.0.jamOccurred && !r.1 {
          ToAlarmStep(f.numMotorTurns);
        }
      }
      assert r.0.jamOccurred && !f.stopLogging ==>
        r.0 == g.(jamOccurred := true, stopLogging := true, log := g.log + [Logged("JAM", g.numMotorTurns)]) by {
        if !f.stopLogging {
          RunMovesAlarm(g, moves, sensor2);
        }
      }
      r
  }

  /** One pass of the `do ... while` body of `Feed` and the passes after it. */
  function FeedLoop(f: Feeder, dispensed: bool, sensor: seq<bool>): (r: Feeder)
    requires !f.jamOccurred
    decreases if dispensed then 0 else 1, ToAlarm(f.numMotorTurns)
  {
    var (seen, sensor1) := if dispensed then (true, sensor) else RotateDisk(f, sensor);
    if seen then Dispensed(f)
    else if f.pelletAvailable then f
    else
      var (h, seen2, sensor3) := Turn(f, sensor1);
      if h.jamOccurred then h
      else if seen2 then FeedLoop(h, true, sensor3)
      else FeedLoop(h, false, sensor3)
  }

  /** `Feed`: nothing at all after a jam or once logging has stopped. */
  function Feed(f: Feeder, sensor: seq<bool>): (r: Feeder)
    ensures f.stopLogging || f.jamOccurred ==> r == f
  {
    if f.stopLogging || f.jamOccurred then f else FeedLoop(f, false, sensor)
  }

  // ------------------------------------------------------------ properties

  /** How a feed that started from `f` can end in `r`: rows were only
      added, and exactly one of two things happened. Either a pellet was
      dispensed: one more pellet, the Pellet row last. Or the alarm fired:
      the jam flags are set, the JAM row is the only new row, and no pellet
      was dispensed. */
  predicate FeedEnded(f: Feeder, r: Feeder) {
    && |r.log| > |f.log| && r.log[..|f.log|] == f.log
    && (r.jamOccurred <==> !r.pelletAvailable)
    && (r.pelletAvailable ==>
          r.pelletCount == f.pelletCount + 1 && r.numMotorTurns == 0
          && !r.stopLogging && r.log[|r.log| - 1].event == "Pellet")
    && (r.jamOccurred ==>
          r.pelletCount == f.pelletCount && r.stopLogging
          && r.numMotorTurns % 50 == 0 && r.log == f.log + [Logged("JAM", r.numMotorTurns)])
  }

  /** A feed that starts with no pellet waiting ends in one of the two ways. */
  lemma {:induction false} FeedOutcome(f: Feeder, dispensed: bool, sensor: seq<bool>)
    requires !f.jamOccurred && !f.stopLogging && !f.pelletAvailable
    ensures FeedEnded(f, FeedLoop(f, dispensed, sensor))
    decreases if dispensed then 0 else 1, ToAlarm(f.numMotorTurns)
  {
    var (seen, sensor1) := if dispensed then (true, sensor) else RotateDisk(f, sensor);
    if seen {
      assert FeedLoop(f, dispensed, sensor) == Dispensed(f);
      DispenseEnds(f);
    } else {
      var t := Turn(f, sensor1);
      if t.0.jamOccurred {
        assert FeedLoop(f, dispensed, sensor) == t.0;
      } else {
        assert FeedLoop(f, dispensed, sensor) == FeedLoop(t.0, t.1, t.2);
        FeedOutcome(t.0, t.1, t.2);
        TurnEnds(f, t.0, FeedLoop(t.0, t.1, t.2));
      }
    }
  }

  lemma DispenseEnds(f: Feeder)
    requires !f.jamOccurred && !f.stopLogging
    ensures FeedEnded(f, Dispensed(f))
  {
    var r := Dispensed(f);
    assert r.log[..|f.log|] == f.log;
  }

  /** A counted turn adds no row, so the feed after it ends as the feed
      before it would. */
  lemma TurnEnds(f: Feeder, h: Feeder, r: Feeder)
    requires h == f.(numMotorTurns := f.numMotorTurns + 1)
    requires FeedEnded(h, r)
    ensures FeedEnded(f, r)
  {
  }

  /** What the alarm leaves behind when it fires during a turn. */
  lemma {:induction false} RunMovesAlarm(f: Feeder, moves: seq<Move>, sensor: seq<bool>)
    requires !f.jamOccurred && !f.stopLogging
    ensures var r := RunMoves(f, moves, sensor).0;
      r.jamOccurred ==> r == f.(jamOccurred := true, stopLogging := true, log := f.log + [Logged("JAM", f.numMotorTurns)])
    decreases |moves|
  {
    if |moves| > 0 {
      if moves[0] != Alarm {
        var (seen, sensor') := RotateDisk(f, sensor);
        if !seen {
          RunMovesAlarm(f, moves[1..], sensor');
        }
      }
    }
  }

  /** With a sensor that never sees a pellet, a feed that starts at turn 0
      makes fifty turns, then raises the alarm. */
  lemma {:induction false} EmptyHopperJamsAtFifty(f: Feeder)
    requires !f.jamOccurred && !f.stopLogging && !f.pelletAvailable
    requires 0 <= f.numMotorTurns < 50
    ensures var r := Feed(f, []);
      r.jamOccurred && r.numMotorTurns == 50 && r.log == f.log + [Logged("JAM", 50)]
  {
    NoPelletRunsToAlarm(f);
  }

  lemma {:induction false} NoPelletRunsToAlarm(f: Feeder)
    requires !f.jamOccurred && !f.stopLogging && !f.pelletAvailable
    requires 0 <= f.numMotorTurns < 50
    ensures var r := FeedLoop(f, false, []);
      r.jamOccurred && r.numMotorTurns == 50 && r.log == f.log + [Logged("JAM", 50)]
    decreases 50 - f.numMotorTurns
  {
    if f.numMotorTurns < 49 {
      EmptyTurnCounts(f);
      NoPelletRunsToAlarm(f.(numMotorTurns := f.numMotorTurns + 1));
    } else {
      EmptyTurnAlarms(f);
    }
  }

  /** Below turn 49, an empty turn only counts itself. */
  lemma EmptyTurnCounts(f: Feeder)
    requires !f.jamOccurred && !f.stopLogging && !f.pelletAvailable
    requires 0 <= f.numMotorTurns < 49
    ensures FeedLoop(f, false, []) == FeedLoop(f.(numMotorTurns := f.numMotorTurns + 1), false, [])
  {
    var g := f.(numMotorTurns := f.numMotorTurns + 1);
    EmptySensorTurn(f);
    NoPelletMoves(g, Schedule(g.numMotorTurns));
    assert g.numMotorTurns % 50 != 0;
  }

  /** Turn 50 raises the alarm. */
  lemma EmptyTurnAlarms(f: Feeder)
    requires !f.jamOccurred && !f.stopLogging && !f.pelletAvailable
    requires f.numMotorTurns == 49
    ensures FeedLoop(f, false, []) ==
      f.(numMotorTurns := 50, jamOccurred := true, stopLogging := true, log := f.log + [Logged("JAM", 50)])
  {
    var g := f.(numMotorTurns := f.numMotorTurns + 1);
    EmptySensorTurn(f);
    NoPelletMoves(g, Schedule(g.numMotorTurns));
    assert Alarm in Schedule(g.numMotorTurns);
  }

  /** One pass of the feeding loop with a sensor that sees nothing: a turn
      that sees no pellet, as the schedule's moves decide. */
  lemma EmptySensorTurn(f: Feeder)
    requires !f.jamOccurred && !f.pelletAvailable
    ensures var g := f.(numMotorTurns := f.numMotorTurns + 1);
      && Turn(f, []) == RunMoves(g, Schedule(g.numMotorTurns), [])
      && var t := Turn(f, []);
      FeedLoop(f, false, []) ==
        if t.0.jamOccurred then t.0
        else if t.1 then FeedLoop(t.0, true, t.2)
        else FeedLoop(t.0, false, t.2)
  {
    assert RotateDisk(f, []) == (false, []);
    assert Sense([]) == (false, []);
  }

  /** Moves with a sensor that sees nothing see no pellet, and raise the alarm
      exactly when the alarm is among them. */
  lemma {:induction false} NoPelletMoves(f: Feeder, moves: seq<Move>)
    requires !f.jamOccurred && !f.stopLogging
    ensures var r := RunMoves(f, moves, []);
      !r.1 && r.2 == [] && (r.0.jamOccurred <==> Alarm in moves)
    decreases |moves|
  {
    if |moves| > 0 {
      if moves[0] != Alarm {
        NoPelletMoves(f, moves[1..]);
      }
    }
  }

  /** Once the alarm has fired, feeding changes nothing and the disk does not turn. */
  lemma AfterJamNothingMoves(f: Feeder, sensor: seq<bool>)
    requires f.jamOccurred
    ensures Feed(f, sensor) == f
    ensures RotateDisk(f, sensor) == (false, sensor)
    ensures LogEvent(RaiseAlarm(f), "Pellet").log == RaiseAlarm(f).log
  {
  }
}

=== FILE: fed_filename.dfy ===
/**
 The FED3 firmware's log file name, `FED<ddd>_<MMDDYY>_<NN>_<PP>.CSV`
 (`getFilename` and `FigureToPellet`): the device number (with the tens
 digit as the firmware computes it), the date, a
 per-day counter chosen so that no existing file is overwritten, and a
 two-character pellet code.
 */
module FedFilename {
  import opened Text
  import opened FedLog
  import FedMenus

  /** C's `/` on `int`: the quotient truncated toward zero. */
  function CDiv(a: int, b: int): (q: int)
    requires b > 0
    ensures a >= 0 ==> q == a / b
  {
    if a >= 0 then a / b else -((-a) / b)
  }

  /** C's `%` on `int`: the remainder takes the sign of the dividend. */
  function CMod(a: int, b: int): (r: int)
    requires b > 0
    ensures a == b * CDiv(a, b) + r
    ensures -b < r < b
  {
    a - b * CDiv(a, b)
  }

  /** `n + '0'` stored in an 8-bit `char`. */
  function DigitAt(n: int): (c: char)
    ensures 0 <= n < 10 ==> c == DigitChar(n)
    ensures IsDigit(c) <==> 0 <= n % 256 < 10
  {
    ((48 + n) % 256) as char
  }

  /** `FigureToPellet`: the two-character code of a pellet type. */
  function PelletCode(pelletType: int): (r: string)
    ensures |r| == 2
    ensures r == "__" <==> !(1 <= pelletType <= 6)
  {
    if pelletType == 1 then "MX"
    else if pelletType == 2 then "20"
    else if pelletType == 3 then "5%"
    else if pelletType == 4 then "35"
    else if pelletType == 5 then "SU"
    else if pelletType == 6 then "GR"
    else "__"
  }

  /** Positions 3..5 as the firmware writes them: the middle character is
      `FED / 10 + '0'`, with no `% 10`. */
  function FedDigitsAsWritten(fed: int): string {
    [DigitAt(CDiv(fed, 100)), DigitAt(CDiv(fed, 10)), DigitAt(CMod(fed, 10))]
  }

  /** Positions 3..5 as intended: the hundreds, tens and units of the device number. */
  function FedDigits(fed: int): (r: string)
    ensures |r| == 3
  {
    [DigitAt(CDiv(fed, 100)), DigitAt(CMod(CDiv(fed, 10), 10)), DigitAt(CMod(fed, 10))]
  }

  /** Positions 7..12: month, day and year within the century, two characters each. */
  function DateDigits(now: Clock): (r: string)
    ensures |r| == 6
  {
    [DigitAt(now.month / 10), DigitAt(now.month % 10),
     DigitAt(now.day / 10), DigitAt(now.day % 10),
     DigitAt(CDiv(now.year - 2000, 10)), DigitAt(CMod(now.year - 2000, 10))]
  }

  /** Positions 14..15: the per-day counter, `'0' + i / 10` and `'0' + i % 10`. */
  function CounterDigits(i: nat): (r: string)
    requires i < 100
    ensures |r| == 2 && AllDigits(r) && DigitsValue(r) == i
  {
    var r := [DigitChar(i / 10), DigitChar(i % 10)];
    TwoDigitsValue(r);
    r
  }

  /** The name the template `FED_______________.CSV` becomes for the given
      device digits and counter. Writing ".CSV" at positions 19..22 moves the
      extension one place right and covers the template's terminating NUL;
      the byte after it is taken to be NUL. */
  function NameFrom(deviceDigits: string, now: Clock, pelletType: int, counter: nat): string
    requires counter < 100
  {
    "FED" + deviceDigits + "_" + DateDigits(now) + "_" + CounterDigits(counter) + "_"
      + PelletCode(pelletType) + ".CSV"
  }

  /** The name the firmware writes: device digits as written at positions 3..5. */
  function NameWith(fed: int, now: Clock, pelletType: int, counter: nat): string
    requires counter < 100
  {
    NameFrom(FedDigitsAsWritten(fed), now, pelletType, counter)
  }

  /** The name with the intended device digits. */
  function IntendedName(fed: int, now: Clock, pelletType: int, counter: nat): string
    requires counter < 100
  {
    NameFrom(FedDigits(fed), now, pelletType, counter)
  }

  /** The fixed layout of every name the firmware writes, whatever the device
      number, date, counter or pellet type. */
  lemma NameLayout(fed: int, now: Clock, pelletType: int, counter: nat)
    requires counter < 100
    ensures var n := NameWith(fed, now, pelletType, counter);
      && |n| == 23
      && n[..3] == "FED" && n[3..6] == FedDigitsAsWritten(fed) && n[6] == '_'
      && n[7..13] == DateDigits(now) && n[13] == '_'
      && n[14..16] == CounterDigits(counter) && n[16] == '_'
      && n[17..19] == PelletCode(pelletType)
      && n[19..] == ".CSV"
  {
  }

  /** The name is the same for two counters only when the counters are equal,
      so the search below tries a hundred distinct files. */
  lemma NamesDiffer(fed: int, now: Clock, pelletType: int, i: nat, j: nat)
    requires i < 100 && j < 100 && i != j
    ensures NameWith(fed, now, pelletType, i) != NameWith(fed, now, pelletType, j)
  {
    NameLayout(fed, now, pelletType, i);
    NameLayout(fed, now, pelletType, j);
    assert NameWith(fed, now, pelletType, i)[14..16] != NameWith(fed, now, pelletType, j)[14..16] by {
      assert DigitsValue(CounterDigits(i)) != DigitsValue(CounterDigits(j));
    }
  }

  /** `getFilename`: stamps the fixed positions, then tries counters 0..99 and
      keeps the first one whose file does not exist yet (`taken` stands for
      `SD.exists`); when all hundred exist it ends on 99. */
  method GetFilename(fed: int, now: Clock, pelletType: int, taken: string -> bool)
    returns (name: string, counter: nat)
    ensures counter < 100 && name == NameWith(fed, now, pelletType, counter)
    ensures forall j :: 0 <= j < counter ==> taken(NameWith(fed, now, pelletType, j))
    ensures !taken(name) || counter == 99
  {
    var i: nat := 0;
    counter := 0;
    name := NameWith(fed, now, pelletType, 0);
    while i < 100
      invariant i <= 100
      invariant forall j :: 0 <= j < i ==> taken(NameWith(fed, now, pelletType, j))
      invariant i > 0 ==> counter == i - 1 && name == NameWith(fed, now, pelletType, counter)
      invariant i == 0 ==> counter == 0 && name == NameWith(fed, now, pelletType, 0)
    {
      counter := i;
      name := NameWith(fed, now, pelletType, i);
      if !taken(name) {
        return;
      }
      i := i + 1;
    }
  }

  // ------------------------------------------------------------ device digits

  /** With the intended `% 10`, every device number 0..999 is spelled as its
      three decimal digits. */
  lemma FedDigitsSpellNumber(fed: int)
    requires 0 <= fed <= 999
    ensures AllDigits(FedDigits(fed)) && DigitsValue(FedDigits(fed)) == fed
  {
    var h, t, u := fed / 100, (fed / 10) % 10, fed % 10;
    assert FedDigits(fed) == [DigitChar(h), DigitChar(t), DigitChar(u)];
    ThreeDigitsValue(h, t, u);
    assert fed == h * 100 + t * 10 + u by {
      assert fed / 10 == (fed / 100) * 10 + t;
    }
  }

  lemma ThreeDigitsValue(h: nat, t: nat, u: nat)
    requires h < 10 && t < 10 && u < 10
    ensures var d := [DigitChar(h), DigitChar(t), DigitChar(u)];
      AllDigits(d) && DigitsValue(d) == h * 100 + t * 10 + u
  {
    var d := [DigitChar(h), DigitChar(t), DigitChar(u)];
    assert DigitValue(d[0]) == h && DigitValue(d[1]) == t && DigitValue(d[2]) == u;
    assert d[..2][..1][..0] == [];
    assert DigitsValue(d[..2][..1]) == h;
    assert d[..2][..1] == d[..1];
    assert DigitsValue(d[..2]) == h * 10 + t;
  }

  /** The firmware's spelling agrees with the intended one exactly for device
      numbers below 100. */
  lemma AsWrittenAgreesBelow100(fed: int)
    requires 0 <= fed <= FedMenus.MaxDevice
    ensures FedDigitsAsWritten(fed) == FedDigits(fed) <==> fed < 100
  {
    if fed >= 100 {
      assert FedDigitsAsWritten(fed)[1] != FedDigits(fed)[1] by {
        assert 10 <= fed / 10 <= 70;
      }
    }
  }

  /** Device 123: position 4 holds `12 + '0'`, the character '<'. */
  lemma AsWrittenDevice123()
    ensures FedDigitsAsWritten(123) == "1<3"
    ensures !AllDigits(FedDigitsAsWritten(123))
    ensures FedDigits(123) == "123"
  {
    assert !IsDigit(FedDigitsAsWritten(123)[1]);
  }

  /** The corrected name spells the device number 0..999 at positions 3..5,
      and it is the name the firmware writes exactly for device numbers below
      100. */
  lemma IntendedNameSpellsDevice(fed: int, now: Clock, pelletType: int, counter: nat)
    requires 0 <= fed <= FedMenus.MaxDevice && counter < 100
    ensures var n := IntendedName(fed, now, pelletType, counter);
      && |n| == 23 && AllDigits(n[3..6]) && DigitsValue(n[3..6]) == fed
      && (n == NameWith(fed, now, pelletType, counter) <==> fed < 100)
  {
    var n := IntendedName(fed, now, pelletType, counter);
    FedDigitsSpellNumber(fed);
    assert n[3..6] == FedDigits(fed);
    AsWrittenAgreesBelow100(fed);
    if n == NameWith(fed, now, pelletType, counter) {
      NameLayout(fed, now, pelletType, counter);
      assert FedDigitsAsWritten(fed) == n[3..6];
    }
  }

  // ------------------------------------------------------------ date digits

  /** For a date the real-time clock can hold (years 2000..2099), positions
      7..12 are digits spelling month, day and the year within the century. */
  lemma DateDigitsSpellDate(now: Clock)
    requires 1 <= now.month <= 12 && 1 <= now.day <= 31 && 2000 <= now.year <= 2099
    ensures var d := DateDigits(now);
      && AllDigits(d)
      && DigitsValue(d[0..2]) == now.month
      && DigitsValue(d[2..4]) == now.day
      && DigitsValue(d[4..6]) == now.year - 2000
  {
    var d := DateDigits(now);
    TwoDigitsValue(d[0..2]);
    TwoDigitsValue(d[2..4]);
    TwoDigitsValue(d[4..6]);
  }

  // ------------------------------------------------------------ pellet codes

  /** The six named pellet types have six different codes, none of them "__". */
  lemma PelletCodesDistinct(a: int, b: int)
    requires 1 <= a <= 6 && 1 <= b <= 6 && a != b
    ensures PelletCode(a) != PelletCode(b)
  {
  }
}

=== FILE: fed_log.dfy ===
/**
 The FED3 firmware's CSV record layout: the header `writeHeader` writes and
 the row `logdata` prints to the SD card and the serial port. Values that the
 firmware formats from floating-point numbers (battery voltage, temperature,
 humidity, retrieval and poke durations, bandit probabilities) are carried as
 the text `String(float)` produced; only the choice of field is modelled.
 */
module FedLog {
  import opened Text
  import opened Wrappers

  /** Text of a float as Arduino's `String(float)` renders it. */
  type FloatText = string

  datatype Clock = Clock(year: nat, month: nat, day: nat, hour: nat, minute: nat, second: nat)

  /** The AHT sensor's reading; present exactly when `tempSensor` is set. */
  datatype Climate = Climate(temperature: FloatText, humidity: FloatText)

  /** The firmware variables `logdata` reads. */
  datatype Snapshot = Snapshot(
    now: Clock,
    climate: Option<Climate>,
    version: string,
    sessionType: string,
    fed: int,
    battery: FloatText,
    numMotorTurns: int,
    fr: int,
    event: string,
    activePoke: int,
    leftCount: int,
    rightCount: int,
    pelletCount: int,
    blockPelletCount: int,
    retInterval: nat,               // milliseconds, an unsigned difference of `millis()`
    retrievalSeconds: FloatText,    // `String(retInterval / 1000.000)`
    interPelletInterval: int,
    leftPokeSeconds: FloatText,     // `String(leftInterval / 1000.000)`
    rightPokeSeconds: FloatText,    // `String(rightInterval / 1000.000)`
    pelletsToSwitch: int,
    trialsToSwitch: int,
    probLeft: FloatText,
    probRight: FloatText,
    leftProbHigher: bool)           // `prob_left > prob_right`

  // ------------------------------------------------------------ session kinds

  /** Sessions whose rows carry a pellet-based switch counter. */
  predicate IsBandit(sessionType: string) {
    sessionType == "Bandit8020" || sessionType == "DetBandit"
  }

  /** Sessions whose header and rows carry the four bandit columns. */
  predicate HasBanditColumns(sessionType: string) {
    IsBandit(sessionType) || sessionType == "ProbRev"
  }

  predicate IsLeftPokeEvent(event: string) {
    event in {"Left", "LeftShort", "LeftWithPellet", "LeftinTimeout", "LeftDuringDispense"}
  }

  predicate IsRightPokeEvent(event: string) {
    event in {"Right", "RightShort", "RightWithPellet", "RightinTimeout", "RightDuringDispense"}
  }

  // ------------------------------------------------------------ column positions

  /** Columns after the timestamp shift by two when the sensor columns are present. */
  function Shift(sensor: bool): nat { if sensor then 2 else 0 }

  function FieldCount(sensor: bool): nat { 20 + Shift(sensor) }

  function VersionIndex(sensor: bool): nat { 1 + Shift(sensor) }
  function SessionIndex(sensor: bool): nat { 2 + Shift(sensor) }
  function DeviceIndex(sensor: bool): nat { 3 + Shift(sensor) }
  function BatteryIndex(sensor: bool): nat { 4 + Shift(sensor) }
  function MotorTurnsIndex(sensor: bool): nat { 5 + Shift(sensor) }
  function FrIndex(sensor: bool): nat { 6 + Shift(sensor) }
  function EventIndex(sensor: bool): nat { 7 + Shift(sensor) }
  function ActivePokeIndex(sensor: bool): nat { 8 + Shift(sensor) }
  function LeftCountIndex(sensor: bool): nat { 9 + Shift(sensor) }
  function RightCountIndex(sensor: bool): nat { 10 + Shift(sensor) }
  function PelletCountIndex(sensor: bool): nat { 11 + Shift(sensor) }
  function BlockCountIndex(sensor: bool): nat { 12 + Shift(sensor) }
  function RetrievalIndex(sensor: bool): nat { 13 + Shift(sensor) }
  function IpiIndex(sensor: bool): nat { 14 + Shift(sensor) }
  function PokeTimeIndex(sensor: bool): nat { 15 + Shift(sensor) }
  function TailIndex(sensor: bool): nat { 16 + Shift(sensor) }

  // ------------------------------------------------------------ header

  const NameColumns: seq<string> := ["Library_Version", "Session_type", "Device_Number",
    "Battery_Voltage", "Motor_Turns", "FR", "Event", "Active_Poke",
    "Left_Poke_Count", "Right_Poke_Count", "Pellet_Count",
    "Block_Pellet_Count", "Retrieval_Time",
    "InterPelletInterval", "Poke_Time"]

  const BanditColumns: seq<string> := ["PelletsOrTrialToSwitch", "Prob_left", "Prob_right", "High_prob_poke"]

  const EmptyColumns: seq<string> := ["", "", "", ""]

  /** The header's column names, one per field. */
  function HeaderFields(sensor: bool, sessionType: string): (r: seq<string>)
    ensures |r| == FieldCount(sensor)
    ensures r[0] == "MM:DD:YYYY hh:mm:ss"
    ensures sensor ==> r[1] == "Temp" && r[2] == "Humidity"
    ensures r[TailIndex(sensor)..] == (if HasBanditColumns(sessionType) then BanditColumns else EmptyColumns)
  {
    ["MM:DD:YYYY hh:mm:ss"] + (if sensor then ["Temp", "Humidity"] else []) + NameColumns
      + (if HasBanditColumns(sessionType) then BanditColumns else EmptyColumns)
  }

  /** The header line `writeHeader` writes: the column names, comma-separated. */
  function HeaderLine(sensor: bool, sessionType: string): string {
    Join(HeaderFields(sensor, sessionType), ',')
  }

  // ------------------------------------------------------------ row

  /** A two-digit clock field: a leading '0' below ten. */
  function Pad2(n: nat): (r: string)
    ensures AllDigits(r)
    ensures n < 100 ==> |r| == 2 && AllDigits(r) && DigitsValue(r) == n
  {
    var digits := NatToString(n);
    if n < 10 then
      assert DigitsValue(("0" + digits)[..1]) == 0;
      NatToStringValue(n);
      "0" + digits
    else
      NatToStringValue(n);
      digits
  }

  /** `month/day/year hh:mm:ss`, the first field of every row. */
  function Timestamp(c: Clock): string {
    NatToString(c.month) + "/" + NatToString(c.day) + "/" + NatToString(c.year) + " "
      + Pad2(c.hour) + ":" + Pad2(c.minute) + ":" + Pad2(c.second)
  }

  function MotorTurnsField(s: Snapshot): string {
    if s.event != "Pellet" then "NaN" else IntToString(s.numMotorTurns + 1)
  }

  function ActivePokeField(activePoke: int): string {
    if activePoke == 0 then "Right" else "Left"
  }

  /** Retrieval_Time: the firmware's fourth branch ("Error") cannot be taken
      on an integer interval, which is always either below or at least 60000. */
  function RetrievalField(s: Snapshot): string {
    if s.event != "Pellet" then "NaN"
    else if s.retInterval < 60000 then s.retrievalSeconds
    else "Timed_out"
  }

  function IpiField(s: Snapshot): string {
    if s.event != "Pellet" || s.pelletCount < 2 then "NaN" else IntToString(s.interPelletInterval)
  }

  function PokeTimeField(s: Snapshot): string {
    if s.event == "Pellet" then "NaN"
    else if IsLeftPokeEvent(s.event) then s.leftPokeSeconds
    else if IsRightPokeEvent(s.event) then s.rightPokeSeconds
    else "NaN"
  }

  function BanditFields(s: Snapshot): seq<string> {
    if IsBandit(s.sessionType) then
      [IntToString(s.pelletsToSwitch), s.probLeft, s.probRight, if s.leftProbHigher then "Left" else "Right"]
    else if s.sessionType == "ProbRev" then
      [IntToString(s.trialsToSwitch), s.probLeft, s.probRight, if s.activePoke == 1 then "Left" else "Right"]
    else EmptyColumns
  }

  function ClimateFields(climate: Option<Climate>): seq<string> {
    match climate
    case None => []
    case Some(c) => [c.temperature, c.humidity]
  }

  /** The fifteen fields between the sensor columns and the bandit columns,
      in the order of `NameColumns`. */
  function RecordFields(s: Snapshot): (r: seq<string>)
    ensures |r| == |NameColumns|
  {
    [s.version, s.sessionType, IntToString(s.fed), s.battery,
     MotorTurnsField(s), IntToString(s.fr), s.event, ActivePokeField(s.activePoke),
     IntToString(s.leftCount), IntToString(s.rightCount), IntToString(s.pelletCount),
     IntToString(s.blockPelletCount),
     RetrievalField(s), IpiField(s), PokeTimeField(s)]
  }

  /** The fields of the row `logdata` prints, in order. */
  function LogFields(s: Snapshot): (r: seq<string>)
    ensures |r| == FieldCount(s.climate.Some?)
    ensures r[0] == Timestamp(s.now)
  {
    [Timestamp(s.now)] + ClimateFields(s.climate) + RecordFields(s) + BanditFields(s)
  }

  /** `logdata`: nothing once logging has been stopped, otherwise the row
      joined with commas. */
  function LogData(stopLogging: bool, s: Snapshot): (r: Option<string>)
    ensures stopLogging <==> r.None?
    ensures r.Some? ==> Split(r.value, ',')[0] == Timestamp(s.now)
  {
    if stopLogging then None
    else
      var line := Join(LogFields(s), ',');
      assert Split(line, ',')[0] == Timestamp(s.now) by {
        TimestampHasNoComma(s.now);
        SplitJoinHead(LogFields(s));
      }
      Some(line)
  }

  // ------------------------------------------------------------ properties

  lemma DigitsHaveNoComma(d: string)
    requires AllDigits(d)
    ensures ',' !in d
  {
    forall i | 0 <= i < |d| ensures d[i] != ',' {
      assert IsDigit(d[i]);
    }
  }

  /** The timestamp is a single CSV field. */
  lemma TimestampHasNoComma(c: Clock)
    ensures ',' !in Timestamp(c)
  {
    DigitsHaveNoComma(NatToString(c.month));
    DigitsHaveNoComma(NatToString(c.day));
    DigitsHaveNoComma(NatToString(c.year));
    DigitsHaveNoComma(Pad2(c.hour));
    DigitsHaveNoComma(Pad2(c.minute));
    DigitsHaveNoComma(Pad2(c.second));
  }

  lemma {:induction false} SplitJoinHead(fs: seq<string>)
    requires |fs| >= 1 && ',' !in fs[0]
    ensures Split(Join(fs, ','), ',')[0] == fs[0]
  {
    if |fs| == 1 {
      SplitNoSep(fs[0], ',');
    } else {
      SplitField(fs[0], Join(fs[1..], ','), ',');
    }
  }

  /** Texts the firmware takes from variables: no commas in them. */
  predicate CommaFreeTexts(s: Snapshot) {
    && ',' !in s.version && ',' !in s.sessionType && ',' !in s.battery && ',' !in s.event
    && ',' !in s.retrievalSeconds && ',' !in s.leftPokeSeconds && ',' !in s.rightPokeSeconds
    && ',' !in s.probLeft && ',' !in s.probRight
    && (s.climate.Some? ==> ',' !in s.climate.value.temperature && ',' !in s.climate.value.humidity)
  }

  /** The header line splits into exactly the column names, so a header has
      20 fields without the sensor and 22 with it. */
  lemma HeaderSplit(sensor: bool, sessionType: string)
    ensures Split(HeaderLine(sensor, sessionType), ',') == HeaderFields(sensor, sessionType)
  {
    var head: seq<string> := ["MM:DD:YYYY hh:mm:ss"] + (if sensor then ["Temp", "Humidity"] else []);
    var tail := if HasBanditColumns(sessionType) then BanditColumns else EmptyColumns;
    assert NoSep(head, ',');
    NameColumnsHaveNoComma();
    assert NoSep(tail, ',');
    NoSepConcat(head, NameColumns, ',');
    NoSepConcat(head + NameColumns, tail, ',');
    SplitJoin(HeaderFields(sensor, sessionType), ',');
  }

  lemma NameColumnsHaveNoComma()
    ensures NoSep(NameColumns, ',')
  {
  }

  /** Where each part of a row sits. */
  lemma RowLayout(s: Snapshot)
    ensures var sensor := s.climate.Some?; var r := LogFields(s);
      && r[1..VersionIndex(sensor)] == ClimateFields(s.climate)
      && r[VersionIndex(sensor)..TailIndex(sensor)] == RecordFields(s)
      && r[TailIndex(sensor)..] == BanditFields(s)
  {
    var r := LogFields(s);
    var c := ClimateFields(s.climate);
    assert r == [Timestamp(s.now)] + c + RecordFields(s) + BanditFields(s);
    assert |c| == Shift(s.climate.Some?);
  }

  /** Record field `k` sits `k` places after Library_Version. */
  lemma RowColumn(s: Snapshot, k: nat)
    requires k < |NameColumns|
    ensures LogFields(s)[VersionIndex(s.climate.Some?) + k] == RecordFields(s)[k]
  {
    var sensor := s.climate.Some?;
    RowLayout(s);
    var r := LogFields(s);
    assert r[VersionIndex(sensor) + k] == r[VersionIndex(sensor)..TailIndex(sensor)][k];
  }

  /** The record fields that are not plain copies of a variable. */
  lemma RecordAt(s: Snapshot)
    ensures var rec := RecordFields(s);
      && rec[2] == IntToString(s.fed) && rec[3] == s.battery && rec[4] == MotorTurnsField(s)
      && rec[6] == s.event && rec[7] == ActivePokeField(s.activePoke)
      && rec[8] == IntToString(s.leftCount) && rec[9] == IntToString(s.rightCount)
      && rec[10] == IntToString(s.pelletCount) && rec[11] == IntToString(s.blockPelletCount)
      && rec[12] == RetrievalField(s) && rec[13] == IpiField(s) && rec[14] == PokeTimeField(s)
  {
  }

  /** Column by column, the header names the datum the row holds there. */
  lemma RowMatchesHeader(s: Snapshot, k: nat)
    requires k < |NameColumns|
    ensures var sensor := s.climate.Some?;
      var h, r := HeaderFields(sensor, s.sessionType), LogFields(s);
      && |h| == |r|
      && h[VersionIndex(sensor) + k] == NameColumns[k]
      && r[VersionIndex(sensor) + k] == RecordFields(s)[k]
  {
    var sensor := s.climate.Some?;
    RowColumn(s, k);
    var h := HeaderFields(sensor, s.sessionType);
    assert h[VersionIndex(sensor)..TailIndex(sensor)] == NameColumns;
    assert h[VersionIndex(sensor) + k] == h[VersionIndex(sensor)..TailIndex(sensor)][k];
  }

  /** The Event column, which the host scripts pick out by position. */
  lemma EventColumn(s: Snapshot)
    ensures LogFields(s)[EventIndex(s.climate.Some?)] == s.event
  {
    RowColumn(s, 6);
    RecordAt(s);
  }

  /** The Device_Number column, which the host scripts pick out by position. */
  lemma DeviceColumn(s: Snapshot)
    ensures LogFields(s)[DeviceIndex(s.climate.Some?)] == IntToString(s.fed)
  {
    RowColumn(s, 2);
    RecordAt(s);
  }

  /** The Motor_Turns column, which sits where the sensor layout has Device_Number. */
  lemma MotorTurnsColumn(s: Snapshot)
    ensures LogFields(s)[MotorTurnsIndex(s.climate.Some?)] == MotorTurnsField(s)
  {
    RowColumn(s, 4);
    RecordAt(s);
  }

  /** A rendered integer is never the text "NaN". */
  lemma NumberIsNotNaN(n: int)
    ensures IntToString(n) != "NaN"
  {
    var d := NatToString(if n < 0 then -n else n);
    assert IsDigit(d[0]);
    assert IntToString(n)[0] == (if n < 0 then '-' else d[0]);
  }

  /** Which rows carry "NaN": Motor_Turns and Retrieval_Time unless the event
      is "Pellet", InterPelletInterval unless it is a pellet with at least two
      pellets counted, Poke_Time for pellets and for events that are not pokes. */
  lemma NanColumns(s: Snapshot)
    ensures var sensor := s.climate.Some?; var r := LogFields(s);
      && (r[MotorTurnsIndex(sensor)] == "NaN" <==> s.event != "Pellet")
      && (s.event == "Pellet" ==> r[MotorTurnsIndex(sensor)] == IntToString(s.numMotorTurns + 1))
      && (s.event != "Pellet" ==> r[RetrievalIndex(sensor)] == "NaN")
      && (s.event == "Pellet" && s.retInterval < 60000 ==> r[RetrievalIndex(sensor)] == s.retrievalSeconds)
      && (s.event == "Pellet" && s.retInterval >= 60000 ==> r[RetrievalIndex(sensor)] == "Timed_out")
      && (r[IpiIndex(sensor)] == "NaN" <==> s.event != "Pellet" || s.pelletCount < 2)
      && ((s.event == "Pellet" || !(IsLeftPokeEvent(s.event) || IsRightPokeEvent(s.event)))
            ==> r[PokeTimeIndex(sensor)] == "NaN")
      && (IsLeftPokeEvent(s.event) ==> r[PokeTimeIndex(sensor)] == s.leftPokeSeconds)
      && (IsRightPokeEvent(s.event) ==> r[PokeTimeIndex(sensor)] == s.rightPokeSeconds)
  {
    ComputedColumns(s);
    NumberIsNotNaN(s.numMotorTurns + 1);
    NumberIsNotNaN(s.interPelletInterval);
  }

  /** The four columns whose text depends on the event. */
  lemma ComputedColumns(s: Snapshot)
    ensures var sensor := s.climate.Some?; var r := LogFields(s);
      && r[MotorTurnsIndex(sensor)] == MotorTurnsField(s) && r[RetrievalIndex(sensor)] == RetrievalField(s)
      && r[IpiIndex(sensor)] == IpiField(s) && r[PokeTimeIndex(sensor)] == PokeTimeField(s)
  {
    RecordAt(s);
    RowColumn(s, 4);
    RowColumn(s, 12);
    RowColumn(s, 13);
    RowColumn(s, 14);
  }

  /** The last four fields: the bandit columns in bandit and probabilistic
      reversal sessions, four empty fields otherwise. In a reversal session
      with the active poke 0 or 1, High_prob_poke repeats Active_Poke. */
  lemma TailColumns(s: Snapshot)
    ensures var sensor := s.climate.Some?; var r := LogFields(s); var t := TailIndex(sensor);
      && |r[t..]| == 4
      && (!HasBanditColumns(s.sessionType) <==> r[t..] == EmptyColumns)
      && (IsBandit(s.sessionType) ==>
            r[t] == IntToString(s.pelletsToSwitch) && r[t + 1] == s.probLeft && r[t + 2] == s.probRight
            && (r[t + 3] == "Left" <==> s.leftProbHigher))
      && (s.sessionType == "ProbRev" ==>
            r[t] == IntToString(s.trialsToSwitch) && r[t + 1] == s.probLeft && r[t + 2] == s.probRight
            && (s.activePoke in {0, 1} ==> r[t + 3] == r[ActivePokeIndex(sensor)]))
  {
    TailFields(s);
    BanditShape(s);
    if s.sessionType == "ProbRev" {
      ActivePokeColumn(s);
    }
  }

  /** The tail of a row is the four bandit fields. */
  lemma TailFields(s: Snapshot)
    ensures var r := LogFields(s); var t := TailIndex(s.climate.Some?); var b := BanditFields(s);
      && r[t..] == b && |b| == 4
      && r[t] == b[0] && r[t + 1] == b[1] && r[t + 2] == b[2] && r[t + 3] == b[3]
  {
    RowLayout(s);
  }

  lemma ActivePokeColumn(s: Snapshot)
    ensures LogFields(s)[ActivePokeIndex(s.climate.Some?)] == ActivePokeField(s.activePoke)
  {
    RowColumn(s, 7);
    RecordAt(s);
  }

  /** The four tail fields on their own. */
  lemma BanditShape(s: Snapshot)
    ensures var b := BanditFields(s);
      && |b| == 4
      && (!HasBanditColumns(s.sessionType) <==> b == EmptyColumns)
      && (IsBandit(s.sessionType) ==>
            b[0] == IntToString(s.pelletsToSwitch) && b[1] == s.probLeft && b[2] == s.probRight
            && (b[3] == "Left" <==> s.leftProbHigher))
      && (s.sessionType == "ProbRev" ==>
            b[0] == IntToString(s.trialsToSwitch) && b[1] == s.probLeft && b[2] == s.probRight
            && (s.activePoke in {0, 1} ==> b[3] == ActivePokeField(s.activePoke)))
  {
    if HasBanditColumns(s.sessionType) {
      var first := if IsBandit(s.sessionType) then s.pelletsToSwitch else s.trialsToSwitch;
      var d := NatToString(if first < 0 then -first else first);
      assert |d| >= 1;
      assert BanditFields(s)[0] != "";
    }
  }

  /** A row's fields contain no comma when the texts taken from variables do not. */
  lemma RowFieldsHaveNoComma(s: Snapshot)
    requires CommaFreeTexts(s)
    ensures NoSep(LogFields(s), ',')
  {
    TimestampHasNoComma(s.now);
    var rec := RecordFields(s);
    assert NoSep(rec, ',') by {
      forall k | 0 <= k < |rec| ensures ',' !in rec[k] {
        RecordFieldHasNoComma(s, k);
      }
    }
    BanditFieldsHaveNoComma(s);
    var c := ClimateFields(s.climate);
    assert NoSep(c, ',');
    NoSepConcat([Timestamp(s.now)], c, ',');
    NoSepConcat([Timestamp(s.now)] + c, rec, ',');
    NoSepConcat([Timestamp(s.now)] + c + rec, BanditFields(s), ',');
  }

  lemma BanditFieldsHaveNoComma(s: Snapshot)
    requires CommaFreeTexts(s)
    ensures NoSep(BanditFields(s), ',')
  {
    NoCommaInNumber(s.pelletsToSwitch);
    NoCommaInNumber(s.trialsToSwitch);
  }

  lemma RecordFieldHasNoComma(s: Snapshot, k: nat)
    requires CommaFreeTexts(s)
    requires k < |NameColumns|
    ensures ',' !in RecordFields(s)[k]
  {
    var rec := RecordFields(s);
    if k == 2 { NoCommaInNumber(s.fed); }
    else if k == 4 { NoCommaInNumber(s.numMotorTurns + 1); }
    else if k == 5 { NoCommaInNumber(s.fr); }
    else if k == 8 { NoCommaInNumber(s.leftCount); }
    else if k == 9 { NoCommaInNumber(s.rightCount); }
    else if k == 10 { NoCommaInNumber(s.pelletCount); }
    else if k == 11 { NoCommaInNumber(s.blockPelletCount); }
    else if k == 13 { NoCommaInNumber(s.interPelletInterval); }
  }

  /** A printed row splits back into its fields, and so has as many fields as
      the header of the same sensor configuration. */
  lemma {:induction false} RowSplit(s: Snapshot)
    requires CommaFreeTexts(s)
    ensures var line := LogData(false, s).value;
      && Split(line, ',') == LogFields(s)
      && |Split(line, ',')| == |Split(HeaderLine(s.climate.Some?, s.sessionType), ',')|
  {
    RowFieldsHaveNoComma(s);
    SplitJoin(LogFields(s), ',');
    HeaderSplit(s.climate.Some?, s.sessionType);
  }

  /** After the jam alarm has stopped logging, `logdata` writes nothing. */
  lemma StoppedLogWritesNothing(s: Snapshot)
    ensures LogData(true, s) == None
  {
  }
}

=== FILE: fed_menus.dfy ===
/**
 The FED3 start-up menus: each poke press nudges a counter, which then wraps
 or is clamped (`SelectMode`, `SetDeviceNumber`), and the fixed ratio the
 classic menu assigns to each mode (`ClassicMenu`).
 */
module FedMenus {

  /** Which pokes are held when the menu samples them. */
  datatype Press = NoPress | LeftPress | RightPress | BothPress

  // ------------------------------------------------------------ mode

  const ModeCount: int := 16

  /** One sample of `SelectMode`: left steps down with -1 wrapping to 15,
      right steps up with 16 wrapping to 0, both pokes open the device menu
      and leave the mode alone; finally the mode is clamped to 0..15. */
  function SelectModeStep(mode: int, press: Press): (r: int)
    ensures 0 <= r < ModeCount
    ensures press in {NoPress, BothPress} && 0 <= mode < ModeCount ==> r == mode
  {
    var m :=
      match press
      case LeftPress => if mode - 1 == -1 then 15 else mode - 1
      case RightPress => if mode + 1 == 16 then 0 else mode + 1
      case _ => mode;
    if m < 0 then 0 else if m > 15 then 15 else m
  }

  /** Within 0..15 the mode menu is a dial of sixteen positions. */
  lemma {:induction false} ModeDial(mode: int)
    requires 0 <= mode < ModeCount
    ensures SelectModeStep(mode, LeftPress) == (mode + 15) % 16
    ensures SelectModeStep(mode, RightPress) == (mode + 1) % 16
    ensures SelectModeStep(SelectModeStep(mode, LeftPress), RightPress) == mode
    ensures SelectModeStep(SelectModeStep(mode, RightPress), LeftPress) == mode
  {
  }

  /** A mode read back out of range is pulled to the nearer end before it is used. */
  lemma ModeOutOfRange(mode: int)
    requires mode >= ModeCount
    ensures SelectModeStep(mode, LeftPress) == 15 && SelectModeStep(mode, RightPress) == 15
  {
  }

  // ------------------------------------------------------------ device number

  const MaxDevice: int := 700

  /** One sample of `SetDeviceNumber`: right adds one up to 700, left takes
      one away and anything below 1 becomes 0. The two pokes are tested one
      after the other, so with both held the right step is followed by the
      left step. */
  function DeviceStep(fed: int, press: Press): (r: int)
    ensures press == NoPress ==> r == fed
    ensures press == LeftPress ==> 0 <= r && (fed >= 1 ==> r == fed - 1)
    ensures press == RightPress ==> r <= MaxDevice && (fed < MaxDevice ==> r == fed + 1)
    ensures press == BothPress ==>
      && (1 <= fed < MaxDevice ==> r == fed)
      && (fed < 1 ==> r == 0)
      && (fed >= MaxDevice ==> r == MaxDevice - 1)
    decreases press == BothPress
  {
    match press
    case RightPress => if fed + 1 > MaxDevice then MaxDevice else fed + 1
    case LeftPress => if fed - 1 < 1 then 0 else fed - 1
    case BothPress => DeviceStep(DeviceStep(fed, RightPress), LeftPress)
    case NoPress => fed
  }

  /** Device numbers stay within 0..700 whatever is pressed. */
  lemma DeviceInRange(fed: int, press: Press)
    requires 0 <= fed <= MaxDevice
    ensures 0 <= DeviceStep(fed, press) <= MaxDevice
  {
  }

  /** Every device number in 0..700 is reached from 0 by right presses alone. */
  lemma {:induction false} DeviceReachable(n: nat)
    requires n <= MaxDevice
    ensures DevicePresses(0, n, RightPress) == n
  {
    if n > 0 {
      DeviceReachable(n - 1);
    }
  }

  /** The device number after `k` identical presses. */
  function DevicePresses(fed: int, k: nat, press: Press): int {
    if k == 0 then fed else DeviceStep(DevicePresses(fed, k - 1, press), press)
  }

  // ------------------------------------------------------------ timed feeding

  datatype Window = Window(start: int, end: int)

  /** One sample of the timed-feeding screen: left moves the start hour on
      (25 wraps to 0) and pushes the end past it, right moves the end hour on
      (25 wraps to 0) and pulls the start before it. The pokes are tested one
      after the other, so with both held the left step is followed by the
      right step. */
  function TimedStep(w: Window, press: Press): (r: Window)
    ensures press == NoPress ==> r == w
    ensures press != NoPress ==> r.start <= r.end
    ensures press == LeftPress ==> r.start <= 24 && (w.start >= -1 ==> 0 <= r.start)
    ensures press == RightPress ==> r.end <= 24 && (w.end >= -1 ==> 0 <= r.end)
    ensures press == BothPress && 0 <= w.start < w.end < 24 ==> r == Window(w.start + 1, w.end + 1)
    decreases press == BothPress
  {
    match press
    case LeftPress =>
      var s := if w.start + 1 > 24 then 0 else w.start + 1;
      Window(s, if s > w.end then s + 1 else w.end)
    case RightPress =>
      var e := if w.end + 1 > 24 then 0 else w.end + 1;
      Window(if w.start > e then e - 1 else w.start, e)
    case BothPress => TimedStep(TimedStep(w, LeftPress), RightPress)
    case NoPress => w
  }

  /** The window the screen keeps: start no later than end, both within -1..25. */
  predicate LooseWindow(w: Window) {
    -1 <= w.start <= w.end <= 25
  }

  /** Every press keeps the window ordered and within -1..25. */
  lemma TimedKeepsLooseWindow(w: Window, press: Press)
    requires LooseWindow(w)
    ensures LooseWindow(TimedStep(w, press))
  {
  }

  /** The hours do leave 0..24: start 23 and end 23 with a left press give
      end 25, start 24 and end 24 with a right press give start -1. */
  lemma TimedLeavesDay()
    ensures TimedStep(Window(23, 23), LeftPress) == Window(24, 25)
    ensures TimedStep(Window(24, 24), RightPress) == Window(-1, 0)
  {
  }

  // ------------------------------------------------------------ pellet type

  /** One sample of the pellet-type screen: right steps up with 8 wrapping to 1,
      left steps down with 0 wrapping to 7. The pokes are tested one after
      the other, so with both held the right step is followed by the left
      step. */
  function PelletTypeStep(pelletType: int, press: Press): (r: int)
    ensures press == NoPress ==> r == pelletType
    ensures press == RightPress ==> r <= 7 && (pelletType >= 0 ==> 1 <= r)
    ensures press == LeftPress ==> 1 <= r && (pelletType <= 8 ==> r <= 7)
    ensures press == BothPress ==> r == if 1 <= pelletType <= 7 then pelletType else 7
    decreases press == BothPress
  {
    match press
    case RightPress => if pelletType + 1 > 7 then 1 else pelletType + 1
    case LeftPress => if pelletType - 1 < 1 then 7 else pelletType - 1
    case BothPress => PelletTypeStep(PelletTypeStep(pelletType, RightPress), LeftPress)
    case NoPress => pelletType
  }

  /** Within 1..7 the pellet type is a dial of seven positions. */
  lemma PelletDial(pelletType: int)
    requires 1 <= pelletType <= 7
    ensures PelletTypeStep(pelletType, RightPress) == pelletType % 7 + 1
    ensures PelletTypeStep(pelletType, LeftPress) == (pelletType + 5) % 7 + 1
    ensures PelletTypeStep(PelletTypeStep(pelletType, RightPress), LeftPress) == pelletType
    ensures PelletTypeStep(PelletTypeStep(pelletType, LeftPress), RightPress) == pelletType
  {
  }

  // ------------------------------------------------------------ classic ratios

  /** `ClassicMenu`: the fixed ratio of each classic mode; other values of
      the mode leave FR as it was. Modes 0..4 are free feeding (0), FR1 (1),
      FR3 (3), FR5 (5) and the progressive ratio (99); every later programme
      starts from FR1. */
  function ClassicRatio(mode: int, fr: int): (r: int)
    ensures 0 <= mode <= 4 ==> r == [0, 1, 3, 5, 99][mode]
    ensures 5 <= mode <= 15 ==> r == 1
    ensures !(0 <= mode <= 15) ==> r == fr
  {
    if mode == 0 then 0
    else if mode == 1 then 1
    else if mode == 2 then 3
    else if mode == 3 then 5
    else if mode == 4 then 99
    else if 5 <= mode <= 15 then 1
    else fr
  }
}

=== FILE: fed_pokes.dfy ===
/**
 The FED3 firmware's `randomizeActivePoke`: a fresh coin flip picks the
 active poke, and when the same side would have come up `max` times in a row
 the firmware forces the other side. The coin flip (`random(0, 2)`) is the
 parameter `draw`.
 */
module FedPokes {

  /** The active poke (0 right, 1 left) and how many times in a row it has
      come up again. */
  datatype Pokes = Pokes(activePoke: int, consecutive: int)

  /** `randomizeActivePoke(max)`. The previous side is kept in a `byte`, so
      it is compared modulo 256. */
  function Randomize(p: Pokes, max: int, draw: int): (r: Pokes)
    requires 0 <= draw < 2
    ensures r.activePoke == 0 || r.activePoke == 1
    ensures max >= 1 ==> 0 <= r.consecutive < max || r.consecutive == p.consecutive + 1
    ensures max >= 1 && p.consecutive >= -1 ==> 0 <= r.consecutive < max
    ensures max < 1 && p.consecutive >= -1 ==> r.consecutive == 0 && r.activePoke == 1 - draw
    ensures r.activePoke == draw <==> (if draw == p.activePoke % 256 then p.consecutive + 1 else 0) < max
  {
    var lastActive := p.activePoke % 256;
    var c := if draw == lastActive then p.consecutive + 1 else 0;
    if c >= max then Pokes(1 - draw, 0) else Pokes(draw, c)
  }

  /** The states after each draw, in order. */
  function Trace(p: Pokes, max: int, draws: seq<int>): (r: seq<Pokes>)
    requires forall i :: 0 <= i < |draws| ==> 0 <= draws[i] < 2
    ensures |r| == |draws|
    decreases |draws|
  {
    if |draws| == 0 then []
    else
      var q := Randomize(p, max, draws[0]);
      [q] + Trace(q, max, draws[1..])
  }

  /** The sides a trace made active, the starting side first. */
  function Sides(p: Pokes, states: seq<Pokes>): (r: seq<int>)
    ensures |r| == |states| + 1 && r[0] == p.activePoke
  {
    [p.activePoke] + seq(|states|, i requires 0 <= i < |states| => states[i].activePoke)
  }

  /** The length of the run of equal values that ends `h`. */
  function TrailingRun(h: seq<int>): (n: nat)
    ensures |h| > 0 ==> 1 <= n <= |h|
    ensures |h| == 0 ==> n == 0
  {
    if |h| <= 1 then |h|
    else if h[|h| - 1] == h[|h| - 2] then TrailingRun(h[..|h| - 1]) + 1
    else 1
  }

  /** Every element of `s` equals its first. */
  predicate AllSame(s: seq<int>) {
    forall k :: 0 <= k < |s| ==> s[k] == s[0]
  }

  /** No `max + 1` consecutive elements of `h` are all equal. */
  predicate NoRunLongerThan(h: seq<int>, max: nat) {
    forall i :: 0 <= i && i + max < |h| ==> !RunAt(h, i, max)
  }

  /** The `max + 1` elements of `h` from index `i` on are all equal. */
  predicate RunAt(h: seq<int>, i: nat, max: nat)
    requires i + max < |h|
  {
    AllSame(h[i..i + max + 1])
  }

  /** The counter counts the run: the state is consistent with the sides
      seen so far. */
  predicate Tracks(h: seq<int>, p: Pokes, max: int) {
    && |h| > 0
    && h[|h| - 1] == p.activePoke
    && (p.activePoke == 0 || p.activePoke == 1)
    && p.consecutive + 1 == TrailingRun(h)
    && p.consecutive < max
  }

  /** A suffix of `L` equal values makes the trailing run at least `L` long. */
  lemma {:induction false} SameSuffixRun(h: seq<int>, L: nat)
    requires 1 <= L <= |h| && AllSame(h[|h| - L..])
    ensures TrailingRun(h) >= L
    decreases L
  {
    if L > 1 {
      var t := h[..|h| - 1];
      assert h[|h| - 1] == h[|h| - L] && h[|h| - 2] == h[|h| - L];
      var u := t[|t| - (L - 1)..];
      var v := h[|h| - L..];
      assert AllSame(u) by {
        forall k | 0 <= k < |u|
          ensures u[k] == u[0]
        {
          assert u[k] == v[k] && u[0] == v[0];
        }
      }
      SameSuffixRun(t, L - 1);
    }
  }

  /** One draw keeps the counter in step with the run of equal sides. */
  lemma {:induction false} RandomizeTracks(h: seq<int>, p: Pokes, max: int, draw: int)
    requires 0 <= draw < 2 && max >= 1
    requires Tracks(h, p, max)
    ensures Tracks(h + [Randomize(p, max, draw).activePoke], Randomize(p, max, draw), max)
  {
    var r := Randomize(p, max, draw);
    var h' := h + [r.activePoke];
    assert h'[..|h'| - 1] == h;
    assert h'[|h'| - 2] == p.activePoke;
  }

  /** Appending a value that keeps the trailing run within `max` creates no
      run longer than `max`. */
  lemma {:induction false} AppendKeepsNoLongRun(h: seq<int>, x: int, max: nat)
    requires NoRunLongerThan(h, max)
    requires TrailingRun(h + [x]) <= max
    ensures NoRunLongerThan(h + [x], max)
  {
    var h' := h + [x];
    forall i: nat | i + max < |h'|
      ensures !RunAt(h', i, max)
    {
      if i + max + 1 < |h'| {
        assert h'[i..i + max + 1] == h[i..i + max + 1];
        assert !RunAt(h, i, max);
      } else if RunAt(h', i, max) {
        assert h'[|h'| - (max + 1)..] == h'[i..i + max + 1];
        SameSuffixRun(h', max + 1);
        assert false;
      }
    }
  }

  /** For `max >= 1`, starting from a state that counts its own run, no side
      is active more than `max` times in a row over any sequence of draws. */
  lemma {:induction false} NoSideMoreThanMax(h: seq<int>, p: Pokes, max: int, draws: seq<int>)
    requires max >= 1
    requires forall i :: 0 <= i < |draws| ==> 0 <= draws[i] < 2
    requires Tracks(h, p, max) && NoRunLongerThan(h, max)
    ensures NoRunLongerThan(h + Sides(p, Trace(p, max, draws))[1..], max)
    decreases |draws|
  {
    var states := Trace(p, max, draws);
    var tail := Sides(p, states)[1..];
    if |draws| == 0 {
      assert tail == [];
      assert h + tail == h;
    } else {
      var q := Randomize(p, max, draws[0]);
      var h' := h + [q.activePoke];
      DrawKeepsNoLongRun(h, p, max, draws[0]);
      NoSideMoreThanMax(h', q, max, draws[1..]);
      TraceSides(h, p, max, draws);
    }
  }

  /** One draw: the counter still counts the run, and no run is too long. */
  lemma DrawKeepsNoLongRun(h: seq<int>, p: Pokes, max: int, draw: int)
    requires max >= 1 && 0 <= draw < 2
    requires Tracks(h, p, max) && NoRunLongerThan(h, max)
    ensures var q := Randomize(p, max, draw);
      Tracks(h + [q.activePoke], q, max) && NoRunLongerThan(h + [q.activePoke], max)
  {
    var q := Randomize(p, max, draw);
    RandomizeTracks(h, p, max, draw);
    AppendKeepsNoLongRun(h, q.activePoke, max);
  }

  /** The sides of a trace: the first draw's side, then the sides of the rest. */
  lemma TraceSides(h: seq<int>, p: Pokes, max: int, draws: seq<int>)
    requires |draws| > 0
    requires forall i :: 0 <= i < |draws| ==> 0 <= draws[i] < 2
    ensures var q := Randomize(p, max, draws[0]);
      h + Sides(p, Trace(p, max, draws))[1..] == (h + [q.activePoke]) + Sides(q, Trace(q, max, draws[1..]))[1..]
  {
    var q := Randomize(p, max, draws[0]);
    var rest := Trace(q, max, draws[1..]);
    assert Trace(p, max, draws) == [q] + rest;
    SidesCons(p, q, rest);
  }

  /** The sides after a first state: that state's side, then the rest's. */
  lemma SidesCons(p: Pokes, q: Pokes, rest: seq<Pokes>)
    ensures Sides(p, [q] + rest)[1..] == [q.activePoke] + Sides(q, rest)[1..]
  {
    var states := [q] + rest;
    var tail := Sides(p, states)[1..];
    forall k | 0 <= k < |tail|
      ensures tail[k] == ([q.activePoke] + Sides(q, rest)[1..])[k]
    {
      if k > 0 {
        assert tail[k] == states[k].activePoke == rest[k - 1].activePoke;
      }
    }
  }

  /** A state with either side active and no repeats counts its own run, so
      the bound above holds from the first draw. */
  lemma StartTracks(side: int, max: int)
    requires (side == 0 || side == 1) && max >= 1
    ensures Tracks([side], Pokes(side, 0), max) && NoRunLongerThan([side], max)
  {
  }
}

=== FILE: host_row.dfy ===
/**
 How the host scripts read a firmware row: the 22 column names they share,
 Python's `float()` grammar as `validate_data` applies it to the numeric
 columns, the arity test of the logging loops, and the positions from which
 the identification code takes the device number.
 */
module HostRow {
  import opened Text
  import opened Wrappers
  import opened FedLog

  /** `column_headers` of the Pi scripts. */
  const ColumnHeaders: seq<string> := [
    "MM/DD/YYYY hh:mm:ss.SSS", "Temp", "Humidity", "Library_Version", "Session_type",
    "Device_Number", "Battery_Voltage", "Motor_Turns", "FR", "Event", "Active_Poke",
    "Left_Poke_Count", "Right_Poke_Count", "Pellet_Count", "Block_Pellet_Count",
    "Retrieval_Time", "InterPelletInterval", "Poke_Time",
    "PelletsOrTrialToSwitch", "Prob_left", "Prob_right", "High_prob_poke"]

  /** The data fields a row must have once the device timestamp is dropped. */
  const DataArity: nat := 21

  /** `column_headers.index("Event") - 1` and `column_headers.index("Device_Number") - 1`. */
  const EventData: nat := 8
  const DeviceData: nat := 4

  /** The header names whose values `validate_data` checks. */
  const NumericNames: seq<string> := [
    "Temp", "Humidity", "Battery_Voltage", "Motor_Turns",
    "Left_Poke_Count", "Right_Poke_Count", "Pellet_Count",
    "Block_Pellet_Count", "Retrieval_Time", "InterPelletInterval", "Poke_Time"]

  /** `index` finds Event at 9 and Device_Number at 5, the first occurrences. */
  lemma HeaderPositions()
    ensures |ColumnHeaders| == DataArity + 1
    ensures ColumnHeaders[EventData + 1] == "Event"
    ensures ColumnHeaders[DeviceData + 1] == "Device_Number"
    ensures forall i :: 0 <= i < EventData + 1 ==> ColumnHeaders[i] != "Event"
    ensures forall i :: 0 <= i < DeviceData + 1 ==> ColumnHeaders[i] != "Device_Number"
  {
  }

  // ------------------------------------------------------------ float()

  /** The length of the longest prefix of `t` of the form digit (`_`? digit)*,
      0 when `t` does not start with a digit. */
  function DigitPartLen(t: string): (n: nat)
    ensures n <= |t|
    ensures n > 0 ==> IsDigit(t[0]) && IsDigit(t[n - 1])
    ensures n == 0 <==> |t| == 0 || !IsDigit(t[0])
    decreases |t|
  {
    if |t| == 0 || !IsDigit(t[0]) then 0
    else if |t| >= 2 && IsDigit(t[1]) then 1 + DigitPartLen(t[1..])
    else if |t| >= 3 && t[1] == '_' && IsDigit(t[2]) then 2 + DigitPartLen(t[2..])
    else 1
  }

  /** Python's `digitpart`: digits, with single underscores only between two digits. */
  predicate IsDigitPart(t: string) {
    |t| > 0 && forall i :: 0 <= i < |t| ==> DigitPartAt(t, i)
  }

  /** Position `i` of `t` is a digit, or an underscore between two digits. */
  predicate DigitPartAt(t: string, i: nat)
    requires i < |t|
  {
    IsDigit(t[i]) || (t[i] == '_' && 0 < i < |t| - 1 && IsDigit(t[i - 1]) && IsDigit(t[i + 1]))
  }

  /** An exponent part, or nothing. */
  predicate IsExponentOrEmpty(r: string) {
    || |r| == 0
    || (&& |r| >= 2 && (r[0] == 'e' || r[0] == 'E')
        && var x := if r[1] == '+' || r[1] == '-' then r[2..] else r[1..];
           |x| > 0 && DigitPartLen(x) == |x|)
  }

  /** Python's `numeric_string` without its sign: digitpart with an optional
      fraction, or a fraction alone, then an optional exponent. */
  predicate IsNumeric(t: string) {
    var a := DigitPartLen(t);
    var t1 := t[a..];
    if |t1| > 0 && t1[0] == '.' then
      var b := DigitPartLen(t1[1..]);
      (a > 0 || b > 0) && IsExponentOrEmpty(t1[1 + b..])
    else a > 0 && IsExponentOrEmpty(t1)
  }

  /** `s` without its leading sign, if it has one. */
  function Unsigned(s: string): (r: string)
    ensures r == s || (|s| > 0 && r == s[1..])
  {
    if |s| > 0 && (s[0] == '+' || s[0] == '-') then s[1..] else s
  }

  /** "inf", "infinity" or "nan" in any mix of case. */
  predicate IsSpecialWord(t: string) {
    var word := Lower(t);
    word == "inf" || word == "infinity" || word == "nan"
  }

  /** Whether Python's `float(s)` accepts `s` (already stripped): an optional
      sign, then "inf", "infinity" or "nan" in any case, or a decimal number. */
  predicate IsFloatText(s: string) {
    IsSpecialWord(Unsigned(s)) || IsNumeric(Unsigned(s))
  }

  /** One value passes `validate_data` when it is blank or parses as a float. */
  predicate FieldValid(v: string) {
    Strip(v) == "" || IsFloatText(Strip(v))
  }

  /** Data index `k` lines up with `column_headers[k + 1]` in the `zip`. */
  predicate Checked(k: nat) {
    k + 1 < |ColumnHeaders| && ColumnHeaders[k + 1] in NumericNames
  }

  /** `validate_data`: the checked columns, as far as both the header and
      the data reach. */
  function Validate(data: seq<string>): (ok: bool)
    ensures ok <==> forall k :: 0 <= k < |data| && k < DataArity && Checked(k) ==> FieldValid(data[k])
  {
    ValidateFrom(data, 0)
  }

  function ValidateFrom(data: seq<string>, k: nat): (ok: bool)
    ensures ok <==> forall j :: k <= j < |data| && j < DataArity && Checked(j) ==> FieldValid(data[j])
    decreases DataArity - k
  {
    if k >= |data| || k >= DataArity then true
    else if Checked(k) && !FieldValid(data[k]) then false
    else ValidateFrom(data, k + 1)
  }

  /** The eleven checked positions. */
  lemma CheckedPositions(k: nat)
    requires k < DataArity
    ensures Checked(k) <==> k in {0, 1, 5, 6, 10, 11, 12, 13, 14, 15, 16}
  {
  }

  /** The arity test and `validate_data` of the logging loops: the fields
      after the device timestamp, when there are 21 of them and they pass. */
  function AcceptedParts(line: string): (r: Option<seq<string>>)
    ensures r.Some? <==> |Split(line, ',')| == DataArity + 1 && Validate(Split(line, ',')[1..])
    ensures r.Some? ==> |r.value| == DataArity && [Split(line, ',')[0]] + r.value == Split(line, ',')
  {
    var fields := Split(line, ',');
    var parts := fields[1..];
    if |parts| != DataArity then None
    else if !Validate(parts) then None
    else Some(parts)
  }

  // ------------------------------------------------------------ float() facts

  /** The greedy scan covers the whole text exactly when the text is a digitpart. */
  lemma {:induction false} DigitPartWhole(t: string)
    ensures DigitPartLen(t) == |t| && |t| > 0 <==> IsDigitPart(t)
    decreases |t|
  {
    if |t| >= 2 && IsDigit(t[0]) && IsDigit(t[1]) {
      DigitPartWhole(t[1..]);
      DigitPartShift(t, 1);
    } else if |t| >= 3 && IsDigit(t[0]) && t[1] == '_' && IsDigit(t[2]) {
      DigitPartWhole(t[2..]);
      DigitPartShift(t, 2);
    } else if |t| >= 2 {
      assert !DigitPartAt(t, 0) || !DigitPartAt(t, 1);
    } else if |t| == 1 {
      assert DigitPartAt(t, 0) <==> IsDigit(t[0]);
    }
  }

  /** Dropping a leading digit, or a digit and the underscore after it,
      keeps a digitpart a digitpart and makes no new one. */
  lemma DigitPartShift(t: string, d: nat)
    requires d == 1 || d == 2
    requires |t| > d && IsDigit(t[0]) && IsDigit(t[d]) && (d == 2 ==> t[1] == '_')
    ensures IsDigitPart(t) <==> IsDigitPart(t[d..])
  {
    var u := t[d..];
    if IsDigitPart(t) {
      forall i | 0 <= i < |u|
        ensures DigitPartAt(u, i)
      {
        assert DigitPartAt(t, i + d);
        assert u[i] == t[i + d];
        if i > 0 && i < |u| - 1 {
          assert u[i - 1] == t[i + d - 1] && u[i + 1] == t[i + d + 1];
        }
      }
    }
    if IsDigitPart(u) {
      forall i | 0 <= i < |t|
        ensures DigitPartAt(t, i)
      {
        if i >= d {
          assert DigitPartAt(u, i - d);
          assert t[i] == u[i - d];
          if i > d && i - d < |u| - 1 {
            assert t[i - 1] == u[i - d - 1] && t[i + 1] == u[i - d + 1];
          }
        }
      }
    }
  }

  /** A run of digits is a digitpart. */
  lemma DigitsArePart(t: string)
    requires |t| > 0 && AllDigits(t)
    ensures DigitPartLen(t) == |t|
  {
    assert IsDigitPart(t) by {
      forall i | 0 <= i < |t| ensures DigitPartAt(t, i) {
        assert IsDigit(t[i]);
      }
    }
    DigitPartWhole(t);
  }

  /** A run of digits is a number. */
  lemma DigitsAreNumeric(t: string)
    requires |t| > 0 && AllDigits(t)
    ensures IsNumeric(t)
  {
    DigitsArePart(t);
    assert t[DigitPartLen(t)..] == [];
  }

  /** Every integer the firmware prints parses as a float. */
  lemma IntIsFloat(n: int)
    ensures IsFloatText(IntToString(n))
  {
    var d := NatToString(if n < 0 then -n else n);
    DigitsAreNumeric(d);
    assert Unsigned(IntToString(n)) == d;
  }

  /** Digits, a point and digits, the shape Arduino's `String(float)` prints,
      parse as a float. */
  lemma DecimalIsFloat(whole: nat, frac: nat)
    ensures IsFloatText(NatToString(whole) + "." + NatToString(frac))
  {
    var w := NatToString(whole);
    var f := NatToString(frac);
    var s := w + "." + f;
    DecimalIsNumeric(w, f);
    assert s[0] == w[0];
    assert Unsigned(s) == s;
  }

  lemma DecimalIsNumeric(w: string, f: string)
    requires |w| > 0 && AllDigits(w) && |f| > 0 && AllDigits(f)
    ensures IsNumeric(w + "." + f)
  {
    var s := w + "." + f;
    DigitsArePart(f);
    DigitPrefix(w, "." + f);
    assert s == w + ("." + f);
    assert s[|w|..] == "." + f;
    assert s[|w|..][1..] == f;
    assert f[DigitPartLen(f)..] == [];
  }

  /** The scan of a run of digits stops at a following point. */
  lemma {:induction false} DigitPrefix(w: string, rest: string)
    requires |w| > 0 && AllDigits(w) && |rest| > 0 && rest[0] == '.'
    ensures DigitPartLen(w + rest) == |w|
    decreases |w|
  {
    var s := w + rest;
    if |w| > 1 {
      assert s[1..] == w[1..] + rest;
      DigitPrefix(w[1..], rest);
    } else {
      assert s[1] == '.';
    }
  }

  lemma NaNIsSpecial()
    ensures IsSpecialWord("NaN")
  {
    var l := Lower("NaN");
    assert l[0] == 'n' && l[1] == 'a' && l[2] == 'n';
    assert l == "nan";
  }

  /** The text "NaN" parses, so "NaN" columns pass `validate_data`. */
  lemma NaNIsFloat()
    ensures FieldValid("NaN") && IsFloatText("NaN")
  {
    assert IsFloatText("NaN") by {
      NaNIsSpecial();
      assert Unsigned("NaN") == "NaN";
    }
    assert Strip("NaN") == "NaN" by {
      StripNoMargin("NaN");
    }
  }

  lemma TimedOutIsNotNumber()
    ensures !IsFloatText("Timed_out")
  {
    assert Unsigned("Timed_out") == "Timed_out";
    assert |Lower("Timed_out")| == 9;
    assert DigitPartLen("Timed_out") == 0;
  }

  /** "Timed_out", the firmware's Retrieval_Time after a minute, does not. */
  lemma TimedOutIsNotFloat()
    ensures !FieldValid("Timed_out")
  {
    TimedOutIsNotNumber();
    StripNoMargin("Timed_out");
  }

  /** A rendered integer has no whitespace at its ends. */
  lemma IntHasNoMargin(n: int)
    ensures Strip(IntToString(n)) == IntToString(n)
  {
    var s := IntToString(n);
    var d := NatToString(if n < 0 then -n else n);
    assert IsDigit(d[0]) && IsDigit(d[|d| - 1]);
    assert s[|s| - 1] == d[|d| - 1];
    StripNoMargin(s);
  }

  lemma IntFieldValid(n: int)
    ensures FieldValid(IntToString(n))
  {
    IntHasNoMargin(n);
    IntIsFloat(n);
  }

  // ------------------------------------------------------------ firmware rows

  /** The float texts a firmware row puts into checked columns parse. */
  predicate FloatTextsParse(s: Snapshot) {
    && FieldValid(s.battery)
    && FieldValid(s.retrievalSeconds)
    && FieldValid(s.leftPokeSeconds) && FieldValid(s.rightPokeSeconds)
    && (s.climate.Some? ==> FieldValid(s.climate.value.temperature) && FieldValid(s.climate.value.humidity))
  }

  /** A row from a device without the temperature sensor has 20 fields, so
      19 remain after the timestamp and the line is always refused. */
  lemma NoSensorRowRejected(s: Snapshot)
    requires CommaFreeTexts(s) && s.climate.None?
    ensures AcceptedParts(LogData(false, s).value).None?
  {
    RowSplit(s);
  }

  /** A row from a device with the sensor is accepted exactly when its checked
      columns parse: always when its float texts parse, except for a pellet
      retrieved after a minute or more, whose "Timed_out" is refused. */
  lemma SensorRowAccepted(s: Snapshot)
    requires CommaFreeTexts(s) && s.climate.Some? && FloatTextsParse(s)
    ensures var r := AcceptedParts(LogData(false, s).value);
      && (r.Some? <==> !(s.event == "Pellet" && s.retInterval >= 60000))
      && (r.Some? ==> r.value == LogFields(s)[1..])
  {
    SensorParts(s);
    var parts := LogFields(s)[1..];
    if s.event == "Pellet" && s.retInterval >= 60000 {
      TimedOutRefused(s);
    } else {
      forall k | 0 <= k < |parts| && k < DataArity && Checked(k)
        ensures FieldValid(parts[k])
      {
        CheckedPositions(k);
        SensorColumnValid(s, k);
      }
    }
  }

  /** A sensor row has the arity the loops want, so only `validate_data`
      decides. */
  lemma SensorParts(s: Snapshot)
    requires CommaFreeTexts(s) && s.climate.Some?
    ensures var parts := LogFields(s)[1..];
      AcceptedParts(LogData(false, s).value) == if Validate(parts) then Some(parts) else None
  {
    RowSplit(s);
  }

  /** A pellet retrieved after a minute puts "Timed_out" in a checked column. */
  lemma TimedOutRefused(s: Snapshot)
    requires s.climate.Some? && s.event == "Pellet" && s.retInterval >= 60000
    ensures !Validate(LogFields(s)[1..])
  {
    var parts := LogFields(s)[1..];
    SensorColumn(s, 12);
    RecordAt(s);
    assert parts[14] == "Timed_out";
    TimedOutIsNotFloat();
    assert Checked(14) by {
      CheckedPositions(14);
    }
  }

  /** Where a sensor row keeps the fifteen record fields. */
  lemma SensorColumn(s: Snapshot, j: nat)
    requires s.climate.Some? && j < |NameColumns|
    ensures LogFields(s)[3 + j] == RecordFields(s)[j]
  {
    RowColumn(s, j);
  }

  /** The two climate columns of a sensor row. */
  lemma ClimateColumns(s: Snapshot)
    requires s.climate.Some?
    ensures LogFields(s)[1] == s.climate.value.temperature
    ensures LogFields(s)[2] == s.climate.value.humidity
  {
    RowLayout(s);
    var r := LogFields(s);
    assert r[1] == r[1..3][0] && r[2] == r[1..3][1];
  }

  /** Each checked column of a sensor row, one at a time. */
  lemma SensorColumnValid(s: Snapshot, k: nat)
    requires s.climate.Some? && FloatTextsParse(s)
    requires !(s.event == "Pellet" && s.retInterval >= 60000)
    requires k in {0, 1, 5, 6, 10, 11, 12, 13, 14, 15, 16}
    ensures FieldValid(LogFields(s)[k + 1])
  {
    if k < 2 {
      ClimateColumns(s);
    } else {
      SensorColumn(s, k - 2);
      RecordFieldValid(s, k - 2);
    }
  }

  /** The record fields in checked columns pass `validate_data`. */
  lemma RecordFieldValid(s: Snapshot, j: nat)
    requires FloatTextsParse(s)
    requires !(s.event == "Pellet" && s.retInterval >= 60000)
    requires j == 3 || j == 4 || 8 <= j <= 14
    ensures FieldValid(RecordFields(s)[j])
  {
    RecordFieldsValid(s);
    if j == 3 {
    } else if j == 4 {
    } else if j == 8 {
    } else if j == 9 {
    } else if j == 10 {
    } else if j == 11 {
    } else if j == 12 {
    } else if j == 13 {
    } else {
      assert j == 14;
    }
  }

  lemma RecordFieldsValid(s: Snapshot)
    requires FloatTextsParse(s)
    requires !(s.event == "Pellet" && s.retInterval >= 60000)
    ensures var rec := RecordFields(s);
      && FieldValid(rec[3]) && FieldValid(rec[4])
      && FieldValid(rec[8]) && FieldValid(rec[9]) && FieldValid(rec[10]) && FieldValid(rec[11])
      && FieldValid(rec[12]) && FieldValid(rec[13]) && FieldValid(rec[14])
  {
    CountsValid(s);
    ComputedValid(s);
  }

  /** The four counters are integers. */
  lemma CountsValid(s: Snapshot)
    ensures var rec := RecordFields(s);
      FieldValid(rec[8]) && FieldValid(rec[9]) && FieldValid(rec[10]) && FieldValid(rec[11])
  {
    RecordAt(s);
    IntFieldValid(s.leftCount);
    IntFieldValid(s.rightCount);
    IntFieldValid(s.pelletCount);
    IntFieldValid(s.blockPelletCount);
  }

  /** The battery and the fields that depend on the event. */
  lemma ComputedValid(s: Snapshot)
    requires FloatTextsParse(s)
    requires !(s.event == "Pellet" && s.retInterval >= 60000)
    ensures var rec := RecordFields(s);
      FieldValid(rec[3]) && FieldValid(rec[4]) && FieldValid(rec[12]) && FieldValid(rec[13]) && FieldValid(rec[14])
  {
    RecordAt(s);
    MotorTurnsValid(s);
    RetrievalValid(s);
    IpiValid(s);
    PokeTimeValid(s);
  }

  lemma MotorTurnsValid(s: Snapshot)
    ensures FieldValid(MotorTurnsField(s))
  {
    NaNIsFloat();
    IntFieldValid(s.numMotorTurns + 1);
  }

  lemma RetrievalValid(s: Snapshot)
    requires FieldValid(s.retrievalSeconds)
    requires !(s.event == "Pellet" && s.retInterval >= 60000)
    ensures FieldValid(RetrievalField(s))
  {
    NaNIsFloat();
  }

  lemma IpiValid(s: Snapshot)
    ensures FieldValid(IpiField(s))
  {
    NaNIsFloat();
    IntFieldValid(s.interPelletInterval);
  }

  lemma PokeTimeValid(s: Snapshot)
    requires FieldValid(s.leftPokeSeconds) && FieldValid(s.rightPokeSeconds)
    ensures FieldValid(PokeTimeField(s))
  {
    NaNIsFloat();
  }

  // ------------------------------------------------------------ identification

  /** PiCAM's identification worker: a line with a comma whose 21 data
      fields carry a non-blank Device_Number. */
  function PiCamIdentify(line: string): (r: Option<string>)
    ensures r.Some? <==>
      ',' in line && |Split(line, ',')| == DataArity + 1 && Strip(Split(line, ',')[DeviceData + 1]) != ""
    ensures r.Some? ==> r.value == Strip(Split(line, ',')[DeviceData + 1])
  {
    if |line| > 0 && ',' in line then
      var data := Split(line, ',')[1..];
      if |data| == DataArity && Strip(data[DeviceData]) != "" then Some(Strip(data[DeviceData])) else None
    else None
  }

  /** The probe after `TRIGGER_POKE` (PiCAM and PiOS): field 5 of the first
      line with a comma and at least six fields. A blank field 5 still ends
      the probe, and then no device number is registered. */
  function ProbeField(line: string): (r: Option<string>)
    ensures r.Some? <==> ',' in line && |Split(line, ',')| >= 6
    ensures r.Some? ==> r.value == Strip(Split(line, ',')[5])
  {
    if ',' in line && |Split(line, ',')| >= 6 then Some(Strip(Split(line, ',')[5])) else None
  }

  /** On a device with the sensor the probe reads Device_Number; without it,
      field 5 is Motor_Turns, "NaN" unless the row is a pellet. */
  lemma ProbeReads(s: Snapshot)
    requires CommaFreeTexts(s)
    ensures var r := ProbeField(LogData(false, s).value);
      && r.Some?
      && (s.climate.Some? ==> r.value == Strip(IntToString(s.fed)) == IntToString(s.fed))
      && (s.climate.None? ==> r.value == Strip(MotorTurnsField(s)))
      && (s.climate.None? && s.event != "Pellet" ==> r.value == "NaN")
  {
    ProbeOfRow(s);
    if s.climate.Some? {
      DeviceColumn(s);
      IntHasNoMargin(s.fed);
    } else {
      MotorTurnsColumn(s);
      if s.event != "Pellet" {
        StripNoMargin("NaN");
      }
    }
  }

  /** The probe reads field 5 of a printed row. */
  lemma ProbeOfRow(s: Snapshot)
    requires CommaFreeTexts(s)
    ensures ProbeField(LogData(false, s).value) == Some(Strip(LogFields(s)[5]))
  {
    RowSplit(s);
    ContainsSep(LogFields(s), ',');
  }

  /** A join of two or more fields contains the separator. */
  lemma ContainsSep(fs: seq<string>, sep: char)
    requires |fs| >= 2
    ensures sep in Join(fs, sep)
  {
    var j := Join(fs, sep);
    assert j == fs[0] + [sep] + Join(fs[1..], sep);
    assert j[|fs[0]|] == sep;
  }

  /** PiOS's identification worker: data index 4 of a 21-field row, when
      non-blank. `activity` is whether the row's event blinks the indicator. */
  function PiOsIdentify(line: string): (r: (Option<string>, bool))
    ensures var fields := Split(line, ',');
      && (r.0.Some? <==> line != "" && |fields| == DataArity + 1 && Strip(fields[DeviceData + 1]) != "")
      && (r.0.Some? ==> r.0.value == Strip(fields[DeviceData + 1]))
      && (r.1 ==> line != "" && |fields| == DataArity + 1)
  {
    if line == "" then (None, false)
    else
      var data := Split(line, ',')[1..];
      if |data| != DataArity then (None, false)
      else
        var ev := Strip(data[EventData]);
        var dn := Strip(data[DeviceData]);
        (if dn != "" then Some(dn) else None, ActivityEvent(ev))
  }

  /** The events whose rows blink the indicator during PiOS identification. */
  predicate ActivityEvent(ev: string) {
    ev == "Right" || ev == "Left" || ev == "Pellet" || ev == "LeftWithPellet" || ev == "RightWithPellet"
  }

  /** What the identification code sees in a sensor row. */
  lemma SensorLine(s: Snapshot)
    requires CommaFreeTexts(s) && s.climate.Some?
    ensures var line := LogData(false, s).value; var fields := Split(line, ',');
      && line != "" && ',' in line && |fields| == DataArity + 1
      && fields[DeviceData + 1] == IntToString(s.fed)
      && fields[EventData + 1] == s.event
  {
    RowSplit(s);
    ContainsSep(LogFields(s), ',');
    DeviceColumn(s);
    EventColumn(s);
  }

  /** A rendered integer is a non-blank field. */
  lemma IntNotBlank(n: int)
    ensures Strip(IntToString(n)) == IntToString(n) != ""
  {
    IntHasNoMargin(n);
    var d := NatToString(if n < 0 then -n else n);
    assert |IntToString(n)| >= |d| >= 1;
  }

  /** A sensor row names its device to both identification workers. */
  lemma SensorRowIdentifies(s: Snapshot)
    requires CommaFreeTexts(s) && s.climate.Some?
    ensures PiCamIdentify(LogData(false, s).value) == Some(IntToString(s.fed))
    ensures PiOsIdentify(LogData(false, s).value).0 == Some(IntToString(s.fed))
    ensures PiOsIdentify(LogData(false, s).value).1 <==> ActivityEvent(Strip(s.event))
  {
    SensorLine(s);
    IntNotBlank(s.fed);
  }
}

=== FILE: picam_registry.dfy ===
/**
 The PiCAM script's per-port bookkeeping:
 - the two maps between ports and device numbers (`register_device_number`);
 - the start-logging guard;
 - the five-second comparison of the known ports with a new scan
   (`check_device_connections`).
 Threads, widgets and serial handles are represented by the sets of ports
 that have one. Whether a serial port opens is an input.
 */
module PiCamRegistry {

  type Port = string

  datatype Maps = Maps(p2d: map<Port, string>, d2p: map<string, Port>)

  /** The two maps are inverse to each other. */
  predicate Inverse(m: Maps) {
    && (forall p :: p in m.p2d ==> m.p2d[p] in m.d2p && m.d2p[m.p2d[p]] == p)
    && (forall d :: d in m.d2p ==> m.d2p[d] in m.p2d && m.p2d[m.d2p[d]] == d)
  }

  // ------------------------------------------------------------ as written

  /** What `register_device_number` does: on success the new maps; when the
      reverse map points at a port that has no forward entry, `del` raises
      KeyError before anything is changed. */
  datatype Outcome = Registered(maps: Maps) | KeyError(key: Port)

  /** `register_device_number` as written: the port's earlier device keeps
      its reverse entry. */
  function RegisterAsWritten(m: Maps, port: Port, dn: string): (r: Outcome)
    ensures r.KeyError? <==> dn in m.d2p && m.d2p[dn] != port && m.d2p[dn] !in m.p2d
    ensures r.KeyError? ==> r.key == m.d2p[dn]
    ensures r.Registered? ==>
      && port in r.maps.p2d && r.maps.p2d[port] == dn
      && dn in r.maps.d2p && r.maps.d2p[dn] == port
    ensures r.Registered? && dn in m.d2p && m.d2p[dn] != port ==> m.d2p[dn] !in r.maps.p2d
  {
    if dn in m.d2p && m.d2p[dn] != port then
      var previous := m.d2p[dn];
      if previous !in m.p2d then KeyError(previous)
      else Registered(Maps((m.p2d - {previous})[port := dn], m.d2p[dn := port]))
    else Registered(Maps(m.p2d[port := dn], m.d2p[dn := port]))
  }

  /** The stale reverse entry, step by step. Registering device 1 and then
      device 2 on port A leaves "1 is on A" behind. When device 1 shows up on
      port B, port A's entry is deleted although A still hosts device 2. A
      later registration of device 2 on port C then looks A up, finds
      nothing and raises KeyError. */
  lemma StaleReverseEntry()
    ensures var m1 := RegisterAsWritten(Maps(map[], map[]), "A", "1");
      && m1.Registered?
      && var m2 := RegisterAsWritten(m1.maps, "A", "2");
      && m2.Registered? && !Inverse(m2.maps)
      && var m3 := RegisterAsWritten(m2.maps, "B", "1");
      && m3.Registered? && "A" !in m3.maps.p2d && m3.maps.d2p["2"] == "A"
      && RegisterAsWritten(m3.maps, "C", "2") == KeyError("A")
  {
    var m1 := RegisterAsWritten(Maps(map[], map[]), "A", "1").maps;
    assert m1 == Maps(map["A" := "1"], map["1" := "A"]);
    var m2 := RegisterAsWritten(m1, "A", "2").maps;
    assert m2 == Maps(map["A" := "2"], map["1" := "A", "2" := "A"]);
    assert m2.d2p["1"] == "A" && m2.p2d["A"] != "1";
    var m3 := RegisterAsWritten(m2, "B", "1").maps;
    assert m3.p2d == map["B" := "1"];
  }

  // ------------------------------------------------------------ corrected

  /** `register_device_number` with the port's earlier device also dropped
      from the reverse map, as the maps' purpose requires. */
  function Register(m: Maps, port: Port, dn: string): (r: Maps)
    ensures port in r.p2d && r.p2d[port] == dn && dn in r.d2p && r.d2p[dn] == port
    ensures Inverse(m) ==> Inverse(r)
    ensures Inverse(m) ==> forall q :: q in m.p2d && q != port && m.p2d[q] != dn ==> q in r.p2d && r.p2d[q] == m.p2d[q]
    ensures Inverse(m) ==> forall q :: q in r.p2d ==> q == port || (q in m.p2d && r.p2d[q] == m.p2d[q] && m.p2d[q] != dn)
  {
    var p2d := if dn in m.d2p && m.d2p[dn] != port then m.p2d - {m.d2p[dn]} else m.p2d;
    var d2p := if port in m.p2d && m.p2d[port] != dn then m.d2p - {m.p2d[port]} else m.d2p;
    Maps(p2d[port := dn], d2p[dn := port])
  }

  /** While the maps are inverse, the script never raises and gives the same
      forward map as the corrected version; the reverse maps differ only in
      the stale entry. */
  lemma RegisterAgrees(m: Maps, port: Port, dn: string)
    requires Inverse(m)
    ensures var w := RegisterAsWritten(m, port, dn);
      && w.Registered?
      && w.maps.p2d == Register(m, port, dn).p2d
      && (port in m.p2d && m.p2d[port] != dn ==> w.maps.d2p == Register(m, port, dn).d2p[m.p2d[port] := port])
      && (!(port in m.p2d && m.p2d[port] != dn) ==> w.maps.d2p == Register(m, port, dn).d2p)
  {
    var r := Register(m, port, dn);
    if port in m.p2d && m.p2d[port] != dn {
      var previous := m.p2d[port];
      assert previous in m.d2p && m.d2p[previous] == port;
      var w := RegisterAsWritten(m, port, dn).maps;
      assert w.d2p == r.d2p[previous := port];
    }
  }

  // ------------------------------------------------------------ ports

  datatype Host = Host(
    serialPorts: set<Port>,   // `serial_ports`
    widgets: set<Port>,       // ports with a widget frame
    notReady: set<Port>,      // ports whose status label reads "Not Ready"
    idWorkers: set<Port>,     // keys of `identification_threads`
    portThreads: set<Port>,   // keys of `port_threads`
    maps: Maps,
    loggingActive: bool)

  /** The start-logging guard: nothing when the port already logs or has no
      device number (missing or empty). Otherwise the port logs if one of
      the attempts opened it, and its label then reads "Ready". */
  function StartLogging(h: Host, port: Port, connects: bool): (r: Host)
    ensures r.serialPorts == h.serialPorts && r.idWorkers == h.idWorkers && r.maps == h.maps
    ensures port in h.portThreads || port !in h.maps.p2d || h.maps.p2d[port] == "" ==> r == h
    ensures r.portThreads == if r == h then h.portThreads else h.portThreads + {port}
    ensures r != h <==> port !in h.portThreads && port in h.maps.p2d && h.maps.p2d[port] != "" && connects
  {
    if port in h.portThreads then h
    else if port !in h.maps.p2d || h.maps.p2d[port] == "" then h
    else if connects then h.(portThreads := h.portThreads + {port}, notReady := h.notReady - {port})
    else h
  }

  /** `register_device_number` on the host, as written: the maps are updated
      and logging starts for the port if it is on. When the `del` raises
      KeyError, the maps are untouched and `start_logging_for_port` is never
      reached. */
  function RegisterOnHost(h: Host, port: Port, dn: string, connects: bool): (r: Host)
    ensures RegisterAsWritten(h.maps, port, dn).KeyError? ==> r == h
    ensures RegisterAsWritten(h.maps, port, dn).Registered? ==>
      && r.maps == RegisterAsWritten(h.maps, port, dn).maps
      && port in r.maps.p2d && r.maps.p2d[port] == dn
    ensures r.portThreads == h.portThreads || (h.loggingActive && dn != "" && r.portThreads == h.portThreads + {port})
    ensures r.serialPorts == h.serialPorts && r.idWorkers == h.idWorkers
  {
    match RegisterAsWritten(h.maps, port, dn)
    case KeyError(_) => h
    case Registered(m) =>
      var h1 := h.(maps := m);
      if h.loggingActive then StartLogging(h1, port, connects) else h1
  }

  /** While the host's maps are inverse, a registration on the host never
      raises, leaves the forward map the corrected registration gives, and
      starts logging for the port exactly when the guard lets it. */
  lemma RegisterOnHostWhileInverse(h: Host, port: Port, dn: string, connects: bool)
    requires Inverse(h.maps)
    ensures var r := RegisterOnHost(h, port, dn, connects);
      && r.maps.p2d == Register(h.maps, port, dn).p2d
      && (port in r.portThreads <==> port in h.portThreads || (h.loggingActive && dn != "" && connects))
  {
    RegisterAgrees(h.maps, port, dn);
  }

  /** The ports a scan adds, and the ports already known whose label reads
      "Not Ready". */
  function Added(h: Host, current: set<Port>): set<Port> { current - h.serialPorts }
  function Relabelled(h: Host, current: set<Port>): set<Port> { current * h.serialPorts * h.notReady }

  /** The ports that start logging during a check: new or relabelled, with
      logging on, a device number, no thread yet, and a port that opens. */
  function Starting(h: Host, current: set<Port>, connects: Port -> bool): (s: set<Port>)
    ensures s <= Added(h, current) + Relabelled(h, current)
    ensures !h.loggingActive ==> s == {}
  {
    set p | p in Added(h, current) + Relabelled(h, current)
      && h.loggingActive && p in h.maps.p2d && h.maps.p2d[p] != ""
      && p !in h.portThreads - (h.serialPorts - current) && connects(p)
  }

  /** `check_device_connections` against the set `current` of scanned ports.
      Removed ports lose their thread entries and identification workers, and
      a widget they have says "Not Ready". New ports get a widget, whose
      label reads "Ready" when the port opened in the readiness probe, and
      an identification worker. New ports and known ports labelled "Not
      Ready" start logging when the guard lets them. The ports are treated
      one at a time in the script; each touches only its own entries. */
  function CheckConnections(h: Host, current: set<Port>, probe: Port -> bool, connects: Port -> bool): (r: Host)
    ensures r.serialPorts == current
    ensures r.maps == h.maps && r.loggingActive == h.loggingActive
    ensures r.idWorkers == (h.idWorkers - (h.serialPorts - current)) + Added(h, current)
    ensures r.portThreads == (h.portThreads - (h.serialPorts - current)) + Starting(h, current, connects)
  {
    var removed := h.serialPorts - current;
    var added := Added(h, current);
    var unseen := added - h.widgets;
    var starting := Starting(h, current, connects);
    var notReady := h.notReady + (removed * h.widgets);
    var notReady' := (notReady - Relabelled(h, current) - unseen) + (set p | p in unseen && !probe(p));
    Host(
      current,
      h.widgets + added,
      notReady' - starting,
      (h.idWorkers - removed) + added,
      (h.portThreads - removed) + starting,
      h.maps,
      h.loggingActive)
  }

  // ------------------------------------------------------------ properties

  /** The discovery facts: removed ports keep no thread or worker, new ports
      have a worker, and a thread is only started for a port with a device
      number while logging is on. */
  lemma CheckEffects(h: Host, current: set<Port>, probe: Port -> bool, connects: Port -> bool)
    ensures var r := CheckConnections(h, current, probe, connects);
      && (forall p :: p in h.serialPorts && p !in current ==> p !in r.idWorkers && p !in r.portThreads)
      && (forall p :: p in current && p !in h.serialPorts ==> p in r.idWorkers)
      && (forall p :: p in r.portThreads && p !in h.portThreads ==>
            h.loggingActive && p in h.maps.p2d && h.maps.p2d[p] != "" && p in current)
  {
  }

  /** A scan that finds the known ports starts no identification worker and
      stops none. */
  lemma UnchangedScanStartsNoIdentification(h: Host, probe: Port -> bool, connects: Port -> bool)
    ensures CheckConnections(h, h.serialPorts, probe, connects).idWorkers == h.idWorkers
  {
    assert Added(h, h.serialPorts) == {};
  }

  /** Every known port has a widget and every identification worker belongs
      to a known port. */
  predicate Tracked(h: Host) {
    h.serialPorts <= h.widgets && h.idWorkers <= h.serialPorts
  }

  lemma CheckKeepsTracked(h: Host, current: set<Port>, probe: Port -> bool, connects: Port -> bool)
    requires Tracked(h)
    ensures Tracked(CheckConnections(h, current, probe, connects))
  {
  }

  /** Checking the same scan twice: the second check adds and removes nothing. */
  lemma {:induction false} CheckSettles(h: Host, current: set<Port>, probe: Port -> bool, connects: Port -> bool)
    ensures var r1 := CheckConnections(h, current, probe, connects);
      var r2 := CheckConnections(r1, current, probe, connects);
      r2.serialPorts == r1.serialPorts && r2.idWorkers == r1.idWorkers && r2.widgets == r1.widgets
      && r1.portThreads <= r2.portThreads
  {
    var r1 := CheckConnections(h, current, probe, connects);
    assert Added(r1, current) == {};
    assert r1.serialPorts - current == {};
  }

  /** The guard as the script states it: a port with a thread, or without a
      non-empty device number, is left alone whatever the port does. */
  lemma StartLoggingGuard(h: Host, port: Port, connects: bool)
    requires port in h.portThreads || port !in h.maps.p2d || h.maps.p2d[port] == ""
    ensures StartLogging(h, port, connects) == h
  {
  }
}

=== FILE: picam_session.dfy ===
/**
 One pass of the PiCAM logging loop for a port (`read_from_port`). It does
 four things in order:
 - the time-sync check;
 - the arity and `validate_data` tests;
 - caching and saving the accepted row, with the jam flag and the video
   trigger;
 - every five seconds, a flush of the cache to the worksheet followed by the
   jam row.
 The flush is only reached after an accepted row. The serial line (absent
 when `readline` raised), the clock, the host timestamp, the video-trigger
 setting and what the worksheet calls did are all inputs.
 */
module PiCamSession {
  import opened Text
  import opened Wrappers
  import opened HostRow
  import opened TimeSync
  import opened SheetRows

  /** How the batch append went: appended within three tries, refused with
      an API error three times, or another exception, which ends the loop. */
  datatype BatchOutcome = Appended | Refused | Raised

  datatype Pass = Pass(
    raw: Option<string>,  // the decoded serial line, before `strip`; None when `readline` raised
    now: int,             // `time.time()` in milliseconds
    stamp: string,        // the host timestamp of the pass
    trigger: string,      // the video-trigger setting
    batch: BatchOutcome,
    jamAppended: bool)    // `append_row` of the jam row returned normally

  datatype Session = Session(
    cache: seq<Row>,      // `cached_data`
    saved: seq<Row>,      // `data_to_save[port]`
    sheet: seq<Entry>,    // what reached the worksheet
    jam: bool,            // `jam_event`
    sync: Marker,
    lastSend: int,        // milliseconds
    recording: bool,      // `recording_states[port]`
    ended: bool)          // the loop has left through its exception handler

  const SendInterval: int := 5000

  /** The session `read_from_port` starts with, at time `now`. */
  function Start(sync: Marker, now: int, recording: bool): (r: Session)
    ensures Accounted(r.sheet, r.cache, r.saved) && !r.jam && !r.ended
  {
    Session([], [], [], false, sync, now, recording, false)
  }

  /** Whether an event starts or extends a recording under the trigger setting. */
  function VideoTrigger(trigger: string, event: string): (fire: bool)
    ensures fire <==> (event == "Pellet" || event == "Left" || event == "Right") && (trigger == event || trigger == "All")
  {
    (trigger == "Pellet" && event == "Pellet")
    || (trigger == "Left" && event == "Left")
    || (trigger == "Right" && event == "Right")
    || (trigger == "All" && event in ["Pellet", "Left", "Right"])
  }

  /** The flush after an accepted row once five seconds have passed: the
      cache goes up as one batch and is cleared only if that worked; then a
      pending jam is marked with a row of its own. An exception from the jam
      append ends the loop, as does one from the batch other than an API
      error. */
  function Flush(s: Session, device: string, p: Pass): (r: Session)
    requires |s.cache| > 0 && !s.ended
    ensures r.saved == s.saved && r.sync == s.sync && r.recording == s.recording
    ensures Extends(s.sheet, r.sheet)
    ensures p.batch == Raised ==> r == s.(ended := true)
    ensures p.batch == Refused ==> r.cache == s.cache
    ensures p.batch == Appended ==> r.cache == [] && |r.sheet| > |s.sheet| && r.sheet[|s.sheet|] == Batch(s.cache)
    ensures !r.ended ==> r.lastSend == p.now && !r.jam
    ensures r.ended <==> p.batch == Raised || (s.jam && !p.jamAppended)
    ensures s.jam && !r.ended ==> |r.sheet| > 0 && r.sheet[|r.sheet| - 1] == JamMark(JamRow(p.stamp, device))
  {
    if p.batch == Raised then s.(ended := true)
    else
      var s1 := if p.batch == Appended then s.(sheet := s.sheet + [Batch(s.cache)], cache := []) else s;
      if !s1.jam then s1.(lastSend := p.now)
      else if p.jamAppended then
        s1.(sheet := s1.sheet + [JamMark(JamRow(p.stamp, device))], jam := false, lastSend := p.now)
      else s1.(ended := true)
  }

  /** The time-sync check and the row tests of a pass: the new marker and
      the row the pass accepts, the host timestamp in front of the line's
      21 data fields. */
  function Read(s: Session, p: Pass): (r: (Marker, Option<Row>))
    requires p.raw.Some?
    ensures r.0 == SyncStep(s.sync, Strip(p.raw.value), p.now).0
    ensures r.1.Some? <==> !SyncStep(s.sync, Strip(p.raw.value), p.now).1 && AcceptedParts(Strip(p.raw.value)).Some?
    ensures r.1.Some? ==> r.1.value == [p.stamp] + AcceptedParts(Strip(p.raw.value)).value
    ensures r.1.Some? ==> |r.1.value| == |ColumnHeaders|
  {
    var line := Strip(p.raw.value);
    var (m, consumed) := SyncStep(s.sync, line, p.now);
    assert Split("", ',') == [""];
    if consumed || line == "" then (m, None)
    else
      match AcceptedParts(line)
      case None => (m, None)
      case Some(parts) => (m, Some([p.stamp] + parts))
  }

  /** An accepted row: cached and saved, the jam flag and the recording
      updated, and the flush once five seconds have passed. */
  function Admit(s: Session, device: string, p: Pass, row: Row): (r: (Session, bool))
    requires !s.ended && |row| == |ColumnHeaders|
    ensures r.0.saved == s.saved + [row]
    ensures r.1 ==> !s.recording && r.0.recording
    ensures Extends(s.sheet, r.0.sheet)
  {
    var event := Strip(row[EventData + 1]);
    var fire := VideoTrigger(p.trigger, event);
    var s1 := s.(cache := s.cache + [row], saved := s.saved + [row],
                 jam := s.jam || event == "JAM", recording := s.recording || fire);
    (if p.now - s1.lastSend >= SendInterval then Flush(s1, device, p) else s1, fire && !s.recording)
  }

  /** One pass of the loop. `device` is the Device_Number the loop was
      started with. The flag is whether the pass starts a recording. A
      failed read leaves the loop through its exception handler: the cache
      is dropped unsent and nothing else is touched. */
  function Step(s: Session, device: string, p: Pass): (r: (Session, bool))
    ensures s.ended ==> r == (s, false)
    ensures !s.ended && p.raw.None? ==> r == (s.(ended := true), false)
    ensures r.1 ==> !s.recording && r.0.recording
    ensures Extends(s.sheet, r.0.sheet)
    ensures r.0.saved == s.saved || (|r.0.saved| == |s.saved| + 1 && r.0.saved[..|s.saved|] == s.saved)
    ensures |r.0.saved| == |s.saved| + 1 ==> |r.0.saved[|s.saved|]| == |ColumnHeaders|
  {
    if s.ended then (s, false)
    else if p.raw.None? then (s.(ended := true), false)
    else
      var (m, row) := Read(s, p);
      match row
      case None => (s.(sync := m), false)
      case Some(row) =>
        var r := Admit(s.(sync := m), device, p, row);
        assert r.0.saved[..|s.saved|] == s.saved;
        r
  }

  /** The passes in order. */
  function Run(s: Session, device: string, ps: seq<Pass>): (r: Session)
    decreases |ps|
  {
    if |ps| == 0 then s else Run(Step(s, device, ps[0]).0, device, ps[1..])
  }

  // ------------------------------------------------------------ properties

  /** A pass neither loses nor duplicates a row: what was accepted is on the
      worksheet or in the cache, in the order read. */
  lemma {:induction false} StepAccounts(s: Session, device: string, p: Pass)
    requires Accounted(s.sheet, s.cache, s.saved)
    ensures var r := Step(s, device, p).0; Accounted(r.sheet, r.cache, r.saved)
  {
    if !s.ended && p.raw.Some? {
      var (m, row) := Read(s, p);
      if row.Some? {
        AdmitAccounts(s.(sync := m), device, p, row.value);
      }
    }
  }

  /** Admitting a row keeps every row accounted for. */
  lemma AdmitAccounts(s: Session, device: string, p: Pass, row: Row)
    requires !s.ended && |row| == |ColumnHeaders|
    requires Accounted(s.sheet, s.cache, s.saved)
    ensures var r := Admit(s, device, p, row).0; Accounted(r.sheet, r.cache, r.saved)
  {
    var event := Strip(row[EventData + 1]);
    var s1 := s.(cache := s.cache + [row], saved := s.saved + [row],
                 jam := s.jam || event == "JAM", recording := s.recording || VideoTrigger(p.trigger, event));
    assert Admit(s, device, p, row).0 == if p.now - s1.lastSend >= SendInterval then Flush(s1, device, p) else s1;
    CacheAccounts(s.sheet, s.cache, s.saved, row);
    if p.now - s1.lastSend >= SendInterval {
      FlushAccounts(s1, device, p);
    }
  }

  /** A row cached and saved together stays accounted for. */
  lemma CacheAccounts(sheet: seq<Entry>, cache: seq<Row>, saved: seq<Row>, row: Row)
    requires Accounted(sheet, cache, saved)
    ensures Accounted(sheet, cache + [row], saved + [row])
  {
    assert DataRows(sheet) + (cache + [row]) == (DataRows(sheet) + cache) + [row];
  }

  /** A flush moves the cache to the worksheet without losing a row. */
  lemma FlushAccounts(s: Session, device: string, p: Pass)
    requires |s.cache| > 0 && !s.ended
    requires Accounted(s.sheet, s.cache, s.saved)
    ensures var r := Flush(s, device, p); Accounted(r.sheet, r.cache, r.saved)
  {
    var jr := JamRow(p.stamp, device);
    if p.batch == Appended {
      AppendBatch(s.sheet, s.cache);
      AppendJamMark(s.sheet + [Batch(s.cache)], jr);
    } else {
      AppendJamMark(s.sheet, jr);
    }
  }

  /** Over any run of passes the worksheet only grows and every accepted row
      stays accounted for. */
  lemma {:induction false} RunAccounts(s: Session, device: string, ps: seq<Pass>)
    requires Accounted(s.sheet, s.cache, s.saved)
    ensures var r := Run(s, device, ps);
      Accounted(r.sheet, r.cache, r.saved) && Extends(s.sheet, r.sheet)
    decreases |ps|
  {
    if |ps| > 0 {
      var s1 := Step(s, device, ps[0]).0;
      StepAccounts(s, device, ps[0]);
      RunAccounts(s1, device, ps[1..]);
      ExtendsTrans(s.sheet, s1.sheet, Run(s1, device, ps[1..]).sheet);
    }
  }

  /** A valid line read while no sync is pending is cached and saved with
      the host timestamp in front of its 21 data fields. */
  lemma AcceptedLineSaved(s: Session, device: string, p: Pass)
    requires !s.ended && !s.sync.Pending?
    requires p.raw.Some? && AcceptedParts(Strip(p.raw.value)).Some?
    ensures var r := Step(s, device, p).0;
      r.saved == s.saved + [[p.stamp] + AcceptedParts(Strip(p.raw.value)).value]
  {
  }

  /** The reply to a pending clock command is not data, and such a pass
      touches nothing but the marker. */
  lemma ReplyNotSaved(s: Session, device: string, p: Pass)
    requires !s.ended && s.sync.Pending? && p.raw.Some? && IsReply(Strip(p.raw.value))
    ensures Step(s, device, p) == (s.(sync := Done(p.now)), false)
  {
  }

  /** A line that is refused (blank, wrong arity or failing validation) does
      not flush: cached rows wait for the next accepted row however long ago
      the last send was. */
  lemma RefusedLineNoFlush(s: Session, device: string, p: Pass)
    requires !s.ended && p.raw.Some? && AcceptedParts(Strip(p.raw.value)).None?
    ensures var r := Step(s, device, p).0;
      r == s.(sync := r.sync)
  {
  }

  /** A JAM row reaches the worksheet twice: as data in the batch, and as the
      host's jam row right after it. */
  lemma JamRowFollowsBatch(s: Session, device: string, p: Pass)
    requires !s.ended && !s.sync.Pending? && !s.jam
    requires p.raw.Some? && AcceptedParts(Strip(p.raw.value)).Some?
    requires Strip(AcceptedParts(Strip(p.raw.value)).value[EventData]) == "JAM"
    requires p.now - s.lastSend >= SendInterval && p.batch == Appended && p.jamAppended
    ensures var r := Step(s, device, p).0;
      && r.sheet == s.sheet + [Batch(s.cache + [[p.stamp] + AcceptedParts(Strip(p.raw.value)).value]),
                               JamMark(JamRow(p.stamp, device))]
      && r.cache == [] && !r.jam && !r.ended && r.lastSend == p.now
  {
    var parts := AcceptedParts(Strip(p.raw.value)).value;
    var row := [p.stamp] + parts;
    var s1 := s.(cache := s.cache + [row], saved := s.saved + [row], jam := true,
                 recording := s.recording || VideoTrigger(p.trigger, "JAM"));
    assert Step(s, device, p).0 == Flush(s1, device, p) by {
      AcceptedStep(s, device, p);
      assert Strip(row[EventData + 1]) == "JAM" by {
        assert row[EventData + 1] == parts[EventData];
      }
    }
    FlushJam(s1, device, p);
  }

  /** A flush with a pending jam where both appends work: the batch, then the
      jam row. */
  lemma FlushJam(s: Session, device: string, p: Pass)
    requires |s.cache| > 0 && !s.ended && s.jam
    requires p.batch == Appended && p.jamAppended
    ensures Flush(s, device, p) == s.(sheet := s.sheet + [Batch(s.cache), JamMark(JamRow(p.stamp, device))],
                                      cache := [], jam := false, lastSend := p.now)
  {
    assert s.sheet + [Batch(s.cache)] + [JamMark(JamRow(p.stamp, device))]
        == s.sheet + [Batch(s.cache), JamMark(JamRow(p.stamp, device))];
  }

  /** A pass that reads a valid line while no sync is pending admits its row. */
  lemma AcceptedStep(s: Session, device: string, p: Pass)
    requires !s.ended && !s.sync.Pending?
    requires p.raw.Some? && AcceptedParts(Strip(p.raw.value)).Some?
    ensures Step(s, device, p).0 == Admit(s, device, p, [p.stamp] + AcceptedParts(Strip(p.raw.value)).value).0
  {
    assert Read(s, p) == (s.sync, Some([p.stamp] + AcceptedParts(Strip(p.raw.value)).value));
    assert s.(sync := s.sync) == s;
  }

  /** A jam append that raises ends the loop, whether the batch went up or not. */
  lemma FailedJamEnds(s: Session, device: string, p: Pass)
    requires !s.ended && !s.sync.Pending? && s.jam
    requires p.raw.Some? && AcceptedParts(Strip(p.raw.value)).Some?
    requires p.now - s.lastSend >= SendInterval && p.batch != Raised && !p.jamAppended
    ensures Step(s, device, p).0.ended
  {
    AcceptedLineSaved(s, device, p);
  }

  /** A read that raises ends the loop; rows still cached never reach the
      worksheet, and no later pass sends them. */
  lemma ReadErrorEnds(s: Session, device: string, p: Pass, ps: seq<Pass>)
    requires !s.ended && p.raw.None?
    ensures var r := Run(s, device, [p] + ps);
      r.ended && r.sheet == s.sheet && r.cache == s.cache && r.saved == s.saved
  {
    assert ([p] + ps)[1..] == ps;
    EndedStays(s.(ended := true), device, ps);
  }

  /** Once the loop has ended nothing more is read, cached or sent. */
  lemma {:induction false} EndedStays(s: Session, device: string, ps: seq<Pass>)
    requires s.ended
    ensures Run(s, device, ps) == s
    decreases |ps|
  {
    if |ps| > 0 {
      EndedStays(s, device, ps[1..]);
    }
  }

  /** A recording starts only when none is running and the event matches the
      trigger; while one runs, matching events start no other. */
  lemma OneRecordingAtATime(s: Session, device: string, p: Pass)
    requires s.recording
    ensures !Step(s, device, p).1 && Step(s, device, p).0.recording
  {
  }
}

=== FILE: pios_registry.dfy ===
/**
 The PiOS script's per-port bookkeeping. It keeps a single map from port to
 device number, overwritten on registration. Its start-logging guard asks
 only whether the port has a device number entry. Its connection check
 starts identification for new ports but never starts logging.
 */
module PiOsRegistry {
  import opened Wrappers
  import opened HostRow
  import opened Text

  type Port = string

  datatype Host = Host(
    serialPorts: set<Port>,
    idWorkers: set<Port>,      // keys of `identification_threads`
    portThreads: set<Port>,    // keys of `port_threads`
    p2d: map<Port, string>,    // `port_to_device_number`
    loggingActive: bool)

  /** `register_device_number`: the port's entry is overwritten and nothing
      else changes; if logging is on, logging starts for the port. */
  function RegisterOnHost(h: Host, port: Port, dn: string, connects: bool): (r: Host)
    ensures r.p2d == h.p2d[port := dn]
    ensures r.serialPorts == h.serialPorts && r.idWorkers == h.idWorkers
    ensures !h.loggingActive ==> r.portThreads == h.portThreads
    ensures h.loggingActive ==> r.portThreads == h.portThreads + (if connects then {port} else {})
  {
    var h1 := h.(p2d := h.p2d[port := dn]);
    if h.loggingActive then StartLogging(h1, port, connects) else h1
  }

  /** The start-logging guard: nothing when the port already logs or has no
      device number entry. An entry holding the empty text passes. */
  function StartLogging(h: Host, port: Port, connects: bool): (r: Host)
    ensures r.serialPorts == h.serialPorts && r.idWorkers == h.idWorkers && r.p2d == h.p2d
    ensures port in h.portThreads || port !in h.p2d ==> r == h
    ensures r.portThreads == h.portThreads + (if port !in h.portThreads && port in h.p2d && connects then {port} else {})
  {
    if port in h.portThreads then h
    else if port !in h.p2d then h
    else if connects then h.(portThreads := h.portThreads + {port})
    else h
  }

  /** One line read by the identification worker of `port`: the worker
      returns at once for a port that already logs, so such a port is never
      registered again from its data. */
  function IdentifyOnHost(h: Host, port: Port, line: string): (r: Option<string>)
    ensures port in h.portThreads ==> r.None?
    ensures r.Some? ==> r.value != "" && port !in h.portThreads
  {
    if port in h.portThreads then None else PiOsIdentify(line).0
  }

  /** A worker's find, registered: the port's entry holds the number read. */
  lemma IdentifiedRegisters(h: Host, port: Port, line: string, connects: bool)
    requires IdentifyOnHost(h, port, line).Some?
    ensures var dn := IdentifyOnHost(h, port, line).value;
      RegisterOnHost(h, port, dn, connects).p2d[port] == Strip(Split(line, ',')[DeviceData + 1])
  {
  }

  /** `check_device_connections` against the set `current` of scanned ports:
      removed ports lose their thread entries and identification workers;
      new ports get a worker. Logging starts only once a worker registers. */
  function CheckConnections(h: Host, current: set<Port>): (r: Host)
    ensures r.serialPorts == current
    ensures r.p2d == h.p2d && r.loggingActive == h.loggingActive
    ensures r.portThreads == h.portThreads - (h.serialPorts - current)
    ensures r.idWorkers == (h.idWorkers - (h.serialPorts - current)) + (current - h.serialPorts)
  {
    var removed := h.serialPorts - current;
    Host(current, (h.idWorkers - removed) + (current - h.serialPorts), h.portThreads - removed, h.p2d, h.loggingActive)
  }

  // ------------------------------------------------------------ properties

  /** Without a reverse map, two ports can hold the same device number. */
  lemma SameDeviceTwoPorts(h: Host)
    requires !h.loggingActive
    ensures var r := RegisterOnHost(RegisterOnHost(h, "A", "1", false), "B", "1", false);
      r.p2d["A"] == "1" && r.p2d["B"] == "1"
  {
  }

  /** The last registration of a port wins, and other ports are untouched. */
  lemma LastRegistrationWins(h: Host, port: Port, d1: string, d2: string, c1: bool, c2: bool)
    ensures var r := RegisterOnHost(RegisterOnHost(h, port, d1, c1), port, d2, c2);
      r.p2d == h.p2d[port := d2]
      && forall q :: q in h.p2d && q != port ==> r.p2d[q] == h.p2d[q]
  {
  }

  /** Unlike the PiCAM guard, an empty device number lets logging start. */
  lemma EmptyDeviceNumberLogs(h: Host, port: Port)
    requires port !in h.portThreads && port in h.p2d && h.p2d[port] == ""
    ensures port in StartLogging(h, port, true).portThreads
  {
  }

  /** A check never starts a logging thread. */
  lemma CheckStartsNoLogging(h: Host, current: set<Port>)
    ensures CheckConnections(h, current).portThreads <= h.portThreads
  {
  }

  /** Checking the same scan twice: the second check changes nothing. */
  lemma CheckSettles(h: Host, current: set<Port>)
    ensures CheckConnections(CheckConnections(h, current), current) == CheckConnections(h, current)
  {
    var r := CheckConnections(h, current);
    assert r.serialPorts - current == {} && current - r.serialPorts == {};
  }
}

=== FILE: pios_session.dfy ===
/**
 One pass of the PiOS logging loop for a port (`read_from_port`). A
 non-blank line with 21 data fields is taken without `validate_data`. A JAM
 row only raises the jam flag. Any other row is cached and saved, and Right
 and Pellet rows signal the port's queue. Every pass then flushes once five
 seconds have passed, if the worksheet could be opened. The serial line
 (absent when the port raised), the clock, the host timestamp and whether
 each worksheet call went through are inputs.
 */
module PiOsSession {
  import opened Text
  import opened HostRow
  import opened SheetRows
  import opened Wrappers

  datatype Pass = Pass(
    raw: Option<string>,  // the decoded line; None when `readline` raised
    now: int,             // milliseconds
    stamp: string,        // the host timestamp of the pass
    batchSent: bool,      // `append_rows` returned normally
    jamSent: bool)        // `append_row` of the jam row returned normally

  datatype Session = Session(
    cache: seq<Row>,
    saved: seq<Row>,
    sheet: seq<Entry>,
    jam: bool,            // `jam_event_occurred`
    lastSend: int,
    hasSheet: bool,       // the worksheet was opened when the loop started
    ended: bool)

  const SendInterval: int := 5000

  /** The rows a pass takes: a non-JAM row of 21 data fields. The flag is
      whether the row's event is Right or Pellet, which signals the queue. */
  function Take(s: Session, line: string, stamp: string): (r: (Session, bool))
    ensures r.0.sheet == s.sheet && r.0.lastSend == s.lastSend && r.0.hasSheet == s.hasSheet && r.0.ended == s.ended
    ensures || (r.0.saved == s.saved && r.0.cache == s.cache)
            || (|r.0.saved| == |s.saved| + 1 && r.0.saved == s.saved + [r.0.saved[|s.saved|]]
                && r.0.cache == s.cache + [r.0.saved[|s.saved|]])
    ensures r.1 ==> |r.0.saved| == |s.saved| + 1
    // a line without 21 fields after the first comma is only warned about
    ensures |Split(line, ',')| != DataArity + 1 ==> r == (s, false)
    // a JAM event raises the flag and nothing else
    ensures |Split(line, ',')| == DataArity + 1 && Strip(Split(line, ',')[EventData + 1]) == "JAM" ==>
      r == (s.(jam := true), false)
    // any other event is stamped, cached and saved, and Right or Pellet signals
    ensures |Split(line, ',')| == DataArity + 1 && Strip(Split(line, ',')[EventData + 1]) != "JAM" ==>
      var row := [stamp] + Split(line, ',')[1..];
      && r.0 == s.(cache := s.cache + [row], saved := s.saved + [row])
      && (r.1 <==> Strip(Split(line, ',')[EventData + 1]) in {"Right", "Pellet"})
  {
    var data := Split(line, ',')[1..];
    if |data| != DataArity then (s, false)
    else
      var ev := Strip(data[EventData]);
      if ev == "JAM" then (s.(jam := true), false)
      else
        var row := [stamp] + data;
        (s.(cache := s.cache + [row], saved := s.saved + [row]), ev == "Right" || ev == "Pellet")
  }

  /** The flush: the cache goes up and is cleared if that worked, a pending
      jam row goes up and the flag is cleared if that worked, and the send
      time moves on whatever happened. */
  function Flush(s: Session, device: string, p: Pass): (r: Session)
    ensures r.saved == s.saved && r.hasSheet == s.hasSheet && r.ended == s.ended
    ensures r.lastSend == p.now
    ensures Extends(s.sheet, r.sheet)
    ensures r.cache == (if p.batchSent then [] else s.cache)
    ensures r.jam == (s.jam && !p.jamSent)
    ensures s.jam && p.jamSent ==> |r.sheet| > 0 && r.sheet[|r.sheet| - 1] == JamMark(JamRow(p.stamp, device))
    ensures !s.jam && (|s.cache| == 0 || !p.batchSent) ==> r.sheet == s.sheet
  {
    var s1 := if |s.cache| > 0 && p.batchSent then s.(sheet := s.sheet + [Batch(s.cache)], cache := []) else s;
    var s2 := if s1.jam && p.jamSent then s1.(sheet := s1.sheet + [JamMark(JamRow(p.stamp, device))], jam := false) else s1;
    s2.(lastSend := p.now)
  }

  /** One pass. `device` is the port's Device_Number when the loop started.
      The flag is whether the pass signalled RIGHT_POKE. */
  function Step(s: Session, device: string, p: Pass): (r: (Session, bool))
    ensures s.ended ==> r == (s, false)
    ensures p.raw.None? ==> r.0 == s.(ended := true)
    ensures Extends(s.sheet, r.0.sheet)
    ensures r.0.hasSheet == s.hasSheet
  {
    if s.ended then (s, false)
    else
      match p.raw
      case None => (s.(ended := true), false)
      case Some(raw) =>
        var line := Strip(raw);
        var (s1, signal) := if line == "" then (s, false) else Take(s, line, p.stamp);
        (if p.now - s1.lastSend >= SendInterval && s1.hasSheet then Flush(s1, device, p) else s1, signal)
  }

  function Run(s: Session, device: string, ps: seq<Pass>): (r: Session)
    decreases |ps|
  {
    if |ps| == 0 then s else Run(Step(s, device, ps[0]).0, device, ps[1..])
  }

  // ------------------------------------------------------------ properties

  /** The saved rows carry no JAM event. */
  predicate NoJamRows(saved: seq<Row>) {
    forall i :: 0 <= i < |saved| ==> |saved[i]| == |ColumnHeaders| && Strip(saved[i][EventData + 1]) != "JAM"
  }

  /** A line is taken exactly when it has 21 data fields and its event is
      not JAM; the taken row is the timestamp and those fields. */
  lemma TakeRow(s: Session, line: string, stamp: string)
    ensures var r := Take(s, line, stamp).0;
      |r.saved| == |s.saved| + 1 <==>
        |Split(line, ',')| == DataArity + 1 && Strip(Split(line, ',')[EventData + 1]) != "JAM"
    ensures var r := Take(s, line, stamp).0;
      |r.saved| == |s.saved| + 1 ==> r.saved[|s.saved|] == [stamp] + Split(line, ',')[1..]
  {
  }

  /** Taking a line keeps every row accounted for and no JAM row saved. */
  lemma TakeKeeps(s: Session, line: string, stamp: string)
    requires Accounted(s.sheet, s.cache, s.saved) && NoJamRows(s.saved)
    ensures var r := Take(s, line, stamp).0; Accounted(r.sheet, r.cache, r.saved) && NoJamRows(r.saved)
  {
    var r := Take(s, line, stamp).0;
    var row := [stamp] + Split(line, ',')[1..];
    assert TakeShape(s, r, row) by {
      TakeShaped(s, line, stamp);
    }
    if r.saved != s.saved {
      AppendKeeps(s.sheet, s.cache, s.saved, row);
    }
  }

  /** What a take can do to the rows: nothing, or append one 22-column
      non-JAM row to both cache and saved data. */
  predicate TakeShape(s: Session, r: Session, row: Row) {
    && r.sheet == s.sheet
    && (|| (r.saved == s.saved && r.cache == s.cache)
        || (r.saved == s.saved + [row] && r.cache == s.cache + [row]
            && |row| == |ColumnHeaders| && Strip(row[EventData + 1]) != "JAM"))
  }

  lemma TakeShaped(s: Session, line: string, stamp: string)
    ensures TakeShape(s, Take(s, line, stamp).0, [stamp] + Split(line, ',')[1..])
  {
    var f := Split(line, ',');
    if |f| == DataArity + 1 && Strip(f[EventData + 1]) != "JAM" {
      assert ([stamp] + f[1..])[EventData + 1] == f[EventData + 1];
    }
  }

  lemma AppendKeeps(sheet: seq<Entry>, cache: seq<Row>, saved: seq<Row>, row: Row)
    requires Accounted(sheet, cache, saved) && NoJamRows(saved)
    requires |row| == |ColumnHeaders| && Strip(row[EventData + 1]) != "JAM"
    ensures Accounted(sheet, cache + [row], saved + [row]) && NoJamRows(saved + [row])
  {
    assert DataRows(sheet) + (cache + [row]) == (DataRows(sheet) + cache) + [row];
  }

  /** No pass loses or duplicates a row, and JAM rows never enter the saved data. */
  lemma {:induction false} StepKeeps(s: Session, device: string, p: Pass)
    requires Accounted(s.sheet, s.cache, s.saved) && NoJamRows(s.saved)
    ensures var r := Step(s, device, p).0; Accounted(r.sheet, r.cache, r.saved) && NoJamRows(r.saved)
  {
    if !s.ended && p.raw.Some? {
      var line := Strip(p.raw.value);
      var s1 := if line == "" then s else Take(s, line, p.stamp).0;
      assert Accounted(s1.sheet, s1.cache, s1.saved) && NoJamRows(s1.saved) by {
        if line != "" {
          TakeKeeps(s, line, p.stamp);
        }
      }
      var r := Step(s, device, p).0;
      assert r == if p.now - s1.lastSend >= SendInterval && s1.hasSheet then Flush(s1, device, p) else s1;
      FlushAccounts(s1, device, p);
    }
  }

  lemma FlushAccounts(s: Session, device: string, p: Pass)
    requires Accounted(s.sheet, s.cache, s.saved)
    ensures var r := Flush(s, device, p); Accounted(r.sheet, r.cache, r.saved)
  {
    var s1 := if |s.cache| > 0 && p.batchSent then s.(sheet := s.sheet + [Batch(s.cache)], cache := []) else s;
    if |s.cache| > 0 && p.batchSent {
      AppendBatch(s.sheet, s.cache);
    }
    AppendJamMark(s1.sheet, JamRow(p.stamp, device));
  }

  /** Over any run of passes the worksheet only grows, every taken row is
      accounted for, and no JAM row is among them. */
  lemma {:induction false} RunKeeps(s: Session, device: string, ps: seq<Pass>)
    requires Accounted(s.sheet, s.cache, s.saved) && NoJamRows(s.saved)
    ensures var r := Run(s, device, ps);
      Accounted(r.sheet, r.cache, r.saved) && NoJamRows(r.saved) && Extends(s.sheet, r.sheet)
    decreases |ps|
  {
    if |ps| > 0 {
      var s1 := Step(s, device, ps[0]).0;
      StepKeeps(s, device, ps[0]);
      RunKeeps(s1, device, ps[1..]);
      ExtendsTrans(s.sheet, s1.sheet, Run(s1, device, ps[1..]).sheet);
    }
  }

  /** A read line with 21 data fields and a non-JAM event ends up in the saved
      data, stamped with the pass's timestamp, whether or not a flush follows. */
  lemma LineSaved(s: Session, device: string, p: Pass, raw: string)
    requires !s.ended && p.raw == Some(raw)
    requires var d := Split(Strip(raw), ',')[1..]; |d| == DataArity && Strip(d[EventData]) != "JAM"
    ensures var d := Split(Strip(raw), ',')[1..];
      Step(s, device, p).0.saved == s.saved + [[p.stamp] + d]
    ensures var d := Split(Strip(raw), ',')[1..];
      Step(s, device, p).1 <==> Strip(d[EventData]) in {"Right", "Pellet"}
  {
    var f := Split(Strip(raw), ',');
    assert Split("", ',') == [""];
    assert f[EventData + 1] == f[1..][EventData];
  }

  /** A read JAM line saves nothing and raises the jam flag; unless the same
      pass flushes it, the session is otherwise unchanged. */
  lemma JamLineFlags(s: Session, device: string, p: Pass, raw: string)
    requires !s.ended && p.raw == Some(raw)
    requires var d := Split(Strip(raw), ',')[1..]; |d| == DataArity && Strip(d[EventData]) == "JAM"
    ensures var r := Step(s, device, p);
      r.0.saved == s.saved && !r.1
    ensures p.now - s.lastSend < SendInterval || !s.hasSheet ==> Step(s, device, p) == (s.(jam := true), false)
    ensures !p.jamSent ==> Step(s, device, p).0.jam
  {
    var f := Split(Strip(raw), ',');
    assert Split("", ',') == [""];
    assert f[EventData + 1] == f[1..][EventData];
  }

  /** Without a worksheet nothing is ever sent: the cache only grows. */
  lemma {:induction false} NoSheetNoSend(s: Session, device: string, ps: seq<Pass>)
    requires !s.hasSheet
    ensures Run(s, device, ps).sheet == s.sheet
    ensures |Run(s, device, ps).cache| >= |s.cache|
    decreases |ps|
  {
    if |ps| > 0 {
      var s1 := Step(s, device, ps[0]).0;
      assert s1.sheet == s.sheet && |s1.cache| >= |s.cache|;
      NoSheetNoSend(s1, device, ps[1..]);
    }
  }

  /** Unlike the PiCAM loop, a blank line flushes too once five seconds have passed. */
  lemma BlankLineFlushes(s: Session, device: string, p: Pass)
    requires !s.ended && s.hasSheet && p.raw == Some("") && p.now - s.lastSend >= SendInterval
    ensures Step(s, device, p) == (Flush(s, device, p), false)
  {
  }

  /** A failed jam append keeps the flag, so the jam row is tried again at
      the next flush; the loop goes on. */
  lemma JamRetried(s: Session, device: string, p: Pass)
    requires !s.ended && s.jam && s.hasSheet && p.raw == Some("") && p.now - s.lastSend >= SendInterval && !p.jamSent
    ensures var r := Step(s, device, p).0; r.jam && !r.ended && r.lastSend == p.now
  {
  }
}

=== FILE: sheet_rows.dfy ===
/**
 Rows on their way from a logging loop to the device's worksheet. Data rows
 go up in batches (`append_rows`); a jam is marked by one extra row built by
 the host (`append_row`). Both loops keep every data row they accept in a
 local list as well, for saving to disk.
 */
module SheetRows {
  import opened HostRow

  type Row = seq<string>

  /** One successful append to the worksheet. */
  datatype Entry = Batch(rows: seq<Row>) | JamMark(row: Row)

  /** The data rows on the worksheet, in order; jam marks are not data. */
  function DataRows(sheet: seq<Entry>): (r: seq<Row>)
    ensures |sheet| == 0 ==> r == []
  {
    if |sheet| == 0 then []
    else DataRows(sheet[..|sheet| - 1]) + (match sheet[|sheet| - 1] case Batch(rows) => rows case JamMark(_) => [])
  }

  lemma AppendBatch(sheet: seq<Entry>, rows: seq<Row>)
    ensures DataRows(sheet + [Batch(rows)]) == DataRows(sheet) + rows
  {
    assert (sheet + [Batch(rows)])[..|sheet|] == sheet;
  }

  lemma AppendJamMark(sheet: seq<Entry>, row: Row)
    ensures DataRows(sheet + [JamMark(row)]) == DataRows(sheet)
  {
    assert (sheet + [JamMark(row)])[..|sheet|] == sheet;
  }

  /** Every accepted row is on the worksheet or still waiting in the cache,
      in the order read, and nothing else is. */
  predicate Accounted(sheet: seq<Entry>, cache: seq<Row>, saved: seq<Row>) {
    DataRows(sheet) + cache == saved
  }

  /** The synthetic jam row: 22 columns, empty but for the host timestamp,
      the Device_Number column and the Event column. */
  function JamRow(stamp: string, device: string): (r: Row)
    ensures |r| == |ColumnHeaders|
    ensures r[0] == stamp && r[EventData + 1] == "JAM" && r[DeviceData + 1] == device
    ensures forall k :: 0 <= k < |r| && k != 0 && k != EventData + 1 && k != DeviceData + 1 ==> r[k] == ""
  {
    seq(|ColumnHeaders|, k =>
      if k == 0 then stamp
      else if k == EventData + 1 then "JAM"
      else if k == DeviceData + 1 then device
      else "")
  }

  /** The worksheet only ever grows at its end. */
  predicate Extends(before: seq<Entry>, after: seq<Entry>) {
    |before| <= |after| && after[..|before|] == before
  }

  lemma ExtendsTrans(a: seq<Entry>, b: seq<Entry>, c: seq<Entry>)
    requires Extends(a, b) && Extends(b, c)
    ensures Extends(a, c)
  {
    assert c[..|a|] == c[..|b|][..|a|];
  }
}

=== FILE: text.dfy ===
/**
 Strings as the scripts and the firmware see them: Python's `str.split`,
 `str.strip` and `str.lower`, Arduino's `String::trim`, prefix and substring
 tests, and decimal rendering of integers.
 */
module Text {

  /** Python's `s.split(sep)` for a one-character separator: always at least
      one field, empty fields kept. */
  function Split(s: string, sep: char): (r: seq<string>)
    ensures |r| >= 1
    ensures forall i :: 0 <= i < |r| ==> sep !in r[i]
    decreases |s|
  {
    if |s| == 0 then [""]
    else
      var rest := Split(s[1..], sep);
      if s[0] == sep then [""] + rest
      else [[s[0]] + rest[0]] + rest[1..]
  }

  /** Python's `sep.join(fs)`. */
  function Join(fs: seq<string>, sep: char): string
    decreases |fs|
  {
    if |fs| == 0 then ""
    else if |fs| == 1 then fs[0]
    else fs[0] + [sep] + Join(fs[1..], sep)
  }

  predicate NoSep(fs: seq<string>, sep: char) {
    forall i :: 0 <= i < |fs| ==> sep !in fs[i]
  }

  /** A list of fields has no separator exactly when neither of its halves has. */
  lemma NoSepConcat(a: seq<string>, b: seq<string>, sep: char)
    ensures NoSep(a + b, sep) <==> NoSep(a, sep) && NoSep(b, sep)
  {
    if NoSep(a, sep) && NoSep(b, sep) {
      forall i | 0 <= i < |a + b| ensures sep !in (a + b)[i] {
        if i >= |a| {
          assert (a + b)[i] == b[i - |a|];
        }
      }
    }
    if NoSep(a + b, sep) {
      forall i | 0 <= i < |a| ensures sep !in a[i] {
        assert (a + b)[i] == a[i];
      }
      forall i | 0 <= i < |b| ensures sep !in b[i] {
        assert (a + b)[|a| + i] == b[i];
      }
    }
  }

  /** Splitting and re-joining gives back the original line. */
  lemma {:induction false} JoinSplit(s: string, sep: char)
    ensures Join(Split(s, sep), sep) == s
    decreases |s|
  {
    if |s| > 0 {
      JoinSplit(s[1..], sep);
      var rest := Split(s[1..], sep);
      var r := Split(s, sep);
      assert s == [s[0]] + s[1..];
      if s[0] == sep {
        assert r == [""] + rest && r[1..] == rest;
        assert Join(r, sep) == "" + [sep] + Join(rest, sep);
      } else if |rest| == 1 {
        assert r == [[s[0]] + rest[0]];
      } else {
        assert r == [[s[0]] + rest[0]] + rest[1..] && r[1..] == rest[1..];
        assert Join(r, sep) == [s[0]] + rest[0] + [sep] + Join(rest[1..], sep);
        assert Join(rest, sep) == rest[0] + [sep] + Join(rest[1..], sep);
      }
    }
  }

  /** A field without the separator followed by the separator splits off as one field. */
  lemma {:induction false} SplitField(f: string, t: string, sep: char)
    requires sep !in f
    ensures Split(f + [sep] + t, sep) == [f] + Split(t, sep)
    decreases |f|
  {
    if |f| == 0 {
      assert f + [sep] + t == [sep] + t;
      assert ([sep] + t)[1..] == t;
    } else {
      SplitField(f[1..], t, sep);
      assert (f + [sep] + t)[1..] == f[1..] + [sep] + t;
      assert [f[0]] + f[1..] == f;
    }
  }

  /** A text without the separator is a single field. */
  lemma {:induction false} SplitNoSep(f: string, sep: char)
    requires sep !in f
    ensures Split(f, sep) == [f]
    decreases |f|
  {
    if |f| > 0 {
      SplitNoSep(f[1..], sep);
      assert [f[0]] + f[1..] == f;
    }
  }

  /** Joining separator-free fields and splitting again recovers the fields. */
  lemma {:induction false} SplitJoin(fs: seq<string>, sep: char)
    requires |fs| >= 1
    requires NoSep(fs, sep)
    ensures Split(Join(fs, sep), sep) == fs
    decreases |fs|
  {
    if |fs| == 1 {
      SplitNoSep(fs[0], sep);
    } else {
      SplitJoin(fs[1..], sep);
      SplitField(fs[0], Join(fs[1..], sep), sep);
      assert [fs[0]] + fs[1..] == fs;
    }
  }

  /** Every character of a joined line is a separator or a character of a field. */
  lemma {:induction false} JoinChars(fs: seq<string>, sep: char, ok: char -> bool)
    requires ok(sep)
    requires forall i, j :: 0 <= i < |fs| && 0 <= j < |fs[i]| ==> ok(fs[i][j])
    ensures forall j :: 0 <= j < |Join(fs, sep)| ==> ok(Join(fs, sep)[j])
    decreases |fs|
  {
    if |fs| > 1 {
      JoinChars(fs[1..], sep, ok);
      var t := Join(fs[1..], sep);
      forall j | 0 <= j < |Join(fs, sep)| ensures ok(Join(fs, sep)[j]) {
        if j < |fs[0]| {
          assert Join(fs, sep)[j] == fs[0][j];
        } else if j > |fs[0]| {
          assert Join(fs, sep)[j] == t[j - |fs[0]| - 1];
        }
      }
    }
  }

  /** Length of a joined line whose fields have at most `m` characters each. */
  lemma {:induction false} JoinLength(fs: seq<string>, sep: char, m: nat)
    requires |fs| >= 1
    requires forall i :: 0 <= i < |fs| ==> |fs[i]| <= m
    ensures |Join(fs, sep)| <= |fs| * (m + 1) - 1
    decreases |fs|
  {
    if |fs| > 1 {
      JoinLength(fs[1..], sep, m);
    }
  }

  /** Python's `str.isspace()` on one character. */
  predicate IsPySpace(c: char) {
    || c == ' ' || c == '\t' || c == '\n' || c == '\r'
    || ('\U{000B}' <= c <= '\U{000C}')
    || ('\U{001C}' <= c <= '\U{001F}')
    || c == '\U{0085}' || c == '\U{00A0}' || c == '\U{1680}'
    || ('\U{2000}' <= c <= '\U{200A}')
    || c == '\U{2028}' || c == '\U{2029}' || c == '\U{202F}'
    || c == '\U{205F}' || c == '\U{3000}'
  }

  /** C's `isspace` in the "C" locale, which Arduino's `String::trim` uses. */
  predicate IsCSpace(c: char) {
    c == ' ' || c == '\t' || c == '\n' || c == '\r' || ('\U{000B}' <= c <= '\U{000C}')
  }

  function TrimLeft(s: string, ws: char -> bool): (r: string)
    ensures |r| <= |s| && r == s[|s| - |r|..]
    ensures |r| > 0 ==> !ws(r[0])
    ensures forall i :: 0 <= i < |s| - |r| ==> ws(s[i])
    decreases |s|
  {
    if |s| > 0 && ws(s[0]) then TrimLeft(s[1..], ws) else s
  }

  function TrimRight(s: string, ws: char -> bool): (r: string)
    ensures |r| <= |s| && r == s[..|r|]
    ensures |r| > 0 ==> !ws(r[|r| - 1])
    ensures forall i :: |r| <= i < |s| ==> ws(s[i])
    decreases |s|
  {
    if |s| > 0 && ws(s[|s| - 1]) then TrimRight(s[..|s| - 1], ws) else s
  }

  /** Removes the characters `ws` accepts from both ends. */
  function Trim(s: string, ws: char -> bool): string {
    TrimRight(TrimLeft(s, ws), ws)
  }

  /** Python's `s.strip()`. */
  function Strip(s: string): string {
    Trim(s, IsPySpace)
  }

  /** A text with no whitespace at its ends is left alone by `strip()`. */
  lemma StripNoMargin(s: string)
    requires |s| > 0 ==> !IsPySpace(s[0]) && !IsPySpace(s[|s| - 1])
    ensures Strip(s) == s
  {
  }

  /** Stripping twice is stripping once. */
  lemma StripIdempotent(s: string)
    ensures Strip(Strip(s)) == Strip(s)
  {
    var t := TrimLeft(s, IsPySpace);
    var r := Strip(s);
    if |r| > 0 {
      assert r[0] == t[0];
    }
    StripNoMargin(r);
  }

  /** Arduino's `String::trim()`. */
  function CTrim(s: string): string {
    Trim(s, IsCSpace)
  }

  predicate IsUpper(c: char) { 'A' <= c <= 'Z' }

  /** Python's `s.lower()` on ASCII letters. */
  function Lower(s: string): (r: string)
    ensures |r| == |s|
    ensures forall i :: 0 <= i < |s| ==> !IsUpper(r[i])
    ensures forall i :: 0 <= i < |s| ==> (if IsUpper(s[i]) then r[i] as int == s[i] as int + 32 else r[i] == s[i])
  {
    seq(|s|, i requires 0 <= i < |s| => if IsUpper(s[i]) then (s[i] as int + 32) as char else s[i])
  }

  predicate StartsWith(s: string, prefix: string) {
    |prefix| <= |s| && s[..|prefix|] == prefix
  }

  /** Python's `sub in s`. */
  predicate Contains(s: string, sub: string)
    decreases |s|
  {
    StartsWith(s, sub) || (|s| > 0 && Contains(s[1..], sub))
  }

  lemma {:induction false} ContainsAt(s: string, sub: string, i: nat)
    requires i + |sub| <= |s| && s[i..i + |sub|] == sub
    ensures Contains(s, sub)
    decreases i
  {
    if i > 0 {
      ContainsAt(s[1..], sub, i - 1);
      assert s[1..][i - 1..i - 1 + |sub|] == s[i..i + |sub|];
    }
  }

  lemma {:induction false} ContainsChar(s: string, c: char)
    ensures Contains(s, [c]) <==> c in s
    decreases |s|
  {
    if |s| > 0 {
      ContainsChar(s[1..], c);
      assert s == [s[0]] + s[1..];
    }
  }

  predicate IsDigit(c: char) { '0' <= c <= '9' }

  predicate AllDigits(s: string) {
    forall i :: 0 <= i < |s| ==> IsDigit(s[i])
  }

  function DigitChar(d: nat): (c: char)
    requires d < 10
    ensures IsDigit(c)
  {
    ('0' as int + d) as char
  }

  function DigitValue(c: char): nat
    requires IsDigit(c)
  {
    c as int - '0' as int
  }

  /** Decimal rendering of a natural number, as Python's `str` and Arduino's `String` do. */
  function NatToString(n: nat): (r: string)
    ensures |r| >= 1
    ensures AllDigits(r)
    decreases n
  {
    if n < 10 then [DigitChar(n)] else NatToString(n / 10) + [DigitChar(n % 10)]
  }

  /** Decimal rendering of an integer with a leading '-' when negative. */
  function IntToString(n: int): string {
    if n < 0 then "-" + NatToString(-n) else NatToString(n)
  }

  /** The value a run of decimal digits denotes. */
  function DigitsValue(s: string): nat
    requires AllDigits(s)
    decreases |s|
  {
    if |s| == 0 then 0 else DigitsValue(s[..|s| - 1]) * 10 + DigitValue(s[|s| - 1])
  }

  /** The value of a two-digit text. */
  lemma TwoDigitsValue(s: string)
    requires |s| == 2 && AllDigits(s)
    ensures DigitsValue(s) == DigitValue(s[0]) * 10 + DigitValue(s[1])
  {
    var first := s[..1];
    assert s[..|s| - 1] == first;
    assert first[..|first| - 1] == [];
    assert DigitsValue(first) == DigitValue(s[0]);
  }

  /** Reading back a rendered number gives the number. */
  lemma {:induction false} NatToStringValue(n: nat)
    ensures DigitsValue(NatToString(n)) == n
    decreases n
  {
    if n >= 10 {
      NatToStringValue(n / 10);
      var s := NatToString(n);
      assert s[..|s| - 1] == NatToString(n / 10);
    }
  }

  lemma NoCommaInNumber(n: int)
    ensures ',' !in IntToString(n)
  {
    var d := NatToString(if n < 0 then -n else n);
    assert AllDigits(d);
  }
}

=== FILE: time_sync.dfy ===
/**
 The time-sync marker the PiCAM and TTL logging loops keep per port. Setting
 the clock makes the marker pending; the first TIME_SET_OK or TIME_SET_FAIL
 line read while it is pending resolves it and is not treated as data, and
 a line read more than two seconds after the command resolves it anyway.
 Times are milliseconds.
 */
module TimeSync {

  datatype Marker = NoSync | Pending(sentAt: int) | Done(at: int)

  /** The longest wait for a reply, exclusive. */
  const ReplyWindow: int := 2000

  predicate IsReply(line: string) {
    line == "TIME_SET_OK" || line == "TIME_SET_FAIL"
  }

  /** The marker check at the top of each loop pass, on the stripped line
      read at time `now`. The flag says whether the line was consumed. */
  function SyncStep(m: Marker, line: string, now: int): (r: (Marker, bool))
    ensures r.1 <==> m.Pending? && IsReply(line)
    ensures !m.Pending? ==> r.0 == m
    ensures m.Pending? ==>
      (r.0 == m <==> !IsReply(line) && now - m.sentAt <= ReplyWindow)
    ensures m.Pending? && r.0 != m ==> r.0 == Done(now)
  {
    match m
    case Pending(sentAt) =>
      if IsReply(line) then (Done(now), true)
      else if now - sentAt > ReplyWindow then (Done(now), false)
      else (m, false)
    case _ => (m, false)
  }

  /** The marker after a run of lines read at the given times. */
  function SyncRun(m: Marker, lines: seq<string>, times: seq<int>): (r: Marker)
    requires |lines| == |times|
    decreases |lines|
  {
    if |lines| == 0 then m else SyncRun(SyncStep(m, lines[0], times[0]).0, lines[1..], times[1..])
  }

  /** Once resolved, the marker stays resolved whatever is read. */
  lemma {:induction false} ResolvedStays(m: Marker, lines: seq<string>, times: seq<int>)
    requires |lines| == |times| && !m.Pending?
    ensures SyncRun(m, lines, times) == m
    decreases |lines|
  {
    if |lines| > 0 {
      ResolvedStays(SyncStep(m, lines[0], times[0]).0, lines[1..], times[1..]);
    }
  }

  /** A pending sync is resolved by the first line read more than two seconds
      after the command, if no reply came before. */
  lemma {:induction false} PendingResolvesInTime(sentAt: int, lines: seq<string>, times: seq<int>)
    requires |lines| == |times| > 0
    requires times[|times| - 1] - sentAt > ReplyWindow
    ensures !SyncRun(Pending(sentAt), lines, times).Pending?
    decreases |lines|
  {
    var next := SyncStep(Pending(sentAt), lines[0], times[0]).0;
    if |lines| == 1 {
      assert SyncRun(next, lines[1..], times[1..]) == next;
    } else if next.Pending? {
      PendingResolvesInTime(sentAt, lines[1..], times[1..]);
    } else {
      ResolvedStays(next, lines[1..], times[1..]);
    }
  }

  /** Only one reply is consumed per command: a second reply is passed on
      to the data handling. */
  lemma OneReplyConsumed(m: Marker, t1: int, t2: int)
    ensures var first := SyncStep(m, "TIME_SET_OK", t1);
      !SyncStep(first.0, "TIME_SET_OK", t2).1 && !SyncStep(first.0, "TIME_SET_FAIL", t2).1
  {
  }
}

=== FILE: ttl_events.dfy ===
/**
 The TTL script's event handling. Each logging thread reads its FED3 board's
 lines, saves the rows that have an Event field and turns the events into
 GPIO pulses:
 - a left or right poke pulses that side's pin;
 - a pellet dropped into the well raises the pellet pin;
 - the pellet being taken lowers it and pulses it once.
 Which ports hold a pellet is kept in the shared `pellet_in_well` map. At the
 end, a summary counts Left, Right and Pellet rows. Pin writes are returned
 as a list instead of being performed.
 */
module TtlEvents {
  import opened Text
  import opened Wrappers
  import opened TimeSync
  import opened FedLog
  import opened HostRow
  import opened TtlPorts

  type Row = seq<string>

  /** One `GPIO.output` call. */
  datatype Write = Write(pin: int, high: bool)

  /** `send_ttl_signal`: high, then low. */
  function Pulse(pin: int): (w: seq<Write>)
    ensures |w| == 2 && w[0] == Write(pin, true) && w[1] == Write(pin, false)
  {
    [Write(pin, true), Write(pin, false)]
  }

  /** `pellet_in_well`. A port missing from the map has no pellet. */
  type Wells = map<string, bool>

  predicate InWell(w: Wells, port: string) {
    port in w && w[port]
  }

  /** The queue message the pellet handler leaves. */
  datatype Note = Taken | NoPellet | Dispensed | Ignored

  /** The normalised event text both handlers compare against. */
  function Kind(event: string): string {
    Lower(Strip(event))
  }

  /** The six events that blink the port's indicator. */
  predicate Signalled(e: string) {
    e in {"left", "right", "pellet", "pelletinwell", "leftwithpellet", "rightwithpellet"}
  }

  datatype EventKind = Left | Right | LeftWithPellet | RightWithPellet | Pellet | PelletInWell | Other

  /** The event names `process_event` and `save_summary` compare against,
      lower-case, with their kinds. */
  const EventNames: seq<(string, EventKind)> := [
    ("left", Left), ("right", Right),
    ("leftwithpellet", LeftWithPellet), ("rightwithpellet", RightWithPellet),
    ("pellet", Pellet), ("pelletinwell", PelletInWell)]

  function Lookup(e: string, table: seq<(string, EventKind)>): (k: EventKind)
    decreases |table|
  {
    if |table| == 0 then Other
    else if e == table[0].0 then table[0].1
    else Lookup(e, table[1..])
  }

  /** The kind of an event text, compared after stripping and lower-casing. */
  function Classify(event: string): EventKind {
    Lookup(Kind(event), EventNames)
  }

  /** Each kind is exactly one normalised name, and the six names are
      exactly the events that blink the indicator. */
  lemma ClassifyNames(event: string)
    ensures var k, e := Classify(event), Kind(event);
      && (k == Left <==> e == "left")
      && (k == Right <==> e == "right")
      && (k == LeftWithPellet <==> e == "leftwithpellet")
      && (k == RightWithPellet <==> e == "rightwithpellet")
      && (k == Pellet <==> e == "pellet")
      && (k == PelletInWell <==> e == "pelletinwell")
      && (k == Other <==> !Signalled(e))
  {
    var e := Kind(event);
    var t := EventNames;
    assert t[1..][1..][1..][1..][1..][1..] == [];
    if e == "left" {
    } else if e == "right" {
      assert Lookup(e, t) == Lookup(e, t[1..]);
    } else if e == "leftwithpellet" {
      assert Lookup(e, t) == Lookup(e, t[1..]) == Lookup(e, t[1..][1..]);
    } else if e == "rightwithpellet" {
      assert Lookup(e, t) == Lookup(e, t[1..]) == Lookup(e, t[1..][1..]) == Lookup(e, t[1..][1..][1..]);
    } else if e == "pellet" {
      assert Lookup(e, t) == Lookup(e, t[1..]) == Lookup(e, t[1..][1..]) == Lookup(e, t[1..][1..][1..])
        == Lookup(e, t[1..][1..][1..][1..]);
    } else if e == "pelletinwell" {
      assert Lookup(e, t) == Lookup(e, t[1..]) == Lookup(e, t[1..][1..]) == Lookup(e, t[1..][1..][1..])
        == Lookup(e, t[1..][1..][1..][1..]) == Lookup(e, t[1..][1..][1..][1..][1..]);
    } else {
      assert Lookup(e, t) == Lookup(e, t[1..]) == Lookup(e, t[1..][1..]) == Lookup(e, t[1..][1..][1..])
        == Lookup(e, t[1..][1..][1..][1..]) == Lookup(e, t[1..][1..][1..][1..][1..])
        == Lookup(e, t[1..][1..][1..][1..][1..][1..]);
    }
  }

  /** `handle_pellet_event` for the port `port` with pins `pins`, on an
      event of kind `k`. After the call the pellet pin was last written high
      exactly when the port holds a pellet. */
  function HandlePellet(w: Wells, port: string, pins: Pins, k: EventKind): (r: (Wells, seq<Write>, Note))
    ensures port in r.0 && r.0.Keys == w.Keys + {port}
    ensures forall q :: q in w && q != port ==> r.0[q] == w[q]
    ensures k == PelletInWell ==> r.0[port] && r.2 == Dispensed
    ensures k == Pellet ==> !r.0[port] && (r.2 == Taken <==> InWell(w, port))
    ensures k != Pellet && k != PelletInWell ==> r.0[port] == InWell(w, port) && r.1 == [] && r.2 == Ignored
    ensures r.0[port] != InWell(w, port) ==> |r.1| > 0
    ensures |r.1| > 0 ==> r.1[|r.1| - 1] == Write(pins.pellet, r.0[port])
    ensures forall i :: 0 <= i < |r.1| ==> r.1[i].pin == pins.pellet
  {
    var w0 := if port in w then w else w[port := false];
    if k == Pellet then
      if w0[port] then (w0[port := false], [Write(pins.pellet, false)] + Pulse(pins.pellet), Taken)
      else (w0, [], NoPellet)
    else if k == PelletInWell then (w0[port := true], [Write(pins.pellet, true)], Dispensed)
    else (w0, [], Ignored)
  }

  /** `process_event` on an event of kind `k`: the pin writes, the pellet
      handler's note and whether the indicator blinks. Only the pellet
      events touch `pellet_in_well`. */
  function ProcessEvent(w: Wells, port: string, pins: Pins, k: EventKind): (r: (Wells, seq<Write>, Note, bool))
    ensures r.3 <==> k != Other
    ensures k == Left || k == LeftWithPellet ==> r.1 == Pulse(pins.leftPoke)
    ensures k == Right || k == RightWithPellet ==> r.1 == Pulse(pins.rightPoke)
    ensures k == Pellet || k == PelletInWell ==> (r.0, r.1, r.2) == HandlePellet(w, port, pins, k)
    ensures k != Pellet && k != PelletInWell ==> r.0 == w && r.2 == Ignored
    ensures k == Other ==> r.1 == []
  {
    match k
    case Left => (w, Pulse(pins.leftPoke), Ignored, true)
    case Right => (w, Pulse(pins.rightPoke), Ignored, true)
    case LeftWithPellet => (w, Pulse(pins.leftPoke), Ignored, true)
    case RightWithPellet => (w, Pulse(pins.rightPoke), Ignored, true)
    case Other => (w, [], Ignored, false)
    case _ =>
      var h := HandlePellet(w, port, pins, k);
      (h.0, h.1, h.2, true)
  }

  // ------------------------------------------------------------ pellet runs

  /** The events one port processes in a row: the final wells and the notes. */
  function PelletRun(w: Wells, port: string, pins: Pins, kinds: seq<EventKind>): (r: (Wells, seq<Note>))
    ensures |r.1| == |kinds|
    decreases |kinds|
  {
    if |kinds| == 0 then (w, [])
    else
      var before := PelletRun(w, port, pins, kinds[..|kinds| - 1]);
      var step := ProcessEvent(before.0, port, pins, kinds[|kinds| - 1]);
      (step.0, before.1 + [step.2])
  }

  /** The reference for the well: the last pellet event decides, and without
      one the port keeps what it had. */
  function LastPelletKind(start: bool, kinds: seq<EventKind>): bool
    decreases |kinds|
  {
    if |kinds| == 0 then start
    else if kinds[|kinds| - 1] == PelletInWell then true
    else if kinds[|kinds| - 1] == Pellet then false
    else LastPelletKind(start, kinds[..|kinds| - 1])
  }

  function CountNote(notes: seq<Note>, n: Note): nat
    decreases |notes|
  {
    if |notes| == 0 then 0
    else CountNote(notes[..|notes| - 1], n) + (if notes[|notes| - 1] == n then 1 else 0)
  }

  /** After any run, the port holds a pellet exactly when its last pellet
      event was a dispense (or, without any, when it held one before). */
  lemma {:induction false} WellFollowsLastPelletEvent(w: Wells, port: string, pins: Pins, kinds: seq<EventKind>)
    ensures InWell(PelletRun(w, port, pins, kinds).0, port) == LastPelletKind(InWell(w, port), kinds)
    decreases |kinds|
  {
    if |kinds| > 0 {
      WellFollowsLastPelletEvent(w, port, pins, kinds[..|kinds| - 1]);
    }
  }

  /** A pellet is reported taken at most once per dispense, plus once for a
      pellet already in the well. */
  lemma {:induction false} TakenAtMostDispensed(w: Wells, port: string, pins: Pins, kinds: seq<EventKind>)
    ensures var r := PelletRun(w, port, pins, kinds);
      CountNote(r.1, Taken) + (if InWell(r.0, port) then 1 else 0)
        <= CountNote(r.1, Dispensed) + (if InWell(w, port) then 1 else 0)
    decreases |kinds|
  {
    if |kinds| > 0 {
      var prefix := kinds[..|kinds| - 1];
      TakenAtMostDispensed(w, port, pins, prefix);
      var before := PelletRun(w, port, pins, prefix);
      var r := PelletRun(w, port, pins, kinds);
      assert r.1[..|r.1| - 1] == before.1;
    }
  }

  /** A second "pellet" without a dispense in between sends nothing. */
  lemma NoDoubleTake(w: Wells, port: string, pins: Pins)
    ensures var first := ProcessEvent(w, port, pins, Pellet);
      var second := ProcessEvent(first.0, port, pins, Pellet);
      second.1 == [] && second.2 == NoPellet && second.3
  {
  }

  // ------------------------------------------------------------ reading

  /** The fields the loop takes from a stripped, non-consumed line: the row
      to save (the host timestamp in place of field 0) and the event text in
      field 9. Lines with fewer than ten fields are only shown. */
  function Parse(line: string, stamp: string): (r: Option<(Row, string)>)
    ensures r.Some? <==> line != "" && |Split(line, ',')| >= 10
    ensures r.Some? ==> |r.value.0| == |Split(line, ',')| && r.value.0[0] == stamp
    ensures r.Some? ==> forall k :: 1 <= k < |r.value.0| ==> r.value.0[k] == Split(line, ',')[k]
    ensures r.Some? ==> r.value.1 == Strip(r.value.0[9])
  {
    if line == "" then None
    else
      var fields := Split(line, ',');
      if |fields| >= 10 then Some(([stamp] + fields[1..], Strip(fields[9]))) else None
  }

  datatype Pass = Pass(
    raw: Option<string>,  // the decoded line; None when `readline` raised
    now: int,             // milliseconds
    stamp: string)        // the host timestamp of the pass

  /** One port's logging thread. */
  datatype Port = Port(sync: Marker, wells: Wells, saved: seq<Row>, ended: bool)

  /** One pass of `read_from_fed`: the pin writes and whether the indicator
      blinked. A sync reply is consumed; any other line with ten fields is
      saved and its event processed. */
  function ReadStep(p: Port, port: string, pins: Pins, pass: Pass): (r: (Port, seq<Write>, bool))
    ensures p.ended ==> r == (p, [], false)
    ensures !p.ended && pass.raw.None? ==> r == (p.(ended := true), [], false)
    ensures !p.ended && pass.raw.Some? ==> r.0.sync == SyncStep(p.sync, Strip(pass.raw.value), pass.now).0 && !r.0.ended
    ensures r.0.saved == p.saved || (|r.0.saved| == |p.saved| + 1 && r.0.saved[..|p.saved|] == p.saved)
    ensures |r.0.saved| == |p.saved| + 1 <==>
      !p.ended && pass.raw.Some? && !SyncStep(p.sync, Strip(pass.raw.value), pass.now).1
      && Parse(Strip(pass.raw.value), pass.stamp).Some?
    ensures |r.0.saved| == |p.saved| + 1 ==> r.0.saved[|p.saved|] == Parse(Strip(pass.raw.value), pass.stamp).value.0
    ensures r.0.saved == p.saved ==> r.0.wells == p.wells && r.1 == [] && !r.2
  {
    if p.ended then (p, [], false)
    else
      match pass.raw
      case None => (p.(ended := true), [], false)
      case Some(raw) =>
        var line := Strip(raw);
        var sync := SyncStep(p.sync, line, pass.now);
        if sync.1 then (p.(sync := sync.0), [], false)
        else
          match Parse(line, pass.stamp)
          case None => (p.(sync := sync.0), [], false)
          case Some(parsed) =>
            var e := ProcessEvent(p.wells, port, pins, Classify(parsed.1));
            (p.(sync := sync.0, wells := e.0, saved := p.saved + [parsed.0]), e.1, e.3)
  }

  /** The thread over a run of passes, with all its pin writes in order. */
  function ReadRun(p: Port, port: string, pins: Pins, passes: seq<Pass>): (r: (Port, seq<Write>))
    decreases |passes|
  {
    if |passes| == 0 then (p, [])
    else
      var before := ReadRun(p, port, pins, passes[..|passes| - 1]);
      var step := ReadStep(before.0, port, pins, passes[|passes| - 1]);
      (step.0, before.1 + step.1)
  }

  /** A sync reply read while the sync is pending is neither saved nor
      processed, whether it reports success or failure. */
  lemma ReplyConsumed(p: Port, port: string, pins: Pins, pass: Pass)
    requires !p.ended && p.sync.Pending? && pass.raw.Some? && IsReply(Strip(pass.raw.value))
    ensures var r := ReadStep(p, port, pins, pass);
      r.0.saved == p.saved && r.0.wells == p.wells && r.1 == [] && r.0.sync == Done(pass.now)
  {
  }

  // ------------------------------------------------------------ summary

  datatype Tally = Tally(left: nat, right: nat, pellet: nat)

  /** `save_summary`'s count of one event: left and leftwithpellet are Left,
      right and rightwithpellet are Right, only pellet is Pellet. */
  function KindTally(k: EventKind): (t: Tally)
    ensures t.left + t.right + t.pellet <= 1
    ensures t.left == 1 <==> k == Left || k == LeftWithPellet
    ensures t.right == 1 <==> k == Right || k == RightWithPellet
    ensures t.pellet == 1 <==> k == Pellet
  {
    match k
    case Left => Tally(1, 0, 0)
    case LeftWithPellet => Tally(1, 0, 0)
    case Right => Tally(0, 1, 0)
    case RightWithPellet => Tally(0, 1, 0)
    case Pellet => Tally(0, 0, 1)
    case _ => Tally(0, 0, 0)
  }

  /** The count of one row: rows with more than nine fields, by the kind of
      field 9. */
  function RowTally(row: Row): (t: Tally)
    ensures t.left + t.right + t.pellet <= 1
  {
    if |row| <= 9 then Tally(0, 0, 0) else KindTally(Classify(row[9]))
  }

  function Add(a: Tally, b: Tally): Tally {
    Tally(a.left + b.left, a.right + b.right, a.pellet + b.pellet)
  }

  /** The reference count of a port's rows. */
  function Summary(rows: seq<Row>): (t: Tally)
    decreases |rows|
  {
    if |rows| == 0 then Tally(0, 0, 0)
    else Add(Summary(rows[..|rows| - 1]), RowTally(rows[|rows| - 1]))
  }

  /** The body of `save_summary`'s loop: one row moves at most one count. */
  method CountRow(row: Row, left: nat, right: nat, pellet: nat) returns (left': nat, right': nat, pellet': nat)
    ensures Tally(left', right', pellet') == Add(Tally(left, right, pellet), RowTally(row))
  {
    left', right', pellet' := left, right, pellet;
    if |row| > 9 {
      left', right', pellet' := CountKind(Classify(row[9]), left, right, pellet);
    }
  }

  /** The if-chain on the lower-cased event of a row. */
  method CountKind(ev: EventKind, left: nat, right: nat, pellet: nat) returns (left': nat, right': nat, pellet': nat)
    ensures Tally(left', right', pellet') == Add(Tally(left, right, pellet), KindTally(ev))
  {
    left', right', pellet' := left, right, pellet;
    if ev == Left || ev == LeftWithPellet {
      left' := left + 1;
    } else if ev == Right || ev == RightWithPellet {
      right' := right + 1;
    } else if ev == Pellet {
      pellet' := pellet + 1;
    }
  }

  /** `save_summary`'s loop over a port's rows. */
  method SaveSummary(rows: seq<Row>) returns (left: nat, right: nat, pellet: nat)
    ensures Tally(left, right, pellet) == Summary(rows)
    ensures left + right + pellet <= |rows|
  {
    left, right, pellet := 0, 0, 0;
    var i := 0;
    assert rows[..0] == [];
    while i < |rows|
      invariant 0 <= i <= |rows|
      invariant Tally(left, right, pellet) == Summary(rows[..i])
      invariant left + right + pellet <= i
    {
      SummaryStep(rows, i);
      left, right, pellet := CountRow(rows[i], left, right, pellet);
      i := i + 1;
    }
    assert rows[..i] == rows;
  }

  lemma SummaryStep(rows: seq<Row>, i: nat)
    requires i < |rows|
    ensures Summary(rows[..i + 1]) == Add(Summary(rows[..i]), RowTally(rows[i]))
  {
    assert rows[..i + 1][..i] == rows[..i];
  }

  /** The counts of two batches of rows add up. */
  lemma {:induction false} SummaryAppend(a: seq<Row>, b: seq<Row>)
    ensures Summary(a + b) == Add(Summary(a), Summary(b))
    decreases |b|
  {
    if |b| == 0 {
      assert a + b == a;
    } else {
      var b0 := b[..|b| - 1];
      assert (a + b)[..|a + b| - 1] == a + b0;
      SummaryAppend(a, b0);
    }
  }

  /** How often a pin is driven high. */
  function HighWrites(ws: seq<Write>, pin: int): nat
    decreases |ws|
  {
    if |ws| == 0 then 0
    else HighWrites(ws[..|ws| - 1], pin) + (if ws[|ws| - 1] == Write(pin, true) then 1 else 0)
  }

  lemma {:induction false} HighWritesAppend(a: seq<Write>, b: seq<Write>, pin: int)
    ensures HighWrites(a + b, pin) == HighWrites(a, pin) + HighWrites(b, pin)
    decreases |b|
  {
    if |b| == 0 {
      assert a + b == a;
    } else {
      var b0 := b[..|b| - 1];
      assert (a + b)[..|a + b| - 1] == a + b0;
      HighWritesAppend(a, b0, pin);
    }
  }

  predicate DistinctPins(pins: Pins) {
    pins.leftPoke != pins.rightPoke && pins.leftPoke != pins.pellet && pins.rightPoke != pins.pellet
  }

  /** Every port's three pins are distinct. */
  lemma PortPinsDistinct(name: string)
    requires name in GpioPins
    ensures DistinctPins(GpioPins[name])
  {
  }

  /** Each event drives the left pin high once exactly when it counts as
      Left, and the right pin once exactly when it counts as Right. */
  lemma PulsesMatchKind(w: Wells, port: string, pins: Pins, k: EventKind)
    requires DistinctPins(pins)
    ensures var e := ProcessEvent(w, port, pins, k);
      && HighWrites(e.1, pins.leftPoke) == KindTally(k).left
      && HighWrites(e.1, pins.rightPoke) == KindTally(k).right
  {
    var e := ProcessEvent(w, port, pins, k);
    if k == Pellet || k == PelletInWell {
      PelletWritesOffPokePins(w, port, pins, k);
    } else if k != Other {
      var pin := if k == Left || k == LeftWithPellet then pins.leftPoke else pins.rightPoke;
      assert e.1 == Pulse(pin);
      PulseHighWrites(pin, pins.leftPoke);
      PulseHighWrites(pin, pins.rightPoke);
    }
  }

  /** A pulse drives its own pin high once and no other pin. */
  lemma PulseHighWrites(pin: int, x: int)
    ensures HighWrites(Pulse(pin), x) == if pin == x then 1 else 0
  {
    var w := Pulse(pin);
    var head := w[..1];
    assert head[..0] == [];
    assert HighWrites(head, x) == HighWrites(head[..0], x) + (if pin == x then 1 else 0);
    assert w[..|w| - 1] == head;
  }

  /** The row a pass saves and the writes it makes. */
  lemma StepParts(p: Port, port: string, pins: Pins, pass: Pass)
    ensures var r := ReadStep(p, port, pins, pass);
      && (|r.0.saved| == |p.saved| ==> r.1 == [])
      && (|r.0.saved| == |p.saved| + 1 ==>
            var row := r.0.saved[|p.saved|];
            && r.0.saved == p.saved + [row]
            && |row| >= 10
            && r.1 == ProcessEvent(p.wells, port, pins, Classify(row[9])).1)
  {
    var r := ReadStep(p, port, pins, pass);
    if |r.0.saved| == |p.saved| + 1 {
      var parsed := Parse(Strip(pass.raw.value), pass.stamp).value;
      StripIdempotent(parsed.0[9]);
      assert Kind(parsed.0[9]) == Kind(parsed.1);
    }
  }

  /** One pass: the summary's Left and Right counts move with the poke pins'
      pulses. */
  lemma StepSummary(p: Port, port: string, pins: Pins, pass: Pass)
    requires DistinctPins(pins)
    ensures var r := ReadStep(p, port, pins, pass);
      && Summary(r.0.saved).left == Summary(p.saved).left + HighWrites(r.1, pins.leftPoke)
      && Summary(r.0.saved).right == Summary(p.saved).right + HighWrites(r.1, pins.rightPoke)
  {
    var r := ReadStep(p, port, pins, pass);
    StepParts(p, port, pins, pass);
    if |r.0.saved| == |p.saved| + 1 {
      var row := r.0.saved[|p.saved|];
      assert r.0.saved[..|r.0.saved| - 1] == p.saved;
      assert Summary(r.0.saved) == Add(Summary(p.saved), KindTally(Classify(row[9])));
      PulsesMatchKind(p.wells, port, pins, Classify(row[9]));
    } else {
      assert r.0.saved == p.saved;
    }
  }

  /** The pellet handler never drives a poke pin. */
  lemma PelletWritesOffPokePins(w: Wells, port: string, pins: Pins, k: EventKind)
    requires DistinctPins(pins)
    ensures var e := ProcessEvent(w, port, pins, k);
      (k == Pellet || k == PelletInWell) ==>
        HighWrites(e.1, pins.leftPoke) == 0 && HighWrites(e.1, pins.rightPoke) == 0
  {
    var h := HandlePellet(w, port, pins, k).1;
    NoWritesOnOtherPins(h, pins.leftPoke);
    NoWritesOnOtherPins(h, pins.rightPoke);
  }

  lemma {:induction false} NoWritesOnOtherPins(ws: seq<Write>, pin: int)
    requires forall i :: 0 <= i < |ws| ==> ws[i].pin != pin
    ensures HighWrites(ws, pin) == 0
    decreases |ws|
  {
    if |ws| > 0 {
      NoWritesOnOtherPins(ws[..|ws| - 1], pin);
    }
  }

  /** Over a whole logging run, the summary counts one Left row per left-pin
      pulse and one Right row per right-pin pulse. */
  lemma {:induction false} SummaryMatchesPulses(p: Port, port: string, pins: Pins, passes: seq<Pass>)
    requires DistinctPins(pins)
    ensures var r := ReadRun(p, port, pins, passes);
      && Summary(r.0.saved).left == Summary(p.saved).left + HighWrites(r.1, pins.leftPoke)
      && Summary(r.0.saved).right == Summary(p.saved).right + HighWrites(r.1, pins.rightPoke)
    decreases |passes|
  {
    if |passes| > 0 {
      var before := ReadRun(p, port, pins, passes[..|passes| - 1]);
      SummaryMatchesPulses(p, port, pins, passes[..|passes| - 1]);
      var step := ReadStep(before.0, port, pins, passes[|passes| - 1]);
      StepSummary(before.0, port, pins, passes[|passes| - 1]);
      HighWritesAppend(before.1, step.1, pins.leftPoke);
      HighWritesAppend(before.1, step.1, pins.rightPoke);
    }
  }

  // ------------------------------------------------------------ identification

  /** `identification_thread` on one stripped line: the device number in
      field 5 of a line with six fields that is not a poke reply (the worker
      then stops), or else whether field 9 of a ten-field line names a left,
      right or pellet event, which blinks the indicator. */
  function TtlIdentify(line: string): (r: (Option<string>, bool))
    ensures var fields := Split(line, ',');
      && (r.0.Some? <==> line != "" && |fields| >= 6 && !Contains(line, "TRIGGER_POKE") && Strip(fields[5]) != "")
      && (r.0.Some? ==> r.0.value == Strip(fields[5]) && !r.1)
      && (r.1 <==> r.0.None? && line != "" && |fields| >= 10 && Classify(fields[9]) in {Right, Pellet, Left})
  {
    if line == "" then (None, false)
    else
      var fields := Split(line, ',');
      if |fields| >= 6 && !Contains(line, "TRIGGER_POKE") && Strip(fields[5]) != "" then
        (Some(Strip(fields[5])), false)
      else
        (None, |fields| >= 10 && Classify(fields[9]) in {Right, Pellet, Left})
  }

  // ------------------------------------------------------------ firmware rows

  /** Field 9 of a firmware row is the Event column only when the board has
      the temperature sensor; without it the position holds
      Left_Poke_Count. */
  lemma Field9(s: Snapshot)
    requires CommaFreeTexts(s)
    ensures var fields := Split(LogData(false, s).value, ',');
      && |fields| >= 10
      && (s.climate.Some? ==> fields[9] == s.event)
      && (s.climate.None? ==> fields[9] == IntToString(s.leftCount))
  {
    assert Split(LogData(false, s).value, ',') == LogFields(s) by {
      RowSplit(s);
    }
    if s.climate.Some? {
      EventColumn(s);
    } else {
      RowColumn(s, 8);
      RecordAt(s);
    }
  }

  /** Every firmware row is saved by the logging thread, and the event it
      reads is the row's field 9. */
  lemma LogRowParsed(s: Snapshot, stamp: string)
    requires CommaFreeTexts(s)
    ensures var r := Parse(LogData(false, s).value, stamp);
      r.Some? && r.value.1 == Strip(Split(LogData(false, s).value, ',')[9])
  {
    var line := LogData(false, s).value;
    assert Split(line, ',') == LogFields(s) by { RowSplit(s); }
    ContainsSep(LogFields(s), ',');
    assert |LogFields(s)| >= 10;
  }

  /** On a sensor board, the logging thread saves the row and reacts to the
      row's own event. */
  lemma SensorRowEvent(s: Snapshot, stamp: string)
    requires CommaFreeTexts(s) && s.climate.Some?
    ensures var r := Parse(LogData(false, s).value, stamp);
      r.Some? && r.value.1 == Strip(s.event)
  {
    Field9(s);
    LogRowParsed(s, stamp);
  }

  /** A poke count is none of the compared event names. */
  lemma CountIsNoEvent(n: int)
    ensures Classify(Strip(IntToString(n))) == Other
  {
    var t := IntToString(n);
    IntHasNoMargin(n);
    StripIdempotent(t);
    var k := Kind(Strip(t));
    var d := NatToString(if n < 0 then -n else n);
    assert IsDigit(d[0]);
    assert t[0] == '-' || IsDigit(t[0]);
    assert k[0] == t[0];
    ClassifyNames(Strip(t));
  }

  /** On a board without the sensor, the thread still saves the row, but
      the "event" it reads is a poke count: no pin is driven and the
      indicator stays dark, whatever the board did. */
  lemma NoSensorRowSilent(s: Snapshot, stamp: string, w: Wells, port: string, pins: Pins)
    requires CommaFreeTexts(s) && s.climate.None?
    ensures var r := Parse(LogData(false, s).value, stamp);
      && r.Some?
      && var e := ProcessEvent(w, port, pins, Classify(r.value.1));
      e.1 == [] && !e.3 && e.0 == w
  {
    Field9(s);
    LogRowParsed(s, stamp);
    CountIsNoEvent(s.leftCount);
  }
}

=== FILE: ttl_ports.dfy ===
/**
 The TTL script's fixed port naming. The serial devices present are listed
 in sorted order. The first eight new ones get the names "Port 1" to
 "Port 8" for the whole session. Each name has its own three GPIO pins, and
 a port logs only if its name has pins.
 */
module TtlPorts {
  import opened Text

  /** `len(port_names)`. */
  const PortCount: nat := 8

  /** `port_names[i]`. */
  function PortName(i: nat): string {
    "Port " + NatToString(i + 1)
  }

  lemma {:induction false} PortNamesDistinct(i: nat, j: nat)
    requires i < PortCount && j < PortCount && i != j
    ensures PortName(i) != PortName(j)
  {
    assert NatToString(i + 1) == [DigitChar(i + 1)];
    assert NatToString(j + 1) == [DigitChar(j + 1)];
    assert PortName(i)[5] != PortName(j)[5];
  }

  datatype Pins = Pins(leftPoke: int, rightPoke: int, pellet: int)

  /** `gpio_pins_per_device` (BCM numbering). */
  const GpioPins: map<string, Pins> := map[
    "Port 1" := Pins(17, 27, 22),
    "Port 2" := Pins(10, 9, 11),
    "Port 3" := Pins(0, 5, 6),
    "Port 4" := Pins(13, 19, 26),
    "Port 5" := Pins(14, 15, 18),
    "Port 6" := Pins(23, 24, 25),
    "Port 7" := Pins(8, 7, 1),
    "Port 8" := Pins(12, 16, 20)]

  /** Exactly the eight port names have pins. */
  lemma {:induction false} PinsForEveryName(i: nat)
    requires i < PortCount
    ensures PortName(i) in GpioPins
  {
    assert NatToString(i + 1) == [DigitChar(i + 1)];
    if i == 0 { assert PortName(i) == "Port 1"; }
    else if i == 1 { assert PortName(i) == "Port 2"; }
    else if i == 2 { assert PortName(i) == "Port 3"; }
    else if i == 3 { assert PortName(i) == "Port 4"; }
    else if i == 4 { assert PortName(i) == "Port 5"; }
    else if i == 5 { assert PortName(i) == "Port 6"; }
    else if i == 6 { assert PortName(i) == "Port 7"; }
    else { assert PortName(i) == "Port 8"; }
  }

  lemma PinsOnlyForNames()
    ensures |GpioPins| == PortCount
  {
    assert GpioPins.Keys == {"Port 1", "Port 2", "Port 3", "Port 4", "Port 5", "Port 6", "Port 7", "Port 8"};
  }

  // ------------------------------------------------------------ device list

  /** Python's `<=` on strings: code point by code point, a prefix first. */
  predicate LexLe(a: string, b: string)
    decreases |a|
  {
    |a| == 0 || (|b| > 0 && (a[0] < b[0] || (a[0] == b[0] && LexLe(a[1..], b[1..]))))
  }

  lemma {:induction false} LexTotal(a: string, b: string)
    ensures LexLe(a, b) || LexLe(b, a)
    decreases |a|
  {
    if |a| > 0 && |b| > 0 && a[0] == b[0] {
      LexTotal(a[1..], b[1..]);
    }
  }

  /** Each element is no greater than the next. */
  predicate Sorted(s: seq<string>) {
    forall i :: 0 < i < |s| ==> LexLe(s[i - 1], s[i])
  }

  function Insert(x: string, s: seq<string>): (r: seq<string>)
    requires Sorted(s)
    ensures Sorted(r) && multiset(r) == multiset(s) + multiset{x}
    ensures |r| > 0 && (r[0] == x || (|s| > 0 && r[0] == s[0]))
    decreases |s|
  {
    if |s| == 0 then [x]
    else if LexLe(x, s[0]) then [x] + s
    else
      LexTotal(x, s[0]);
      var rest := Insert(x, s[1..]);
      assert s == [s[0]] + s[1..];
      [s[0]] + rest
  }

  /** `list.sort()` on strings, as an insertion sort. */
  function Sort(s: seq<string>): (r: seq<string>)
    ensures Sorted(r) && multiset(r) == multiset(s)
    decreases |s|
  {
    if |s| == 0 then []
    else
      assert s == [s[0]] + s[1..];
      Insert(s[0], Sort(s[1..]))
  }

  /** A resolved device path the script treats as a serial device. */
  predicate IsSerialPath(p: string) {
    Contains(p, "ttyACM") || Contains(p, "ttyUSB")
  }

  function SerialPaths(paths: seq<string>): (r: seq<string>)
    ensures forall x :: x in r ==> IsSerialPath(x) && x in paths
    ensures forall x :: x in paths && IsSerialPath(x) ==> x in r
    decreases |paths|
  {
    if |paths| == 0 then []
    else (if IsSerialPath(paths[0]) then [paths[0]] else []) + SerialPaths(paths[1..])
  }

  /** `get_current_serial_devices`: the resolved `by-path` links that name a
      ttyACM or ttyUSB device, in sorted order. */
  function CurrentDevices(paths: seq<string>): (r: seq<string>)
    ensures Sorted(r) && multiset(r) == multiset(SerialPaths(paths))
    ensures forall x :: x in r <==> x in paths && IsSerialPath(x)
  {
    var s := SerialPaths(paths);
    var r := Sort(s);
    assert forall x :: x in r <==> x in multiset(r);
    r
  }

  // ------------------------------------------------------------ mapping

  /** `perform_initial_device_mapping` from the counter value `i` on: each
      listed device not yet known takes the next free name while names are
      left. The second result lists the devices named, in order. */
  function Assign(known: map<string, string>, devices: seq<string>, i: nat): (r: (map<string, string>, seq<string>))
    requires i <= PortCount
    ensures i + |r.1| <= PortCount
    ensures forall j :: 0 <= j < |r.1| ==> r.1[j] in devices && r.1[j] !in known && r.1[j] in r.0 && r.0[r.1[j]] == PortName(i + j)
    ensures forall j, k :: 0 <= j < k < |r.1| ==> r.1[j] != r.1[k]
    ensures forall d :: d in known ==> d in r.0 && r.0[d] == known[d]
    ensures forall d :: d in r.0 ==> d in known || d in r.1
    ensures i + |r.1| < PortCount ==> forall d :: d in devices ==> d in r.0
    decreases |devices|
  {
    if |devices| == 0 then (known, [])
    else
      var dev := devices[0];
      if dev !in known && i < PortCount then
        var rest := Assign(known[dev := PortName(i)], devices[1..], i + 1);
        (rest.0, [dev] + rest.1)
      else
        Assign(known, devices[1..], i)
  }

  function InitialMapping(known: map<string, string>, devices: seq<string>): (m: map<string, string>) {
    Assign(known, devices, 0).0
  }

  /** Starting from no known devices, at most eight devices are named, each
      name is one of "Port 1".."Port 8", and no name is used twice. If fewer
      than eight were named, every listed device was. */
  lemma InitialMappingDistinct(devices: seq<string>)
    ensures var m := InitialMapping(map[], devices);
      && |m.Keys| <= PortCount
      && (forall d :: d in m ==> d in devices && m[d] in GpioPins)
      && (forall a, b :: a in m && b in m && a != b ==> m[a] != m[b])
      && (|m.Keys| < PortCount ==> forall d :: d in devices ==> d in m)
  {
    MappingNamesHavePins(devices);
    MappingInjective(devices);
    MappingCount(devices);
  }

  lemma MappingNamesHavePins(devices: seq<string>)
    ensures var m := InitialMapping(map[], devices);
      forall d :: d in m ==> d in devices && m[d] in GpioPins
  {
    var r := Assign(map[], devices, 0);
    forall d | d in r.0
      ensures d in devices && r.0[d] in GpioPins
    {
      var j :| 0 <= j < |r.1| && r.1[j] == d;
      PinsForEveryName(j);
    }
  }

  lemma MappingInjective(devices: seq<string>)
    ensures var m := InitialMapping(map[], devices);
      forall a, b :: a in m && b in m && a != b ==> m[a] != m[b]
  {
    var r := Assign(map[], devices, 0);
    forall x, y | x in r.0 && y in r.0 && x != y
      ensures r.0[x] != r.0[y]
    {
      var j :| 0 <= j < |r.1| && r.1[j] == x;
      var k :| 0 <= k < |r.1| && r.1[k] == y;
      PortNamesDistinct(j, k);
    }
  }

  lemma MappingCount(devices: seq<string>)
    ensures var m := InitialMapping(map[], devices);
      |m.Keys| <= PortCount && (|m.Keys| < PortCount ==> forall d :: d in devices ==> d in m)
  {
    var r := Assign(map[], devices, 0);
    assert r.0.Keys == set j | 0 <= j < |r.1| :: r.1[j];
    DistinctCount(r.1);
  }

  /** A list without repeats has as many distinct elements as entries. */
  lemma {:induction false} DistinctCount(a: seq<string>)
    requires forall j, k :: 0 <= j < k < |a| ==> a[j] != a[k]
    ensures |set j | 0 <= j < |a| :: a[j]| == |a|
    decreases |a|
  {
    if |a| > 0 {
      var b := a[..|a| - 1];
      DistinctCount(b);
      var sb := set j | 0 <= j < |b| :: b[j];
      assert (set j | 0 <= j < |a| :: a[j]) == sb + {a[|a| - 1]};
      assert a[|a| - 1] !in sb;
    }
  }

  /** `get_device_mappings_by_usb_port`: the present devices that have a
      name, each with it, in listing order. */
  function MappingsByUsbPort(known: map<string, string>, current: seq<string>): (r: seq<(string, string)>)
    ensures |r| <= |current|
    ensures forall k :: 0 <= k < |r| ==> r[k].0 in current && r[k].0 in known && r[k].1 == known[r[k].0]
    ensures forall d :: d in current && d in known ==> (d, known[d]) in r
    decreases |current|
  {
    if |current| == 0 then []
    else
      var rest := MappingsByUsbPort(known, current[1..]);
      (if current[0] in known then [(current[0], known[current[0]])] else []) + rest
  }

  // ------------------------------------------------------------ logging guard

  /** `start_logging_for_port`: nothing when the name already logs (it is a
      key of `serial_ports`) or has no pins; otherwise it logs from `path`. */
  function StartLogging(serialPorts: map<string, string>, path: string, name: string): (r: (map<string, string>, bool))
    ensures r.1 <==> name !in serialPorts && name in GpioPins
    ensures r.0 == if r.1 then serialPorts[name := path] else serialPorts
  {
    if name in serialPorts then (serialPorts, false)
    else if name !in GpioPins then (serialPorts, false)
    else (serialPorts[name := path], true)
  }

  /** Only names with pins ever log, so at most eight ports log at once, and
      a name that logs keeps its first path. */
  lemma StartLoggingBounded(serialPorts: map<string, string>, path: string, name: string)
    requires serialPorts.Keys <= GpioPins.Keys
    ensures var r := StartLogging(serialPorts, path, name).0;
      r.Keys <= GpioPins.Keys && |r| <= PortCount
      && forall n :: n in serialPorts ==> r[n] == serialPorts[n]
  {
    var r := StartLogging(serialPorts, path, name).0;
    PinsOnlyForNames();
    assert |r.Keys| <= |GpioPins.Keys| by {
      SubsetCard(r.Keys, GpioPins.Keys);
    }
  }

  lemma SubsetCard(a: set<string>, b: set<string>)
    requires a <= b
    ensures |a| <= |b|
  {
    assert b == a + (b - a);
  }
}

=== FILE: wrappers.dfy ===
/** Option, the one failure-carrying datatype the model needs. */
module Wrappers {

  datatype Option<+T> = None | Some(value: T) {

    /** The carried value, or `default` when there is none. */
    function GetOr(default: T): T {
      match this
      case Some(v) => v
      case None => default
    }
  }
}
